=== FILE: README.md ===
# Leveled list resolver and generator, modelled in Dafny

The repository is a Synthesis patcher for Skyrim. It merges the leveled item, NPC and
spell lists that several plugins override into one record in the output plugin
("Leveled Lists.esp"). It comes in two revisions, and this model covers the merging core
of both:

- `leveledlistresolver/`. Each record gets a graph of the plugins that define it (a
  master graph in `MajorRecordGraphBase`, an override graph in `LeveledNpcGraph`). The
  "extent" records at the graph's ends supply the scalar fields (last value that differs
  from the base record) and the entries: what each extent added beyond the base, plus
  what every extent kept.
  - Lists longer than 255 entries are split into sublist records in the patch.
  - The `RecordPatcher` family does the same merge over extent contexts. It also sorts
    by level, chunks more than 255 entries and skips a copy that changes nothing.
- `leveledlistgenerator/`. The older override graph of item and NPC lists, with a
  depth-first search from `ModKey.Null` to the end points and a cache of the paths
  found. Its `Patcher` takes the first 255 merged entries, removes null entries and
  links to empty sublists, and skips an unchanged copy.

## Structure

| file | module | models |
|---|---|---|
| types.dfy | Types | records, entries, plugin and form keys, errors as values |
| list_algebra.dfy | ListAlgebra | order-preserving multiset intersection and difference, folds, chunks, windows, sorting, filters |
| utility.dfy | Utility | the resolver's `Utility` extension methods |
| unseen.dfy | Unseen | the library list helpers the code calls but does not define, as parameters |
| scalars.dfy | Scalars | the "last value differing from Base" rule of every scalar getter |
| patch.dfy | Patch | the output plugin: records created (`AddNew`, `Add`) and overrides set (`Set`) |
| paths.dfy | Paths | the recursive `Visit` of the path searches and what it finds |
| graph_base.dfy | GraphBase | `MajorRecordGraphBase`: masters, adjacency, extents, ExtentBase, GetEditorID, ToString |
| resolver_item_graph.dfy | ResolverItemGraph | the resolver's `LeveledItemGraph.GetEntries` with its sublist chain |
| resolver_spell_graph.dfy | ResolverSpellGraph | the resolver's `LeveledSpellGraph.GetEntries` with its batches |
| override_graph.dfy | OverrideGraph | hanging plugins under defining masters, and the pruning pass |
| resolver_npc_graph.dfy | ResolverNpcGraph | the resolver's `LeveledNpcGraph` |
| resolver_patcher.dfy | ResolverPatcher | the resolver's `Patcher`: selection, copy, skip |
| record_patcher*.dfy | RecordPatcher, RecordPatcherItem, RecordPatcherNpc, RecordPatcherSpell | the three `RecordPatcher.Try` methods |
| generator_graph.dfy | GeneratorGraph | the linking loop and end points the generator's graphs share |
| generator_item_graph.dfy | GeneratorItemGraph | the generator's `LeveledItemGraph` |
| generator_npc_graph.dfy | GeneratorNpcGraph | the generator's `LeveledNpcGraph` |
| generator_patcher.dfy | GeneratorPatcher | the generator's `Patcher` |

Some things the code takes from its environment are parameters of the model:

- The link cache is `LinkCache`, a map from form keys to resolved lists.
- The load order is a sequence of `ModInfo` (key and master references), in listed or
  priority order as the code uses it.
- `Guid.NewGuid()` is a `guid` string parameter and `Utility.Timestamp`'s date is a
  `stamp` parameter.
- The enumeration order of a hash set or an immutable dictionary is not specified by
  .NET. It is either an explicit sequence that enumerates the set (`Enumerates`), or a
  function from the set's contents to a sequence (`Order`, `enumerate`). Every property
  holds for every such order.
- `Without`, `ExceptWith`, `IntersectWith` and `And` are extension methods from
  libraries outside the repository that the calling files import. They are fields of `Unseen.Helpers`. Where a property needs
  them, it assumes only that each returns some of its first argument's elements
  (`Drawn`).

Two places where the source is not self-consistent:

- `leveledlistresolver/Patcher.cs:49` calls `graph.GetEditorId()` on a
  `LeveledItemGraph`, which declares no such member. The base class has `GetEditorID`
  (`MajorRecordGraphBase.cs:82-89`), and `ResolverPatcher.ItemCopy` uses it.
- The resolver's `LeveledNpcGraph` compares EditorIDs with `id is not null && !id.Equals(...)`
  (`Scalars.Renamed`). `MajorRecordGraphBase.GetEditorID` instead accepts a record whose
  EditorID is null (`GraphBase.Unlike`). Both are modelled as written.

## Model

| member | source | states |
|---|---|---|
| Utility.IntersectExt | leveledlistresolver/Utility.cs:21-52 | nothing when `source` is empty or `other` is null or empty; otherwise exactly the order-preserving multiset intersection `Intersect(source, multiset(other))` |
| ListAlgebra.IntersectCounts | leveledlistresolver/Utility.cs:28-51 | every value occurs in the intersection min(count in source, count in other) times |
| ListAlgebra.IntersectIsSubseq | leveledlistresolver/Utility.cs:41-51 | the intersection is a subsequence of `source`, in source order |
| ListAlgebra.IntersectNothing | leveledlistresolver/Utility.cs:25-26 | an empty `other` keeps nothing |
| Utility.Tally | leveledlistresolver/Utility.cs:65-71 | the counting loop (`TryAdd(it, 1)` else increment) leaves each value's count equal to its number of occurrences |
| Utility.UnsortedEqual | leveledlistresolver/Utility.cs:54-81 | true exactly when both are null, or both are present and hold the same multiset (so equal lengths) |
| Utility.SameUnsortedSymmetric | leveledlistresolver/Utility.cs:54-81 | UnsortedEqual is symmetric |
| Utility.DisjunctLeft | leveledlistresolver/Utility.cs:83-110 | `left` unchanged when `right` is null or empty; otherwise the order-preserving multiset difference `Disjunct(left, multiset(right))` |
| Utility.SkipCounted | leveledlistresolver/Utility.cs:100-109 | the second loop skips an element while its count is positive and decrements it, which is `Disjunct` |
| ListAlgebra.DisjunctCounts | leveledlistresolver/Utility.cs:100-109 | every value occurs max(0, count in left - count in right) times |
| ListAlgebra.DisjunctIsSubseq | leveledlistresolver/Utility.cs:100-109 | the difference is a subsequence of `left` (the earliest occurrences are the dropped ones) |
| ListAlgebra.DisjunctNothing | leveledlistresolver/Utility.cs:85-90 | an empty `right` leaves `left` unchanged |
| Utility.IsNullOrEmptySublist | leveledlistresolver/Utility.cs:127-146 | true for a null entry; otherwise true exactly when the reference resolves to a list of the same kind with null or no entries; an unresolved reference gives false (the generator's overloads in leveledlistgenerator/Patcher.cs:145-165 are the same test) |
| Utility.Timestamp | leveledlistresolver/Utility.cs:19 | day in bits 0-4, month in bits 5-8, max(1, year - 2000) from bit 9: each field reads back unchanged |
| Utility.StampFields | leveledlistresolver/Utility.cs:19 | the packing is lossless for fields within their widths |
| Utility.MastersIn | leveledlistresolver/Utility.cs:163 | the master references of the first listed plugin with that key, none when it is not listed |
| Utility.FirstWithModIn | leveledlistresolver/Utility.cs:168 | the record of the first context whose plugin is in `keys`, else the origin |
| Utility.GetLowestOverride | leveledlistresolver/Utility.cs:148-171 | the loop that narrows the defining plugins to the masters of every context computes `LowestOverride`: IndexOutOfRange on no context, the origin on one or two |
| Utility.LowestOverrideIsSharedMaster | leveledlistresolver/Utility.cs:160-170 | with three or more contexts the result is the origin or the record of the first context whose plugin is a master of every context's plugin |
| Utility.LowestOverrideIsOrigin | leveledlistresolver/Utility.cs:160-170 | when no plugin lists itself as a master the shared-master set is empty and the origin is returned |
| Utility.IndexOf | leveledlistresolver/Utility.cs:192 | the position of the first listed plugin with that key, or -1 |
| Utility.GetExtentContexts | leveledlistresolver/Utility.cs:173-198 | the loop over all contexts but the last, growing `refs`, computes `ExtentContexts` |
| Utility.ExtentWalkShape | leveledlistresolver/Utility.cs:185-197 | the yielded contexts are a subsequence of the walked ones, and a context whose plugin is not in `refs` is yielded |
| Utility.ExtentContextsShape | leveledlistresolver/Utility.cs:176-197 | with two contexts or fewer only the first (nothing if none); otherwise an in-order subsequence of all but the last that starts with the first |
| Utility.ExtentWalkSucceeds | leveledlistresolver/Utility.cs:192-193 | the walk fails (the index -1 lookup) only on a yielded plugin missing from the listed order |
| GraphBase.WidenedMasters | leveledlistresolver/MajorRecordGraphBase.cs:53 | `masters.UnionWith(masters.SelectMany(m => mastersDictionary[m]))`: fails exactly when a master has no master set; otherwise the masters plus their masters' sets, and nothing else |
| GraphBase.LinkMasters | leveledlistresolver/MajorRecordGraphBase.cs:55-61 | the inner loop adds the plugin under each master whose children do not overlap the widened set |
| GraphBase.LinkStep | leveledlistresolver/MajorRecordGraphBase.cs:51-62 | one turn of the main loop keeps the constructor's invariant: keys are the defining plugins, master sets hold defining plugins widened one level, every edge runs from a master, and an edge is added exactly when the master's children avoid the set |
| GraphBase.RecordMap | leveledlistresolver/MajorRecordGraphBase.cs:45 | each defining plugin maps to its record, and only defining plugins are keys |
| GraphBase.ExtentMasters | leveledlistresolver/MajorRecordGraphBase.cs:69 | the `FindAll` fold keeps, in load order, the plugins that are a master of every extent plugin, and fails only on an extent plugin without a master set |
| GraphBase.LinkAll | leveledlistresolver/MajorRecordGraphBase.cs:46-62 | the main loop succeeds exactly when every master lookup finds an enabled plugin, and then leaves the full invariant |
| GraphBase.EnabledFail | leveledlistresolver/MajorRecordGraphBase.cs:53 | a master without a master set means some defining plugin's master is not enabled |
| GraphBase.LinkedAcyclic | leveledlistresolver/MajorRecordGraphBase.cs:49-62 | with masters loading first, every edge runs from an earlier plugin to a later one |
| GraphBase.ExtentModsOf | leveledlistresolver/MajorRecordGraphBase.cs:68 | the extent plugins are exactly the nodes with no child or with the patch plugin as a child, in dictionary order |
| GraphBase.ExtentRecordsOf | leveledlistresolver/MajorRecordGraphBase.cs:72 | ExtentRecords are exactly the records of the extent plugins |
| GraphBase.Extents | leveledlistresolver/MajorRecordGraphBase.cs:66-72 | extent plugins, ExtentRecords, and ExtentBase as the record of the latest plugin that is a master of every extent plugin, else Base |
| GraphBase.ChosenExtentBase | leveledlistresolver/MajorRecordGraphBase.cs:69-71 | the last entry of the load-ordered common-master list is the latest common master |
| GraphBase.Build | leveledlistresolver/MajorRecordGraphBase.cs:34-75 | Base and ModKey come from the last context (the first definition); ArgumentOutOfRange on no context; KeyNotFound only when a defining plugin is not enabled; the adjacency, extents and ExtentBase facts above hold |
| GraphBase.BuiltRanked | leveledlistresolver/MajorRecordGraphBase.cs:49-62 | with masters loading first, the load-order rank drops along every edge, so the adjacency has no cycle |
| GraphBase.EditorIdOf | leveledlistresolver/MajorRecordGraphBase.cs:82-89 | the last extent record whose EditorID is absent or differs from Base's; its EditorID when present, else Base's EditorID, else a fresh GUID |
| GraphBase.EditorIdOfNamed | leveledlistresolver/MajorRecordGraphBase.cs:84 | a last extent record without a name hides every earlier rename |
| GraphBase.Childless | leveledlistresolver/MajorRecordGraphBase.cs:107 | the dictionary entries without children |
| GraphBase.Describe | leveledlistresolver/MajorRecordGraphBase.cs:96-129 | `MissingStart` (in place of the message) exactly when the start plugin is not a node; otherwise the header's EditorID and exactly the walks from the start to a childless plugin |
| GraphBase.ChildlessWalks | leveledlistresolver/MajorRecordGraphBase.cs:109-126 | the listed paths are exactly the walks from the start to a plugin without children |
| Paths.Visit | leveledlistresolver/MajorRecordGraphBase.cs:112-126 | the recursive `Visit` with an immutable path appends exactly `PathsTo(node, end, path)` to the builder |
| Paths.VisitAll | leveledlistresolver/MajorRecordGraphBase.cs:109-110 | one `Visit(start, end, [start])` per end, into one builder |
| Paths.PathsToSound | leveledlistresolver/MajorRecordGraphBase.cs:112-126 | every reported path extends the current path along edges and ends at the end node |
| Paths.PathsToComplete | leveledlistresolver/MajorRecordGraphBase.cs:112-126 | every walk from the node to the end is reported |
| Paths.ListingIsWalks | leveledlistresolver/LeveledNpcGraph.cs:64-93 | a listing holds exactly the walks from the start to one of the ends |
| OverrideGraph.Parents | leveledlistresolver/LeveledNpcGraph.cs:38-41 | a plugin hangs off exactly its masters that define the record, or off ModKey.Null alone when none does (always when it has no masters) |
| OverrideGraph.HangUnder | leveledlistresolver/LeveledNpcGraph.cs:43-46 | the plugin is added to the child set of each of its parents and no other set changes |
| OverrideGraph.PruneChildren | leveledlistresolver/LeveledNpcGraph.cs:51-55 | pruning one child set, with members enumerated in any order and removed ones skipped: only that set shrinks, no kept member has a child in the set, and each removed member was a child of another member |
| OverrideGraph.Prune | leveledlistresolver/LeveledNpcGraph.cs:49-56 | the whole pruning pass keeps the nodes, only shrinks child sets, leaves no set holding a node and one of its children, and removes only children covered by another member |
| OverrideGraph.CoveredTrans | leveledlistresolver/LeveledNpcGraph.cs:49-56 | pruning one set after the others keeps every removal covered by the original graph |
| OverrideGraph.PruningKeepsLeaves | leveledlistgenerator/LeveledItemGraph.cs:53-61 | in a graph without cycles pruning never empties a child set: a node has no children after pruning exactly when it had none before |
| OverrideGraph.ChildKept | leveledlistgenerator/LeveledItemGraph.cs:53-61 | in a graph without cycles every child keeps at least one parent after pruning (its lowest-ranked parent keeps it) |
| OverrideGraph.PruningKeepsEnds | leveledlistgenerator/LeveledItemGraph.cs:53-61 | so the end points (nodes without children that hang off some node) are the same before and after pruning |
| OverrideGraph.ShrunkRanked | leveledlistgenerator/LeveledItemGraph.cs:53-61 | pruning keeps the graph acyclic: the same ranks still drop along every edge |
| ResolverItemGraph.AddedStreamKept | leveledlistresolver/LeveledItemGraph.cs:58-76 | no added entry is null or a link to an empty sublist |
| ResolverItemGraph.StreamKept | leveledlistresolver/LeveledItemGraph.cs:58-94 | no entry GetEntries produces, added or common, is null or a link to an empty sublist |
| ResolverItemGraph.AddedFromExtents | leveledlistresolver/LeveledItemGraph.cs:58-76 | with helpers that only draw from their first argument, every added entry comes from some extent list |
| ResolverItemGraph.CommonFromBase | leveledlistresolver/LeveledItemGraph.cs:78-82 | the common entries are a subsequence of the ExtentBase entries, and each kept entry occurs as often as the least count among the base and all extent lists |
| ResolverItemGraph.ChainKeepsItems | leveledlistresolver/LeveledItemGraph.cs:102-110 | the corrected sublist chain links records with consecutive FormKeys, none over 255 entries, and reading it back gives every overflow item once, in order |
| ResolverItemGraph.ChainAsWrittenDropsItem | leveledlistresolver/LeveledItemGraph.cs:106 | with the split as written, 256 to 510 overflow items read back without the item at index 254, one item short |
| ResolverItemGraph.ChainAsWrittenLinked | leveledlistresolver/LeveledItemGraph.cs:102-110 | the chain as written still links records with consecutive FormKeys, none over 255 entries, but reads back one item short per link |
| ResolverItemGraph.Sublist | leveledlistresolver/LeveledItemGraph.cs:102-110 | the helper returns a link to the first new record and appends to the patch the chain as written (each record over 255 items keeps `items[0..254]`, links to a chain of `items[255..]` and so loses the item at index 254), leaving the overrides alone |
| ResolverItemGraph.CappedSplit | leveledlistresolver/LeveledItemGraph.cs:65-74 | once capped, the yielded part is exactly the first 254 entries of the stream and the set-aside part is the rest |
| ResolverItemGraph.Route | leveledlistresolver/LeveledItemGraph.cs:65-74 | one entry is yielded while fewer than 254 are, else set aside; the stream grows by that entry and the cap holds |
| ResolverItemGraph.RouteAll | leveledlistresolver/LeveledItemGraph.cs:84-94 | routing the common entries in order appends them all to the stream and keeps the cap |
| ResolverItemGraph.AddedEntries | leveledlistresolver/LeveledItemGraph.cs:58-76 | the added loop yields the first 254 of the added stream and sets aside the rest |
| ResolverItemGraph.GetEntries | leveledlistresolver/LeveledItemGraph.cs:37-111 | a single extent yields its own entries; otherwise at most 255 entries: the whole stream when it fits in 254, else its first 254 and a link to the new sublist chain built as written from the rest, which loses the item at index 254 of every sublist over 255 items |
| ResolverSpellGraph.BatchCount | leveledlistresolver/LeveledSpellGraph.cs:61-72 | `Batch(255)` makes ceil(n / 255) batches |
| ResolverSpellGraph.SegmentsAsWrittenExact | leveledlistresolver/LeveledSpellGraph.cs:58-59 | with the segment count as written, the top level fits in 255 exactly when, for n - 255 = 255q + r, q + r is at most 254 |
| ResolverSpellGraph.SegmentsAsWrittenFail | leveledlistresolver/LeveledSpellGraph.cs:58-59 | the segment count as written exceeds 255, so RemoveRange gets a negative count, exactly from 65280 merged entries on |
| ResolverSpellGraph.SegmentsAsWrittenOverflows | leveledlistresolver/LeveledSpellGraph.cs:58-74 | 764 merged entries give 2 segments as written, so 253 kept entries plus 3 batch links make 256 top-level entries |
| ResolverSpellGraph.Segments | leveledlistresolver/LeveledSpellGraph.cs:58 | the corrected count of batch links is at least one |
| ResolverSpellGraph.SegmentsFit | leveledlistresolver/LeveledSpellGraph.cs:58-74 | with the corrected count, up to 65025 entries fit: at most 255 links and a top level of at most 255 entries |
| ResolverSpellGraph.EmitBatches | leveledlistresolver/LeveledSpellGraph.cs:61-72 | one new patch record per batch, in order, numbered from 1, and a link to each |
| ResolverSpellGraph.OverflowKeepsItems | leveledlistresolver/LeveledSpellGraph.cs:59-72 | the kept prefix followed by the batches is the merged list, in order, and no batch exceeds 255 entries |
| ResolverSpellGraph.GetEntries | leveledlistresolver/LeveledSpellGraph.cs:32-78 | a single extent yields its entries; up to 255 merged entries are returned as they are; more are cut to the first 255 - segments entries, with segments = ((n - 255) / 255) + 1 as written, plus one link per new 255-entry batch record of the rest, a top level of TopLevelSize entries that fits in 255 exactly when q + r <= 254 for n - 255 = 255q + r; a segment count above 255 fails with ArgumentOutOfRange and adds nothing |
| ResolverPatcher.SelectedIff | leveledlistresolver/Patcher.cs:97-112 | a record is selected exactly when some consecutive pair of definitions after the origin has an earlier list with an entry the later one lacks |
| ResolverPatcher.FewDefinitionsNotSelected | leveledlistresolver/Patcher.cs:104-107 | a record with one or two definitions is never selected |
| ResolverPatcher.NullOverridesNotSelected | leveledlistresolver/Patcher.cs:107-108 | when every override between the origin and the winner has null entries, the record is not selected |
| ResolverPatcher.FindRecordsToOverride | leveledlistresolver/Patcher.cs:97-112 | the result holds exactly the winning override of every selected record |
| ResolverPatcher.Truncated | leveledlistresolver/Patcher.cs:50 | `Take(255)` keeps the longest prefix of at most 255 entries |
| ResolverPatcher.CountTestMeansContained | leveledlistresolver/Patcher.cs:55 | with an order-preserving multiset intersection, the count test holds exactly when the copy's entries are a sub-multiset of the winner's |
| ResolverPatcher.UnchangedMeaning | leveledlistresolver/Patcher.cs:55-59 | with that intersection, a copy is skipped exactly when it is masked-equal to the winner and holds no entry more often than the winner |
| ResolverPatcher.ApplyItem | leveledlistresolver/Patcher.cs:42-62 | the copy carries FormVersion 44, the graph's EditorID and scalars and at most 255 entries (the graph's entries, with the overflow chain as written, losing an item per link, added to the patch); it is set in the patch exactly when it is not unchanged |
| ResolverPatcher.ApplyNpc | leveledlistresolver/Patcher.cs:69-89 | the copy's entries are the first 255 of the kept added-then-intersected entries (or the single extent's); no record is added; the copy is set exactly when it is not unchanged |
| GeneratorPatcher.FindRecordsToOverride | leveledlistgenerator/Patcher.cs:110-126 | the result holds exactly the origin with its definitions for every selected record |
| GeneratorPatcher.RemoveAll | leveledlistgenerator/Patcher.cs:51 | `RemoveAll` keeps, in order, exactly the entries that are neither null nor empty-sublist links, and reports how many it removed |
| GeneratorPatcher.NothingRemoved | leveledlistgenerator/Patcher.cs:51-53 | nothing is removed exactly when every entry is kept |
| GeneratorPatcher.MergedCopy | leveledlistgenerator/Patcher.cs:40-51 | the copy carries FormVersion 44, the graph's EditorID and scalars, and the kept entries among the first 255 merged ones; at most 255 entries, none null or an empty-sublist link |
| GeneratorPatcher.ApplyItem | leveledlistgenerator/Patcher.cs:36-61 | the copy is set in the patch unless nothing was removed and it is unchanged; no record is added |
| GeneratorPatcher.TakeBeforeRemoveAll | leveledlistgenerator/Patcher.cs:46-51 | taking 255 before removing can leave 254 entries although 255 keepable ones were merged (one null entry ahead of them) |
| ResolverNpcGraph.HangAll | leveledlistresolver/LeveledNpcGraph.cs:36-47 | after the linking loop the nodes are the defining plugins and ModKey.Null, and c is a child of k exactly when c is a defining plugin that hangs off k |
| ResolverNpcGraph.HungStep | leveledlistresolver/LeveledNpcGraph.cs:38-46 | hanging one more plugin under its parents extends the loop's graph by exactly that plugin |
| ResolverNpcGraph.ExtentKeys | leveledlistresolver/LeveledNpcGraph.cs:58 | the extents are exactly the nodes without children or with the patch among their children |
| ResolverNpcGraph.ExtentRecordsOf | leveledlistresolver/LeveledNpcGraph.cs:58 | the extent records are the records of the extent nodes; the lookup fails with KeyNotFound exactly when ModKey.Null is an extent |
| ResolverNpcGraph.DefiningMods | leveledlistresolver/LeveledNpcGraph.cs:34 | the enabled plugins of the priority order that define the record, and no others |
| ResolverNpcGraph.Build | leveledlistresolver/LeveledNpcGraph.cs:23-60 | no definition fails with InvalidOperation. Otherwise the ghost graph is the linking loop's graph (`Hung`) after pruning (`Shrunk`, `Covered`, `Pruned`), with every defining plugin and ModKey.Null as nodes. The build fails, with KeyNotFound, exactly when ModKey.Null is an extent of that graph (no children, or the patch among them), as `Records[ModKey.Null]` throws; it always fails when no enabled plugin defines the record. On success the returned graph is that graph, Base is the last context's record, and the extent records are those of its extents |
| ResolverNpcGraph.NoModsNullExtent | leveledlistresolver/LeveledNpcGraph.cs:37-58 | with no enabled defining plugin nothing hangs off ModKey.Null, so it is an extent and the lookup fails |
| ResolverNpcGraph.HungClosed | leveledlistresolver/LeveledNpcGraph.cs:36-47 | every child the linking loop creates is a node |
| ResolverNpcGraph.ShrunkWithin | leveledlistresolver/LeveledNpcGraph.cs:49-56 | pruning leaves only edges the linking loop created |
| ResolverNpcGraph.PriorityRank | leveledlistresolver/LeveledNpcGraph.cs:34 | every node gets a rank from its place in the priority order |
| ResolverNpcGraph.BuiltRanked | leveledlistresolver/LeveledNpcGraph.cs:36-56 | when masters load first the graph has no cycle: the priority rank drops along every edge, so Traverse terminates |
| ResolverNpcGraph.Traverse | leveledlistresolver/LeveledNpcGraph.cs:64-94 | nothing for a start that is not a node; otherwise exactly the walks from the start to a childless defining plugin, in the enumeration orders |
| ResolverNpcGraph.GetEntries | leveledlistresolver/LeveledNpcGraph.cs:114-138 | one extent gives its own entries; otherwise the added entries of each extent then the intersection with Base's entries, without null entries and empty-sublist links |
| ResolverNpcGraph.MergedDrawn | leveledlistresolver/LeveledNpcGraph.cs:122-137 | with drawing helpers every merged entry is kept by the filter and comes from an extent list or Base, and every kept added or intersected entry appears: nothing is dropped for length |
| Scalars.LastDiffering | leveledlistresolver/LeveledNpcGraph.cs:102-106 | Base's value exactly when every extent holds it; otherwise the value of an extent after which no extent differs from Base |
| Scalars.LastDifferingIgnoresBase | leveledlistresolver/LeveledItemGraph.cs:17-35 | an extent that holds Base's value never overrides an earlier differing value |
| Scalars.LastNamed | leveledlistresolver/LeveledNpcGraph.cs:96-100 | the last present name differing from Base's; without one, Base's name, else the fresh GUID |
| Scalars.NamedEditorId | leveledlistresolver/LeveledNpcGraph.cs:96-100 | the NPC graphs' EditorID follows that rule over the extent records |
| Scalars.LastNamedGuid | leveledlistresolver/LeveledNpcGraph.cs:99 | a fresh GUID is used exactly when Base and every extent have no name |
| Scalars.GettersFollowRule | leveledlistresolver/LeveledItemGraph.cs:17-35 | ChanceNone, Flags, Global and ObjectBounds are each Base's exactly when every extent holds Base's, else an extent's value after which none differs |
| Scalars.LastDifferingField | leveledlistresolver/LeveledItemGraph.cs:17-35 | for any field, the last value differing from Base's among the projected values is Base's exactly when every record holds Base's, else the value of a record after which none differs |
| Patch.KeyIndex | leveledlistresolver/Patcher.cs:61 | the place of the record with a FormKey in the group, or none when no record has it |
| Patch.UpsertedKeeps | leveledlistresolver/Patcher.cs:61 | after `Set` the record is present, every record with another FormKey is kept, nothing else is added and FormKeys stay distinct |
| Patch.Links | leveledlistresolver/LeveledSpellGraph.cs:68-71 | one link per new record |
| Patch.PatchMod.AddNew | leveledlistresolver/LeveledItemGraph.cs:104 | a new default record under a FormKey no earlier record has; nothing else changes |
| Patch.PatchMod.Put | leveledlistresolver/LeveledItemGraph.cs:105-108 | field writes replace the created record and nothing else |
| Patch.PatchMod.Add | leveledlistresolver/RecordPatcher.LeveledItem.cs:86-96 | a new record with the given fields under the next FormKey; overrides unchanged |
| Patch.PatchMod.Set | leveledlistresolver/Patcher.cs:61 | the override replaces the one with the same FormKey or is appended; created records unchanged |
| Unseen.AccumulatedFromLists | leveledlistresolver/LeveledSpellGraph.cs:40-44 | with a helper that draws from its first argument, every accumulated entry occurs in an extent list folded so far |
| Unseen.Accumulate | leveledlistresolver/LeveledNpcGraph.cs:122-126 | the builder fold over the extent lists gives the reference fold |
| Unseen.IntersectedFromBase | leveledlistresolver/LeveledNpcGraph.cs:128-131 | with drawing helpers the intersection fold never holds more of an entry than Base's entries |
| ListAlgebra.FindAllRemove | leveledlistresolver/LeveledItemGraph.cs:78-82 | `FindAll(items.Remove)` is the order-preserving multiset intersection with `items` |
| ListAlgebra.MinCountIsMinimum | leveledlistresolver/RecordPatcher.LeveledNpc.cs:85 | the reference count of the folded intersection is the least of the base count and every list's count |
| ListAlgebra.IntersectAllCounts | leveledlistresolver/RecordPatcher.LeveledNpc.cs:85 | the folded intersection holds each value as often as the base and every list all hold it |
| ListAlgebra.IntersectAllIsSubseq | leveledlistresolver/RecordPatcher.LeveledNpc.cs:85 | the folded intersection keeps the base list's order |
| ListAlgebra.DisjunctionCounts | leveledlistresolver/RecordPatcher.LeveledItem.cs:74 | the folded disjunction holds each value as often as its largest excess over the lowest override in any one extent |
| ListAlgebra.MaxExcessBounds | leveledlistresolver/RecordPatcher.LeveledItem.cs:74 | no extent holds a value more often than the lowest override and that excess together |
| ListAlgebra.ChunksFlatten | leveledlistresolver/RecordPatcher.LeveledItem.cs:84 | `Chunk` loses and reorders nothing |
| ListAlgebra.ChunksSizes | leveledlistresolver/RecordPatcher.LeveledItem.cs:84 | every chunk holds between 1 and n elements |
| ListAlgebra.ChunksCount | leveledlistresolver/RecordPatcher.LeveledItem.cs:84 | there are ceil(length / n) chunks, and none for an empty list |
| ListAlgebra.Windows | leveledlistresolver/Patcher.cs:107 | `Window(n)` gives every run of n consecutive elements, in order, and none for a shorter list |
| ListAlgebra.InsertByKey | leveledlistresolver/RecordPatcher.LeveledItem.cs:79 | inserting into an ordered list keeps it ordered and adds exactly the element |
| ListAlgebra.SortBy | leveledlistresolver/RecordPatcher.LeveledItem.cs:79 | `List.Sort` by level gives an ordered permutation |
| ListAlgebra.Dedup | leveledlistgenerator/LeveledItemGraph.cs:117-119 | `Distinct()` keeps each element once and loses none |
| ListAlgebra.LastWhere | leveledlistresolver/MajorRecordGraphBase.cs:84 | `LastOrDefault(p)`: none exactly when no element passes; else a passing element after which none passes |
| ListAlgebra.FirstWhere | leveledlistresolver/Utility.cs:168 | `FirstOrDefault(p)`: none exactly when no element passes; else a passing element before which none passes |
| RecordPatcher.TakeGroup | leveledlistresolver/RecordPatcher.LeveledItem.cs:65-67 | the copy takes the record's whole group (ChanceNone, Flags, and Global where the group has it) and keeps every other field |
| RecordPatcher.EditorIdRule | leveledlistresolver/RecordPatcher.LeveledItem.cs:46-61 | a blank highest EditorID becomes the GUID; otherwise the highest's when it differs from the lowest override's, else the first later extent's that differs; it is the lowest override's exactly when every extent's is |
| RecordPatcher.GroupMovesTogether | leveledlistresolver/RecordPatcher.LeveledItem.cs:63-69 | the group comes whole from one extent (the highest, unless its group equals the lowest override's, then the first later one that differs), and differs from the lowest override's exactly when some extent's does |
| RecordPatcher.IdStep | leveledlistresolver/RecordPatcher.LeveledItem.cs:57-61 | one loop step keeps the EditorID rule for the longer prefix |
| RecordPatcher.GroupStep | leveledlistresolver/RecordPatcher.LeveledItem.cs:63-69 | one loop step keeps the group rule for the longer prefix |
| RecordPatcher.ResolveScalars | leveledlistresolver/RecordPatcher.LeveledItem.cs:46-70 | the loop with flags `a` and `b` leaves the copy as the EditorID and group rules say |
| RecordPatcher.Arrange | leveledlistresolver/RecordPatcher.LeveledItem.cs:76-79 | the entries are ordered by level and are, as a multiset, the kept part of both lists |
| RecordPatcher.ChunkRecords | leveledlistresolver/RecordPatcher.LeveledItem.cs:84-96 | one chunk record per chunk |
| RecordPatcher.EmitChunks | leveledlistresolver/RecordPatcher.LeveledItem.cs:81-110 | over 255 entries, one new record per chunk and a link to each in the copy; otherwise the entries themselves; overrides unchanged |
| RecordPatcher.ChunksHoldEntries | leveledlistresolver/RecordPatcher.LeveledItem.cs:81-106 | the chunk records hold the entries exactly, in order, 1 to 255 each, and the links fit in 255 exactly when there are at most 65025 entries |
| RecordPatcher.Decide | leveledlistresolver/RecordPatcher.LeveledItem.cs:124-132 | no record exactly when the copy is masked-equal to the highest extent and holds the same entries in any order; otherwise the copy |
| RecordPatcher.Finish | leveledlistresolver/RecordPatcher.LeveledItem.cs:41-132 | copy, scalars, sorted kept entries, chunk records and the skip decision, all as the functions above say |
| RecordPatcher.KeptWithFromLowest | leveledlistresolver/RecordPatcher.LeveledItem.cs:73 | with drawing helpers the kept part holds nothing the lowest override does not |
| RecordPatcher.MergeCounts | leveledlistresolver/RecordPatcher.LeveledItem.cs:73-78 | the merged entries hold a kept value as often as the kept part plus its largest excess in one extent, and a dropped value never |
| RecordPatcher.StripNulls | leveledlistresolver/RecordPatcher.LeveledNpc.cs:36-42 | a stripped copy exactly when the record has a null entry; it differs only in its entries, which are the non-null entries of the original in their original order (a subsequence), each non-null entry as often as in the original |
| RecordPatcherItem.Try | leveledlistresolver/RecordPatcher.LeveledItem.cs:30-133 | fails when the extent contexts fail; no record below 2 extents; otherwise the lowest override exists, the entries are level-ordered and are the non-null kept and disjoint entries, chunk records are added, and the result is the copy unless it changes nothing |
| RecordPatcherNpc.KeptCounts | leveledlistresolver/RecordPatcher.LeveledNpc.cs:82-87 | under the guard the kept part holds each entry as often as the list holding it least often, in the lowest override's order |
| RecordPatcherNpc.IntersectExtents | leveledlistresolver/RecordPatcher.LeveledNpc.cs:85 | the aggregate gives the folded `IntersectExt` over the extents |
| RecordPatcherNpc.Try | leveledlistresolver/RecordPatcher.LeveledNpc.cs:29-150 | as the item patcher, except: no extent fails at the index; one extent gives the null-stripped record when it has null entries; the filter follows RemoveEmptySublists |
| RecordPatcherSpell.Try | leveledlistresolver/RecordPatcher.LeveledSpell.cs:28-142 | as the NPC patcher, with ChanceNone and Flags as the group (no Global) |
| GeneratorGraph.KeysUpTo | leveledlistgenerator/LeveledItemGraph.cs:36-38 | the keys of the first n listings and no others |
| GeneratorGraph.Hangers | leveledlistgenerator/LeveledItemGraph.cs:44 | the listed plugins among the first n that hang off k |
| GeneratorGraph.HungUpTo | leveledlistgenerator/LeveledItemGraph.cs:36-51 | the dictionary after n listings: ModKey.Null and their keys, each with its hangers |
| GeneratorGraph.HangListings | leveledlistgenerator/LeveledItemGraph.cs:34-51 | the linking loop fails with KeyNotFound exactly when a plugin names a defining master that loads after it; otherwise the finished dictionary |
| GeneratorGraph.HungRanked | leveledlistgenerator/LeveledItemGraph.cs:34-51 | when every master loads first the dictionary has no cycle and every child is a node |
| GeneratorGraph.EdgeRanked | leveledlistgenerator/LeveledItemGraph.cs:44 | each edge goes from a higher to a lower listing rank |
| GeneratorGraph.ListingRank | leveledlistgenerator/LeveledItemGraph.cs:36-44 | ModKey.Null and every listed plugin get a rank |
| GeneratorGraph.EndPoints | leveledlistgenerator/LeveledItemGraph.cs:80-87 | the nodes without children that are some node's child |
| GeneratorGraph.CollectEndPoints | leveledlistgenerator/LeveledItemGraph.cs:80-87 | the end-point loop collects exactly those nodes |
| GeneratorGraph.OrderOf | leveledlistgenerator/LeveledItemGraph.cs:89-90 | every child set gets an enumeration order of its members |
| GeneratorItemGraph.Search.Visit | leveledlistgenerator/LeveledItemGraph.cs:98-112 | reports, in child enumeration order, every walk to the end point that extends the shared path, and gives the path back as it was |
| GeneratorItemGraph.VisitEach | leveledlistgenerator/LeveledItemGraph.cs:89-90 | visiting each end point with one shared path yields the listing for all end points |
| GeneratorItemGraph.ListedEnds | leveledlistgenerator/LeveledItemGraph.cs:98-112 | every listed path is a walk from the start to one of the end points |
| GeneratorItemGraph.Lasts | leveledlistgenerator/LeveledItemGraph.cs:117 | the last node of each path |
| GeneratorItemGraph.ItemGraph.Traverse | leveledlistgenerator/LeveledItemGraph.cs:68-113 | an empty list for a key that is not a node; the cached listing when there is one; else the listing to every end point, which is cached |
| GeneratorItemGraph.ItemGraph.Found | leveledlistgenerator/LeveledItemGraph.cs:68-74 | the cached listing from ModKey.Null ends every path at an end point |
| GeneratorItemGraph.ItemGraph.EndKeys | leveledlistgenerator/LeveledItemGraph.cs:117-118 | the distinct path ends, each an end point with a record |
| GeneratorItemGraph.ItemGraph.ExtentList | leveledlistgenerator/LeveledItemGraph.cs:117-119 | the record of each path end, in order |
| GeneratorItemGraph.ItemGraph.GetEditorId | leveledlistgenerator/LeveledItemGraph.cs:115-123 | the last path-end name that is present and differs from Base's, else Base's name, else the GUID |
| GeneratorItemGraph.ItemGraph.GetChanceNone | leveledlistgenerator/LeveledItemGraph.cs:125-133 | Base's value exactly when every path end holds it, else a path end's value after which none differs |
| GeneratorItemGraph.ItemGraph.GetGlobal | leveledlistgenerator/LeveledItemGraph.cs:135-143 | Base's Global exactly when every path end holds it, else a path end's Global after which none differs |
| GeneratorItemGraph.ItemGraph.GetFlags | leveledlistgenerator/LeveledItemGraph.cs:177-185 | Base's Flags exactly when every path end holds them, else a path end's Flags after which none differs |
| GeneratorItemGraph.ItemGraph.GetEntries | leveledlistgenerator/LeveledItemGraph.cs:145-175 | one path end gives its entries; otherwise the merge of all path ends' entries |
| GeneratorItemGraph.PathEnds | leveledlistgenerator/LeveledItemGraph.cs:117-118 | each path end once, and exactly the path ends |
| GeneratorItemGraph.ExceptEach | leveledlistgenerator/LeveledItemGraph.cs:158 | each list minus the base entries |
| GeneratorItemGraph.MergeEntries | leveledlistgenerator/LeveledItemGraph.cs:156-174 | the two loops give the reference merge `itemsAdded.And(itemIntersection)` |
| GeneratorItemGraph.MergedDrawn | leveledlistgenerator/LeveledItemGraph.cs:156-174 | with drawing helpers every merged entry comes from a path end's record |
| GeneratorItemGraph.TraversedWalks | leveledlistgenerator/LeveledItemGraph.cs:68-113 | a cached listing holds exactly the walks from its key to an end point |
| GeneratorItemGraph.EndKeysReached | leveledlistgenerator/LeveledItemGraph.cs:117-118 | the path ends are exactly the end points a walk from ModKey.Null reaches |
| GeneratorItemGraph.Build | leveledlistgenerator/LeveledItemGraph.cs:23-64 | no definition fails with InvalidOperation; a defining master that loads later fails with KeyNotFound; otherwise Base is the first definition and the graph is the pruned linking dictionary, traversed from ModKey.Null |
| GeneratorNpcGraph.RecordSet | leveledlistgenerator/LeveledNpcGraph.cs:70 | the records of exactly the given plugins |
| GeneratorNpcGraph.PruneCollectChildren | leveledlistgenerator/LeveledNpcGraph.cs:67-73 | one child set is pruned as in the item graph, and every kept member without children has its record collected |
| GeneratorNpcGraph.PruneCollect | leveledlistgenerator/LeveledNpcGraph.cs:63-76 | the pruning pass prunes the graph, keeps its end points, and collects exactly the end points' records as ExtentRecords |
| GeneratorNpcGraph.PrunedStep | leveledlistgenerator/LeveledNpcGraph.cs:63-76 | pruning one more set keeps the earlier sets pruned |
| GeneratorNpcGraph.EndsStep | leveledlistgenerator/LeveledNpcGraph.cs:67-73 | what one set collects are end points, and no childless child of a finished set is missed |
| GeneratorNpcGraph.CollectedEnds | leveledlistgenerator/LeveledNpcGraph.cs:63-76 | the collected plugins are all the end points |
| GeneratorNpcGraph.NpcGraph.Traverse | leveledlistgenerator/LeveledNpcGraph.cs:82-125 | as the item graph's Traverse |
| GeneratorNpcGraph.NpcGraph.GetEditorId | leveledlistgenerator/LeveledNpcGraph.cs:127-131 | the last extent name that is present and differs from Base's, else Base's name, else the GUID |
| GeneratorNpcGraph.NpcGraph.GetChanceNone | leveledlistgenerator/LeveledNpcGraph.cs:133-137 | Base's value exactly when every extent holds it, else an extent's value after which none differs |
| GeneratorNpcGraph.NpcGraph.GetGlobal | leveledlistgenerator/LeveledNpcGraph.cs:139-143 | Base's Global exactly when every extent holds it, else an extent's Global after which none differs |
| GeneratorNpcGraph.NpcGraph.GetFlags | leveledlistgenerator/LeveledNpcGraph.cs:165-169 | Base's Flags exactly when every extent holds them, else an extent's Flags after which none differs |
| GeneratorNpcGraph.NpcGraph.GetEntries | leveledlistgenerator/LeveledNpcGraph.cs:145-163 | no extent fails with InvalidOperation; one gives its entries; more give the added entries then the intersection with Base's, unfiltered |
| GeneratorNpcGraph.AddedFrom | leveledlistgenerator/LeveledNpcGraph.cs:153-156 | with drawing helpers every added entry comes from an extent list |
| GeneratorNpcGraph.EntriesDrawn | leveledlistgenerator/LeveledNpcGraph.cs:145-163 | with drawing helpers every entry comes from an extent list or Base's entries |
| GeneratorNpcGraph.TraversedWalks | leveledlistgenerator/LeveledNpcGraph.cs:82-125 | a cached listing holds exactly the walks from its key to an end point |
| GeneratorNpcGraph.Build | leveledlistgenerator/LeveledNpcGraph.cs:25-78 | as the item graph's Build, and ExtentRecords are exactly the records of the end points |
| Utility.CountShared | leveledlistresolver/Utility.cs:28-39 | for every element of `source`, the dictionary holds how many times it occurs in `other` (absent counts as zero) |
| Utility.TakeCounted | leveledlistresolver/Utility.cs:41-51 | walking `source` against those counts yields exactly `Intersect(source, multiset(other))` |
| Utility.TakeNext | leveledlistresolver/Utility.cs:43-50 | one element of the walk extends the intersection of the walked prefix by one step and keeps every remaining count equal to the copies in `other` not yet used |
| Utility.TakeWhenCounted | leveledlistresolver/Utility.cs:43 | a positive remaining count is exactly the test by which the intersection keeps the next element |
| Utility.CountedAfterTake | leveledlistresolver/Utility.cs:45-48 | decrementing the count, and removing it at zero, keeps the counts right once the element is yielded |
| ListAlgebra.PoolTake | leveledlistresolver/LeveledItemGraph.cs:80-81 | `items.Remove(x)` succeeds exactly when the intersection keeps x, and the working copy stays `items` less the walked prefix |
| GeneratorGraph.HangNext | leveledlistgenerator/LeveledItemGraph.cs:36-51 | one turn of the linking loop: KeyNotFound only when a defining master loads later; otherwise the dictionary with one more plugin hung off its parents |
| Utility.SharedMasters | leveledlistresolver/Utility.cs:160-165 | starting from the defining plugins and intersecting with each context plugin's master references in turn leaves exactly the defining plugins that are a master of every context's plugin |
| GraphBase.LinkNext | leveledlistresolver/MajorRecordGraphBase.cs:50-61 | one turn of the main loop either fails, and then some enabled plugin names a defining master that is not enabled, or keeps the full loop invariant for one more plugin |
| GraphBase.LinkStart | leveledlistresolver/MajorRecordGraphBase.cs:46-48 | the masters dictionary of the enabled defining plugins and the empty adjacency sets satisfy the main loop's invariant before any plugin is handled |
| ResolverNpcGraph.LinkPrune | leveledlistresolver/LeveledNpcGraph.cs:36-56 | the result is the graph the linking loop builds (`Hung`, returned as ghost) after pruning: a subgraph of it (`Shrunk`) that still reaches every child it had (`Covered`), with no child set holding a node and one of its children (`Pruned`), exactly the defining plugins and ModKey.Null as nodes, and only edges the linking loop adds |
| ResolverNpcGraph.NullExtentDecided | leveledlistresolver/LeveledNpcGraph.cs:36-58 | on a well-formed load order, pruning does not change whether ModKey.Null has children: if nothing hangs off it after linking, it is an extent; if something does and the patch is not among those plugins, it is not an extent and the lookup succeeds |
| GeneratorItemGraph.LinkPrune | leveledlistgenerator/LeveledItemGraph.cs:36-61 | linking fails with KeyNotFound exactly when a defining master loads later; otherwise the pruned graph keeps the linked nodes, only shrinks child sets, removes only covered children, and every child has a record |
| GeneratorNpcGraph.LinkPrune | leveledlistgenerator/LeveledNpcGraph.cs:37-74 | as the item graph's linking and pruning, and the collected ExtentRecords are exactly the records of the linked graph's end points, which pruning keeps |
| GeneratorNpcGraph.CollectNext | leveledlistgenerator/LeveledNpcGraph.cs:67-73 | one member's turn keeps the collection invariant: the child set only loses members that are a child of another member, visited members share no child with the set, and the collected records are exactly those of the visited childless members |
| RecordPatcher.ResolveNext | leveledlistresolver/RecordPatcher.LeveledItem.cs:57-69 | one extent's turn keeps the scalar invariant for one more extent: `a` and `b` say whether some extent so far has a differing name or group, the EditorID is the one the name rule picks and the group fields are those of the first extent whose group differs |
| ResolverItemGraph.RouteKept | leveledlistresolver/LeveledItemGraph.cs:60-75 | routing one list's candidates keeps at most 254 yielded entries, overflows only at the cap, and appends exactly the candidates that are neither null nor an empty sublist, in order |
| GeneratorPatcher.TakeAndRemove | leveledlistgenerator/Patcher.cs:46-51 | of the first 255 merged entries exactly those that are neither null nor an empty sublist are kept, in order; the count removed is the difference |

## Left out

- Console output (`Console.WriteLine` in the graphs and patchers) is not modelled. `GraphBase.Describe` models only the structure of `ToString(startPoint)` (`leveledlistresolver/MajorRecordGraphBase.cs:96-129`): the EditorID that opens the header and the list of paths. It leaves out the text itself: the header's `[FormKey]` or `[FormKey | Injected by ModKey]` part, the formatting of each path, and the wording of the missing-start message, which is the constant `MissingStart`.
- `Program.cs`, `ProgramSettings.cs` and the `RecordPatcher.TryPatch` glue (`leveledlistresolver/RecordPatcher.cs:21-27`) are outside the model. The setting RemoveEmptySublists is a `bool` parameter.
- The outer loops of both `Apply` methods over the winning overrides, and the lookup of each record's contexts, are left out. `ApplyItem` and `ApplyNpc` model one iteration.
- The generator's commented-out NPC block (`leveledlistgenerator/Patcher.cs:63-102`) is not code and is not modelled.
- `GetFormVersion` / `ToMajorRecord` ask the game release for its default form version, which is a call outside the repository. The constant 44 that the patchers write is modelled.
- `Guid.NewGuid()` and `DateTime.Today` are parameters (`guid`, `stamp`). Freshness of the GUID is stated only as a precondition of `Scalars.LastNamedGuid`.
- `DeepCopy` is value copy: records and entries are immutable values, so aliasing between a copy and its source cannot be expressed.
- String comparisons with `StringComparison.InvariantCulture` and the default `string.Equals` are both ordinal equality of `seq<char>`; culture-sensitive collation is not modelled.
- `List.Sort` is not stable. `ListAlgebra.SortBy` fixes one order (insertion), and every contract about it states only that the result is ordered by level and a permutation, which is all `List.Sort` promises.
- The enumeration order of hash sets and immutable dictionaries is a parameter (`Enumerates`, `Order`, `enumerate`); properties hold for every order, and no particular .NET order is modelled.
- `Without`, `ExceptWith`, `IntersectWith` and `And` are library code outside the repository, from the namespaces the calling files import; it is not part of this model. They are parameters, and the only property assumed of them is `Drawn`. Lemmas that need more (`ResolverPatcher.UnchangedMeaning`) state the extra assumption as a precondition.
- Scalars.GetGlobal, Scalars.GetObjectBounds and the generator graphs' GetGlobal compare values, where the code's `!=` on the interface-typed `Global` and `ObjectBounds` getters is reference inequality. The code therefore treats an extent whose Global or ObjectBounds equals Base's by value, but is a different object, as differing, and can return the last extent's value even when it equals Base's by value. The model cannot tell such an extent from Base's value, so it falls back to Base's value (the same value) or to an earlier differing extent.
- The load order is assumed well formed where the proofs need it: no plugin listed twice, ModKey.Null never a plugin key, masters loading before their dependants (`WellListed`, `DistinctPlugins`, `MastersBelow`). These are facts about game load orders that the code assumes too.
- When `KeyNotFound` is thrown midway, the model returns `Fail` and says nothing about the partial state of the graph under construction, which the code discards.
- `GetObjectBounds` is modelled (`Scalars.GetObjectBounds`) although neither `Patcher` copies bounds.
- OverrideGraph.PruneChildren: a member removed before its turn is skipped and the enumeration goes on over what remains. This assumes a .NET 5 or later runtime, where `HashSet<T>.Remove` leaves a running enumerator valid. On older runtimes the enumerator throws `InvalidOperationException` on the step after such a removal; that path is not modelled.
- OverrideGraph.Prune: makes the same runtime assumption about removals during enumeration.
- GeneratorNpcGraph.PruneCollectChildren: makes the same runtime assumption about removals during enumeration.
- ResolverItemGraph.AddedStream: each extent list is filtered against the entries yielded before that list starts (`Yielded(prev)`). This assumes that `Without` reads its second argument once, when the enumeration of the list begins. The code passes the live `yieldedItems` list (leveledlistresolver/LeveledItemGraph.cs:60), and the same `foreach` appends to it (line 67). A `Without` that rereads that list lazily would also drop an entry repeated later in the same extent list. The model does not capture that case.
- The resolver's `LeveledItemGraph` has a `Todo` about a single extent (`leveledlistresolver/LeveledItemGraph.cs:40-50`). The model follows the code: the single extent's entries are returned unfiltered.
- GeneratorPatcher.TakeBeforeRemoveAll records that `Take(255)` runs before `RemoveAll` in the generator. The copy can then hold fewer than 255 entries although more keepable ones were merged. This is modelled as written; whether it was intended cannot be told from the code.

## Findings

| source | as written | input that shows it | evidently intended | confidence | as-written member | corrected member |
|---|---|---|---|---|---|---|
| leveledlistresolver/LeveledItemGraph.cs:106 | the sublist helper `_` keeps `items[0..254]` (254 items, the end is exclusive) and recurses on `items[255..]`, so the item at index 254 is in neither part | any overflow of 256 to 510 items: the chain reads back with `items[254]` missing (`ChainAsWrittenDropsItem`) | every overflow item kept once, in order, with 254 items and a link per record | not executed | ResolverItemGraph.ChainAsWrittenDropsItem | ResolverItemGraph.ChainKeepsItems |
| leveledlistresolver/LeveledSpellGraph.cs:58 | `segments = ((n - 255) / 255) + 1` links are reserved, but `Batch(255)` of the remaining `n - 255 + segments` items can need more batches than that | n = 764 merged entries: 2 segments, 253 kept entries and 3 batch links give 256 top-level entries (`SegmentsAsWrittenOverflows`) | the top-level list holds at most 255 entries | not executed | ResolverSpellGraph.SegmentsAsWrittenOverflows | ResolverSpellGraph.SegmentsFit |

The operations follow the code as written: `ResolverItemGraph.Sublist`, `ResolverItemGraph.GetEntries` and `ResolverPatcher.ApplyItem` build `ChainAsWritten`, and `ResolverSpellGraph.GetEntries` reserves `SegmentsAsWritten` links. The corrected definitions (`Chain`, `Segments`) and their proved properties stand beside them as what the code evidently means to do.

=== FILE: generator_graph.dfy ===
/** The constructor half the generator's two graph classes share: the linking loop
    over `Listings` (the enabled plugins that define the record, lowest priority
    first), which adds each plugin as a node and hangs it off its parents; a parent
    that is not a node yet makes the dictionary lookup fail. Also the end points
    `Traverse` looks for, and the order the hash sets enumerate in. */
module GeneratorGraph {
  import opened Types
  import opened ListAlgebra
  import opened Paths
  import opened OverrideGraph
  import opened GraphBase

  /** The listings as a load order delivers them: no plugin twice, none is
      ModKey.Null, and none names itself as a master. */
  predicate WellListed(listings: seq<ModInfo>)
  {
    (forall i, j :: 0 <= i < j < |listings| ==> listings[i].key != listings[j].key) &&
    (forall i :: 0 <= i < |listings| ==> listings[i].key != NullKey && listings[i].key !in listings[i].masters)
  }

  /** The keys of the first n listings. */
  function KeysUpTo(listings: seq<ModInfo>, n: nat): (r: set<ModKey>)
    requires n <= |listings|
    ensures forall k :: k in r <==> exists j :: 0 <= j < n && listings[j].key == k
  {
    set j | 0 <= j < n :: listings[j].key
  }

  /** `ModKeys`. */
  function ListedKeys(listings: seq<ModInfo>): set<ModKey>
  {
    KeysUpTo(listings, |listings|)
  }

  /** A plugin names among its masters a defining plugin that loads after it. */
  predicate MasterLoadsLater(listings: seq<ModInfo>)
  {
    exists i, j :: 0 <= i < j < |listings| && listings[j].key in listings[i].masters
  }

  /** The plugins among the first n listings that hang off k. */
  function Hangers(listings: seq<ModInfo>, n: nat, k: ModKey): (r: set<ModKey>)
    requires n <= |listings|
    ensures forall c :: c in r <==> exists j :: 0 <= j < n && listings[j].key == c && k in Parents(listings[j], ListedKeys(listings))
  {
    set j | 0 <= j < n && k in Parents(listings[j], ListedKeys(listings)) :: listings[j].key
  }

  /** One more listing adds itself under each of its parents. */
  lemma HangersStep(listings: seq<ModInfo>, n: nat, k: ModKey)
    requires n < |listings|
    ensures Hangers(listings, n + 1, k) ==
      Hangers(listings, n, k) + if k in Parents(listings[n], ListedKeys(listings)) then {listings[n].key} else {}
  {
  }

  /** The dictionary after the linking loop has handled the first n listings:
      ModKey.Null and those plugins as nodes, and an edge k -> m for each of those
      plugins m and each k that m hangs off. */
  function HungUpTo(listings: seq<ModInfo>, n: nat): (g: Graph)
    requires n <= |listings|
    ensures g.Keys == {NullKey} + KeysUpTo(listings, n)
    ensures forall k :: k in g ==> g[k] == Hangers(listings, n, k)
  {
    map k | k in {NullKey} + KeysUpTo(listings, n) :: Hangers(listings, n, k)
  }

  /** The linking loop of both constructors: `Graph.Add(listing.ModKey, new())`, then
      `Graph[key].Add(mod.ModKey)` for each parent. It fails with KeyNotFound exactly
      when some plugin names a defining master that loads after it. */
  method HangListings(listings: seq<ModInfo>) returns (r: Result<Graph>)
    requires WellListed(listings)
    ensures r.Fail? <==> MasterLoadsLater(listings)
    ensures r.Fail? ==> r.error == KeyNotFound
    ensures r.Ok? ==> r.value == HungUpTo(listings, |listings|)
  {
    var graph: Graph := map[NullKey := {}];
    assert KeysUpTo(listings, 0) == {} && Hangers(listings, 0, NullKey) == {};
    assert graph == HungUpTo(listings, 0);
    var i := 0;
    while i < |listings|
      invariant 0 <= i <= |listings|
      invariant graph == HungUpTo(listings, i)
      invariant EarlyMasters(listings, i)
    {
      var next := HangNext(listings, i, graph);
      if next.Fail? {
        return next;
      }
      graph := next.value;
      i := i + 1;
    }
    r := Ok(graph);
  }

  /** One turn of the linking loop: listing i becomes a node and hangs off its
      parents, or the loop fails on a parent that is not a node yet. */
  method HangNext(listings: seq<ModInfo>, i: nat, graph0: Graph) returns (r: Result<Graph>)
    requires WellListed(listings) && i < |listings|
    requires graph0 == HungUpTo(listings, i) && EarlyMasters(listings, i)
    ensures r.Fail? ==> r.error == KeyNotFound && MasterLoadsLater(listings)
    ensures r.Ok? ==> r.value == HungUpTo(listings, i + 1) && EarlyMasters(listings, i + 1)
  {
    var listing := listings[i];
    var graph := graph0;
    assert listing.key !in KeysUpTo(listings, i);
    if listing.key !in graph {
      graph := graph[listing.key := {}];
    }
    assert graph == HungUpTo(listings, i)[listing.key := {}];
    NextKeys(listings, i);
    var parents := Parents(listing, ListedKeys(listings));
    if !(parents <= graph.Keys) {
      LateMaster(listings, i, parents, graph.Keys);
      return Fail(KeyNotFound);
    }
    var before := graph;
    graph := HangUnder(graph, parents, listing.key);
    HungStep(listings, i, before, graph);
    r := Ok(graph);
  }

  /** No plugin among the first n names a defining master that loads after it. */
  predicate EarlyMasters(listings: seq<ModInfo>, n: nat)
  {
    forall a, b :: 0 <= a < n && a < b < |listings| ==> listings[b].key !in listings[a].masters
  }

  /** A parent that is not a node yet is a master that loads later. */
  lemma LateMaster(listings: seq<ModInfo>, i: nat, parents: set<ModKey>, keys: set<ModKey>)
    requires WellListed(listings) && i < |listings|
    requires parents == Parents(listings[i], ListedKeys(listings))
    requires keys == {NullKey} + KeysUpTo(listings, i + 1)
    requires !(parents <= keys)
    ensures MasterLoadsLater(listings)
  {
    var x :| x in parents && x !in keys;
    var b :| 0 <= b < |listings| && listings[b].key == x;
    assert i < b;
  }

  /** While masters load first, the plugin being added hangs off nothing yet and not
      off itself. */
  lemma NewKeyChildless(listings: seq<ModInfo>, i: nat)
    requires WellListed(listings) && i < |listings| && EarlyMasters(listings, i)
    ensures Hangers(listings, i + 1, listings[i].key) == {}
  {
    var key := listings[i].key;
    forall j | 0 <= j < i + 1 ensures key !in Parents(listings[j], ListedKeys(listings)) {
      if j < i {
        assert key !in listings[j].masters;
      }
    }
  }

  /** Once listing i is added, no master of it loads after it. */
  lemma EarlyStep(listings: seq<ModInfo>, i: nat)
    requires WellListed(listings) && i < |listings| && EarlyMasters(listings, i)
    requires Parents(listings[i], ListedKeys(listings)) <= {NullKey} + KeysUpTo(listings, i + 1)
    ensures EarlyMasters(listings, i + 1)
  {
    forall b | i < b < |listings| ensures listings[b].key !in listings[i].masters {
      assert listings[b].key in ListedKeys(listings);
      assert listings[b].key !in KeysUpTo(listings, i + 1);
    }
  }

  /** Hanging listing i under its parents extends the dictionary by it, and no master
      of listing i loads after it. `before` is the dictionary with listing i added
      as a node. */
  lemma HungStep(listings: seq<ModInfo>, i: nat, before: Graph, graph: Graph)
    requires WellListed(listings) && i < |listings| && EarlyMasters(listings, i)
    requires Parents(listings[i], ListedKeys(listings)) <= {NullKey} + KeysUpTo(listings, i + 1)
    requires before == HungUpTo(listings, i)[listings[i].key := {}]
    requires graph.Keys == before.Keys
    requires forall k :: k in graph ==>
      graph[k] == if k in Parents(listings[i], ListedKeys(listings)) then before[k] + {listings[i].key} else before[k]
    ensures graph == HungUpTo(listings, i + 1)
    ensures EarlyMasters(listings, i + 1)
  {
    EarlyStep(listings, i);
    NextKeys(listings, i);
    HungValues(listings, i, before, graph);
    HungKeys(listings, i, before);
    SameGraph(graph, HungUpTo(listings, i + 1));
  }

  /** Listing i added as a node gives the nodes after listing i. */
  lemma HungKeys(listings: seq<ModInfo>, i: nat, before: Graph)
    requires i < |listings| && before == HungUpTo(listings, i)[listings[i].key := {}]
    ensures before.Keys == HungUpTo(listings, i + 1).Keys
  {
    var keys := KeysUpTo(listings, i);
    assert HungUpTo(listings, i).Keys == {NullKey} + keys;
    assert before.Keys == {NullKey} + keys + {listings[i].key};
    NextKeys(listings, i);
  }

  /** Two dictionaries with the same nodes and the same children are equal. */
  lemma SameGraph(a: Graph, b: Graph)
    requires a.Keys == b.Keys && forall k :: k in a ==> a[k] == b[k]
    ensures a == b
  {
  }

  /** Listing i adds its own key. */
  lemma NextKeys(listings: seq<ModInfo>, i: nat)
    requires i < |listings|
    ensures KeysUpTo(listings, i + 1) == KeysUpTo(listings, i) + {listings[i].key}
  {
  }

  /** Each child set after listing i is hung. */
  lemma HungValues(listings: seq<ModInfo>, i: nat, before: Graph, graph: Graph)
    requires WellListed(listings) && i < |listings| && EarlyMasters(listings, i)
    requires before == HungUpTo(listings, i)[listings[i].key := {}]
    requires graph.Keys == before.Keys
    requires forall k :: k in graph ==>
      graph[k] == if k in Parents(listings[i], ListedKeys(listings)) then before[k] + {listings[i].key} else before[k]
    ensures forall k :: k in graph ==> graph[k] == Hangers(listings, i + 1, k)
  {
    forall k | k in graph ensures graph[k] == Hangers(listings, i + 1, k) {
      BeforeAt(listings, i, before, k);
      KeyStep(listings, i, k, before[k], graph[k]);
    }
  }

  /** The children of k once listing i is a node without children. */
  lemma BeforeAt(listings: seq<ModInfo>, i: nat, before: Graph, k: ModKey)
    requires i < |listings| && before == HungUpTo(listings, i)[listings[i].key := {}] && k in before
    ensures before[k] == if k == listings[i].key then {} else Hangers(listings, i, k)
  {
  }

  /** The children of one node after listing i is hung. */
  lemma KeyStep(listings: seq<ModInfo>, i: nat, k: ModKey, before: set<ModKey>, after: set<ModKey>)
    requires WellListed(listings) && i < |listings| && EarlyMasters(listings, i)
    requires before == if k == listings[i].key then {} else Hangers(listings, i, k)
    requires after == if k in Parents(listings[i], ListedKeys(listings)) then before + {listings[i].key} else before
    ensures after == Hangers(listings, i + 1, k)
  {
    HangersStep(listings, i, k);
    if k == listings[i].key {
      NewKeyChildless(listings, i);
    }
  }

  /** The listing keys in load order. */
  function KeyList(listings: seq<ModInfo>): (r: seq<ModKey>)
    ensures |r| == |listings| && forall i :: 0 <= i < |listings| ==> r[i] == listings[i].key
  {
    Project(listings, (m: ModInfo) => m.key)
  }

  /** Later plugins rank lower and ModKey.Null ranks highest. */
  function ListingRank(listings: seq<ModInfo>): (rank: map<ModKey, nat>)
    ensures rank.Keys == {NullKey} + ListedKeys(listings)
  {
    var keys := KeyList(listings);
    map k | k in {NullKey} + ListedKeys(listings) :: if k in keys then |listings| - 1 - Position(keys, k) else |listings|
  }

  /** An edge k -> c of the finished dictionary goes from a higher to a lower rank. */
  lemma EdgeRanked(listings: seq<ModInfo>, j: nat, k: ModKey)
    requires WellListed(listings) && !MasterLoadsLater(listings)
    requires j < |listings| && k in Parents(listings[j], ListedKeys(listings))
    ensures k in ListingRank(listings) && listings[j].key in ListingRank(listings)
    ensures ListingRank(listings)[listings[j].key] < ListingRank(listings)[k]
  {
    var keys := KeyList(listings);
    var c := listings[j].key;
    assert keys[j] == c;
    assert Position(keys, c) == j;
    if k != NullKey {
      var a :| 0 <= a < |listings| && listings[a].key == k;
      assert keys[a] == k;
      assert Position(keys, k) == a;
      assert k in listings[j].masters;
      assert a != j;
    } else {
      assert NullKey !in keys;
    }
  }

  /** When every master loads first, the finished dictionary has no cycle (the
      listing rank drops along every edge) and every child is a node. */
  lemma HungRanked(listings: seq<ModInfo>)
    requires WellListed(listings) && !MasterLoadsLater(listings)
    ensures Ranked(HungUpTo(listings, |listings|), ListingRank(listings))
    ensures Closed(HungUpTo(listings, |listings|))
  {
    var g := HungUpTo(listings, |listings|);
    var rank := ListingRank(listings);
    forall k, c | k in g && c in g[k]
      ensures c in g && c in rank && rank[c] < rank[k]
    {
      var j :| 0 <= j < |listings| && listings[j].key == c && k in Parents(listings[j], ListedKeys(listings));
      EdgeRanked(listings, j, k);
    }
  }

  /** The nodes without children that are some node's child: `Traverse`'s end
      points. */
  function EndPoints(graph: Graph): (r: set<ModKey>)
    ensures forall v :: v in r <==> v in graph && graph[v] == {} && exists k :: k in graph && v in graph[k]
  {
    set k, v | k in graph && v in graph[k] && v in graph && graph[v] == {} :: v
  }

  /** The end-point loop of `Traverse`: every child whose own child set is empty, over
      every child set. */
  method CollectEndPoints(graph: Graph) returns (endPoints: set<ModKey>)
    requires Closed(graph)
    ensures endPoints == EndPoints(graph)
  {
    endPoints := {};
    var keys := graph.Keys;
    while keys != {}
      invariant keys <= graph.Keys
      invariant forall v :: v in endPoints <==>
        v in graph && graph[v] == {} && exists k :: k in graph && k !in keys && v in graph[k]
      decreases keys
    {
      var key :| key in keys;
      var values := graph[key];
      while values != {}
        invariant values <= graph[key]
        invariant forall v :: v in endPoints <==>
          v in graph && graph[v] == {} && ((exists k :: k in graph && k !in keys && v in graph[k]) || (v in graph[key] && v !in values))
        decreases values
      {
        var value :| value in values;
        if graph[value] == {} {
          endPoints := endPoints + {value};
        }
        values := values - {value};
      }
      keys := keys - {key};
    }
  }

  /** A hash set's enumeration order, as a function of its contents. */
  ghost predicate Enumerator(enumerate: set<ModKey> -> seq<ModKey>)
  {
    forall s :: Enumerates(enumerate(s), s)
  }

  /** The enumeration order of every child set. */
  function OrderOf(graph: Graph, enumerate: set<ModKey> -> seq<ModKey>): (order: Order)
    requires Enumerator(enumerate)
    ensures Ordered(graph, order)
  {
    map k | k in graph :: enumerate(graph[k])
  }

  /** Every cached listing is the one a traversal from its key produces. */
  ghost predicate Cached(graph: Graph, order: Order, rank: map<ModKey, nat>, ends: seq<ModKey>,
                         found: map<ModKey, seq<seq<ModKey>>>)
  {
    WellFormed(graph, order, rank) &&
    forall k :: k in found ==> k in graph && found[k] == PathsToAll(graph, order, rank, k, ends)
  }

  /** Caching one more traversal keeps the cache right. */
  lemma CachedAdd(graph: Graph, order: Order, rank: map<ModKey, nat>, ends: seq<ModKey>,
                  found: map<ModKey, seq<seq<ModKey>>>, start: ModKey, paths: seq<seq<ModKey>>)
    requires Cached(graph, order, rank, ends, found) && start in graph
    requires paths == PathsToAll(graph, order, rank, start, ends)
    ensures Cached(graph, order, rank, ends, found[start := paths])
  {
  }
}

=== FILE: generator_item_graph.dfy ===
/** LeveledItemGraph of the generator: the override graph of one leveled item list,
    the memoised path search from ModKey.Null to the end points, the scalar getters
    over the distinct path ends, and `GetEntries`, which merges the end records'
    entries. */
module GeneratorItemGraph {
  import opened Types
  import opened ListAlgebra
  import opened Paths
  import opened OverrideGraph
  import opened GeneratorGraph
  import opened GraphBase
  import opened Unseen
  import opened Utility
  import Scalars

  /** The depth-first search of one `Traverse` call: the `paths` list the local
      function `Visit` captures, and the one `path` list it extends before each step
      and shortens after it. */
  class Search {
    const graph: Graph
    const order: Order
    ghost const rank: map<ModKey, nat>
    var path: seq<ModKey>
    var paths: seq<seq<ModKey>>

    constructor (graph: Graph, order: Order, ghost rank: map<ModKey, nat>, start: ModKey)
      ensures this.graph == graph && this.order == order && this.rank == rank
      ensures path == [start] && paths == []
    {
      this.graph := graph;
      this.order := order;
      this.rank := rank;
      path := [start];
      paths := [];
    }

    /** `Visit(startPoint, endPoint, path)`: reports a copy of `path` at the end point,
        else steps to each child in turn with the child appended and removes it again.
        The shared path comes back as it was. */
    method Visit(startPoint: ModKey, endPoint: ModKey)
      requires WellFormed(graph, order, rank) && startPoint in graph
      modifies this
      ensures path == old(path)
      ensures paths == old(paths) + PathsTo(graph, order, rank, startPoint, endPoint, old(path))
      decreases rank[startPoint]
    {
      if startPoint == endPoint {
        paths := paths + [path];
        return;
      }
      var children := order[startPoint];
      var j := 0;
      while j < |children|
        invariant 0 <= j <= |children|
        invariant path == old(path)
        invariant paths + PathsVia(graph, order, rank, startPoint, children[j..], endPoint, path) ==
                  old(paths) + PathsVia(graph, order, rank, startPoint, children, endPoint, path)
      {
        var node := children[j];
        ViaStep(graph, order, rank, startPoint, children, j, endPoint, path);
        path := path + [node];
        Visit(node, endPoint);
        path := path[..|path| - 1];
        j := j + 1;
      }
    }
  }

  /** The paths through the children from the j-th on: those through the j-th child,
      then those through the rest. */
  lemma ViaStep(graph: Graph, order: Order, rank: map<ModKey, nat>, parent: ModKey, children: seq<ModKey>, j: nat,
                end: ModKey, path: seq<ModKey>)
    requires WellFormed(graph, order, rank) && parent in graph && parent in order && children == order[parent]
    requires j < |children|
    ensures children[j] in graph && rank[children[j]] < rank[parent]
    ensures PathsVia(graph, order, rank, parent, children[j..], end, path) ==
      PathsTo(graph, order, rank, children[j], end, path + [children[j]]) +
      PathsVia(graph, order, rank, parent, children[j + 1..], end, path)
  {
    assert children[j..][1..] == children[j + 1..];
  }

  /** `foreach (var endPoint in endPoints) Visit(startingKey, endPoint, path)`, with one
      search and one path list for all end points. */
  method VisitEach(graph: Graph, order: Order, ghost rank: map<ModKey, nat>, start: ModKey, ends: seq<ModKey>)
    returns (paths: seq<seq<ModKey>>)
    requires WellFormed(graph, order, rank) && start in graph
    ensures paths == PathsToAll(graph, order, rank, start, ends)
  {
    var search := new Search(graph, order, rank, start);
    var j := 0;
    while j < |ends|
      invariant 0 <= j <= |ends|
      invariant search.graph == graph && search.order == order && search.rank == rank
      invariant search.path == [start]
      invariant search.paths == PathsToAll(graph, order, rank, start, ends[..j])
    {
      assert ends[..j + 1][..j] == ends[..j];
      search.Visit(start, ends[j]);
      j := j + 1;
    }
    assert ends[..j] == ends;
    paths := search.paths;
  }

  /** Every path of a listing is a walk from the start to one of the ends. */
  lemma ListedEnds(graph: Graph, order: Order, rank: map<ModKey, nat>, start: ModKey, ends: seq<ModKey>)
    requires WellFormed(graph, order, rank) && start in graph
    ensures forall p :: p in PathsToAll(graph, order, rank, start, ends) ==>
      p != [] && p[0] == start && IsWalk(graph, p) && p[|p| - 1] in ends
  {
    forall p | p in PathsToAll(graph, order, rank, start, ends)
      ensures p != [] && p[0] == start && IsWalk(graph, p) && p[|p| - 1] in ends
    {
      ListingIsWalks(graph, order, rank, start, ends, p);
    }
  }

  /** `paths.Select(path => path.Last())`. */
  function Lasts(paths: seq<seq<ModKey>>): (r: seq<ModKey>)
    requires forall i :: 0 <= i < |paths| ==> paths[i] != []
    ensures |r| == |paths| && forall i :: 0 <= i < |paths| ==> r[i] == paths[i][|paths[i]| - 1]
  {
    seq(|paths|, i requires 0 <= i < |paths| => paths[i][|paths[i]| - 1])
  }

  /** The graph object after its constructor: Base, the record each listed plugin
      holds (`Mods[key].Mod!.LeveledItems[FormKey]`), the pruned `Graph`, and the
      `foundPaths` cache. `order` is the enumeration order of each child set and
      `enumerate` that of the end-point set a traversal collects. */
  class ItemGraph {
    const base: LeveledList
    const records: map<ModKey, LeveledList>
    const graph: Graph
    const order: Order
    ghost const rank: map<ModKey, nat>
    const enumerate: set<ModKey> -> seq<ModKey>
    var foundPaths: map<ModKey, seq<seq<ModKey>>>

    /** The graph has no cycle, every child is a listed plugin, and every cached
        listing is the one a traversal from its key produces. */
    ghost predicate Valid()
      reads this
    {
      WellFormed(graph, order, rank) && NullKey in graph &&
      Enumerates(enumerate(EndPoints(graph)), EndPoints(graph)) &&
      (forall k, c :: k in graph && c in graph[k] ==> c in records) &&
      Cached(graph, order, rank, enumerate(EndPoints(graph)), foundPaths)
    }

    constructor (base: LeveledList, records: map<ModKey, LeveledList>, graph: Graph, order: Order,
                 ghost rank: map<ModKey, nat>, enumerate: set<ModKey> -> seq<ModKey>)
      requires WellFormed(graph, order, rank) && NullKey in graph && Enumerator(enumerate)
      requires forall k, c :: k in graph && c in graph[k] ==> c in records
      ensures Valid() && foundPaths == map[]
      ensures this.base == base && this.records == records && this.graph == graph && this.order == order
      ensures this.rank == rank && this.enumerate == enumerate
    {
      this.base := base;
      this.records := records;
      this.graph := graph;
      this.order := order;
      this.rank := rank;
      this.enumerate := enumerate;
      foundPaths := map[];
    }

    /** `Traverse(startingKey)`: an empty list for a key that is not a node; the cached
        list for a key traversed before; otherwise the paths to each end point in
        turn, which are cached. */
    method Traverse(start: ModKey) returns (paths: seq<seq<ModKey>>)
      requires Valid()
      modifies this
      ensures Valid()
      ensures start !in graph ==> paths == [] && foundPaths == old(foundPaths)
      ensures start in old(foundPaths) ==> paths == old(foundPaths)[start] && foundPaths == old(foundPaths)
      ensures start in graph ==>
        paths == PathsToAll(graph, order, rank, start, enumerate(EndPoints(graph))) &&
        foundPaths == old(foundPaths)[start := paths]
    {
      if start !in graph {
        paths := [];
      } else if start in foundPaths {
        paths := foundPaths[start];
        assert foundPaths == foundPaths[start := paths];
      } else {
        var endPoints := CollectEndPoints(graph);
        paths := VisitEach(graph, order, rank, start, enumerate(endPoints));
        CachedAdd(graph, order, rank, enumerate(EndPoints(graph)), foundPaths, start, paths);
        foundPaths := foundPaths[start := paths];
      }
    }

    /** `Traverse()` after the constructor: the cached listing from ModKey.Null. */
    function Found(): (r: seq<seq<ModKey>>)
      reads this
      requires Valid() && NullKey in foundPaths
      ensures forall p :: p in r ==> p != [] && p[|p| - 1] in EndPoints(graph)
    {
      ListedEnds(graph, order, rank, NullKey, enumerate(EndPoints(graph)));
      foundPaths[NullKey]
    }

    /** The distinct path ends (`paths.Select(path => path.Last()).Distinct()`). */
    function EndKeys(): (r: seq<ModKey>)
      reads this
      requires Valid() && NullKey in foundPaths
      ensures Distinct(r) && forall k :: k in r ==> k in EndPoints(graph) && k in records
      ensures forall k :: k in r <==> exists p :: p in Found() && p[|p| - 1] == k
    {
      PathEnds(Found())
    }

    /** The records of the path ends (`Mods[key].Mod!.LeveledItems[FormKey]`). */
    function ExtentList(): (r: seq<LeveledList>)
      reads this
      requires Valid() && NullKey in foundPaths
      ensures |r| == |EndKeys()|
      ensures forall i :: 0 <= i < |r| ==> r[i] == records[EndKeys()[i]]
    {
      RecordsAt(EndKeys(), records)
    }

    /** `GetEditorId`: the last path-end name that is present and differs from Base's,
        else Base's name, else a fresh GUID. */
    function GetEditorId(guid: string): (r: string)
      reads this
      requires Valid() && NullKey in foundPaths
      ensures Scalars.NamedBy(ExtentList(), base, guid, r)
    {
      Scalars.NamedEditorId(ExtentList(), base, guid)
    }

    /** `GetChanceNone`: Base's value exactly when every path end holds it, else the
        value of a path end after which none differs. */
    function GetChanceNone(): (r: int)
      reads this
      requires Valid() && NullKey in foundPaths
      ensures Scalars.FieldBy(ExtentList(), Scalars.ChanceNoneOf, base, r)
    {
      Scalars.GettersFollowRule(ExtentList(), base);
      Scalars.GetChanceNone(ExtentList(), base)
    }

    /** `GetGlobal`, by the same rule. */
    function GetGlobal(): (r: Option<FormKey>)
      reads this
      requires Valid() && NullKey in foundPaths
      ensures Scalars.FieldBy(ExtentList(), Scalars.GlobalOf, base, r)
    {
      Scalars.GettersFollowRule(ExtentList(), base);
      Scalars.GetGlobal(ExtentList(), base)
    }

    /** `GetFlags`, by the same rule. */
    function GetFlags(): (r: int)
      reads this
      requires Valid() && NullKey in foundPaths
      ensures Scalars.FieldBy(ExtentList(), Scalars.FlagsOf, base, r)
    {
      Scalars.GettersFollowRule(ExtentList(), base);
      Scalars.GetFlags(ExtentList(), base)
    }

    /** `GetEntries`: the one path end's entries, or else the merge of all of them. */
    method GetEntries(h: Helpers) returns (r: seq<Entry>)
      requires Valid() && NullKey in foundPaths
      ensures |ExtentList()| == 1 ==> r == OrEmpty(ExtentList()[0].entries)
      ensures |ExtentList()| != 1 ==> r == Merged(h, ListsOf(ExtentList()), OrEmpty(base.entries))
    {
      var extents := ExtentList();
      if |extents| == 1 {
        return OrEmpty(extents[0].entries);
      }
      r := MergeEntries(h, ListsOf(extents), OrEmpty(base.entries));
    }
  }

  /** The last node of each path, each once, in the order of the paths. */
  function PathEnds(found: seq<seq<ModKey>>): (r: seq<ModKey>)
    requires forall p :: p in found ==> p != []
    ensures Distinct(r)
    ensures forall k :: k in r <==> exists p :: p in found && p[|p| - 1] == k
  {
    assert forall i :: 0 <= i < |found| ==> found[i] in found;
    var lasts := Lasts(found);
    assert forall k :: k in lasts <==> exists p :: p in found && p[|p| - 1] == k by {
      forall k | k in lasts ensures exists p :: p in found && p[|p| - 1] == k {
        var i :| 0 <= i < |found| && lasts[i] == k;
        assert found[i] in found;
      }
      forall p | p in found ensures p[|p| - 1] in lasts {
        var i :| 0 <= i < |found| && found[i] == p;
        assert lasts[i] == p[|p| - 1];
      }
    }
    Dedup(lasts)
  }

  /** The record of each key, in the order of the keys. */
  function RecordsAt(keys: seq<ModKey>, records: map<ModKey, LeveledList>): (r: seq<LeveledList>)
    requires forall k :: k in keys ==> k in records
    ensures |r| == |keys| && forall i :: 0 <= i < |keys| ==> r[i] == records[keys[i]]
  {
    seq(|keys|, i requires 0 <= i < |keys| => records[keys[i]])
  }

  /** The lists minus the base entries, one by one (`ExceptWith(baseEntries)`). */
  function ExceptEach(h: Helpers, lists: seq<seq<Entry>>, baseEntries: seq<Entry>): (r: seq<seq<Entry>>)
    ensures |r| == |lists| && forall i :: 0 <= i < |lists| ==> r[i] == h.exceptWith(lists[i], baseEntries)
  {
    seq(|lists|, i requires 0 <= i < |lists| => h.exceptWith(lists[i], baseEntries))
  }

  /** `itemIntersection` after the first n records: every entry of every record to
      start with, then each record's entries `IntersectWith` it. */
  function ItemIntersection(h: Helpers, lists: seq<seq<Entry>>, n: nat): seq<Entry>
    requires n <= |lists|
  {
    if n == 0 then Flatten(lists)
    else h.intersectWith(lists[n - 1], Some(ItemIntersection(h, lists, n - 1)))
  }

  /** `addedIntersection` after the first n records: every record minus the base
      entries to start with, then each record minus the base entries `IntersectWith`
      it. */
  function AddedIntersection(h: Helpers, lists: seq<seq<Entry>>, baseEntries: seq<Entry>, n: nat): seq<Entry>
    requires n <= |lists|
  {
    if n == 0 then Flatten(ExceptEach(h, lists, baseEntries))
    else h.intersectWith(h.exceptWith(lists[n - 1], baseEntries), Some(AddedIntersection(h, lists, baseEntries, n - 1)))
  }

  /** `itemsAdded` after the first n records: each record minus the base entries minus
      the final `addedIntersection`. */
  function ItemsAdded(h: Helpers, lists: seq<seq<Entry>>, baseEntries: seq<Entry>, common: seq<Entry>, n: nat): seq<Entry>
    requires n <= |lists|
  {
    if n == 0 then []
    else ItemsAdded(h, lists, baseEntries, common, n - 1) + h.exceptWith(h.exceptWith(lists[n - 1], baseEntries), common)
  }

  /** `itemsAdded.And(itemIntersection)` once both loops are done. */
  function Merged(h: Helpers, lists: seq<seq<Entry>>, baseEntries: seq<Entry>): seq<Entry>
  {
    var common := AddedIntersection(h, lists, baseEntries, |lists|);
    h.and(ItemsAdded(h, lists, baseEntries, common, |lists|), ItemIntersection(h, lists, |lists|))
  }

  /** The two loops of `GetEntries` over the records of the path ends. */
  method MergeEntries(h: Helpers, lists: seq<seq<Entry>>, baseEntries: seq<Entry>) returns (r: seq<Entry>)
    ensures r == Merged(h, lists, baseEntries)
  {
    var itemsAdded := [];
    var itemIntersection := Flatten(lists);
    var addedIntersection := Flatten(ExceptEach(h, lists, baseEntries));
    var k := 0;
    while k < |lists|
      invariant 0 <= k <= |lists|
      invariant itemIntersection == ItemIntersection(h, lists, k)
      invariant addedIntersection == AddedIntersection(h, lists, baseEntries, k)
    {
      var entries := lists[k];
      itemIntersection := h.intersectWith(entries, Some(itemIntersection));
      addedIntersection := h.intersectWith(h.exceptWith(entries, baseEntries), Some(addedIntersection));
      k := k + 1;
    }
    k := 0;
    while k < |lists|
      invariant 0 <= k <= |lists|
      invariant itemsAdded == ItemsAdded(h, lists, baseEntries, addedIntersection, k)
    {
      var entries := h.exceptWith(h.exceptWith(lists[k], baseEntries), addedIntersection);
      itemsAdded := itemsAdded + entries;
      k := k + 1;
    }
    r := h.and(itemsAdded, itemIntersection);
  }

  /** An entry of the flattened lists is in one of them. */
  lemma {:induction false} FlattenFrom(lists: seq<seq<Entry>>, e: Entry)
    requires e in Flatten(lists)
    ensures exists k :: 0 <= k < |lists| && e in lists[k]
  {
    if e !in lists[0] {
      FlattenFrom(lists[1..], e);
      var k :| 0 <= k < |lists[1..]| && e in lists[1..][k];
      assert e in lists[k + 1];
    }
  }

  /** With drawing helpers the running intersection holds only entries of the
      records. */
  lemma {:induction false} ItemIntersectionFrom(h: Helpers, lists: seq<seq<Entry>>, n: nat, e: Entry)
    requires Drawn(h) && n <= |lists| && e in ItemIntersection(h, lists, n)
    ensures exists k :: 0 <= k < |lists| && e in lists[k]
  {
    if n == 0 {
      FlattenFrom(lists, e);
    } else {
      assert e in multiset(h.intersectWith(lists[n - 1], Some(ItemIntersection(h, lists, n - 1))));
      assert e in lists[n - 1];
    }
  }

  /** With drawing helpers every added entry is an entry of a record. */
  lemma {:induction false} ItemsAddedFrom(h: Helpers, lists: seq<seq<Entry>>, baseEntries: seq<Entry>, common: seq<Entry>,
                                          n: nat, e: Entry)
    requires Drawn(h) && n <= |lists| && e in ItemsAdded(h, lists, baseEntries, common, n)
    ensures exists k :: 0 <= k < n && e in lists[k]
  {
    var prev := ItemsAdded(h, lists, baseEntries, common, n - 1);
    if e in prev {
      ItemsAddedFrom(h, lists, baseEntries, common, n - 1, e);
    } else {
      var inner := h.exceptWith(lists[n - 1], baseEntries);
      assert e in multiset(h.exceptWith(inner, common));
      assert e in multiset(inner);
      assert e in lists[n - 1];
    }
  }

  /** With drawing helpers every merged entry comes from one of the records the paths
      end at: unlike the resolver, nothing here brings in Base's entries or drops null
      entries. */
  lemma MergedDrawn(h: Helpers, lists: seq<seq<Entry>>, baseEntries: seq<Entry>)
    requires Drawn(h)
    ensures forall e :: e in Merged(h, lists, baseEntries) ==> exists k :: 0 <= k < |lists| && e in lists[k]
  {
    var common := AddedIntersection(h, lists, baseEntries, |lists|);
    var added := ItemsAdded(h, lists, baseEntries, common, |lists|);
    var kept := ItemIntersection(h, lists, |lists|);
    forall e | e in Merged(h, lists, baseEntries) ensures exists k :: 0 <= k < |lists| && e in lists[k] {
      assert e in multiset(h.and(added, kept));
      if e in added {
        ItemsAddedFrom(h, lists, baseEntries, common, |lists|, e);
      } else {
        assert e in multiset(kept);
        ItemIntersectionFrom(h, lists, |lists|, e);
      }
    }
  }

  /** A traversal listing holds exactly the walks from its key to an end point. */
  lemma TraversedWalks(g: ItemGraph, start: ModKey, p: seq<ModKey>)
    requires g.Valid() && start in g.foundPaths
    ensures p in g.foundPaths[start] <==>
      p != [] && p[0] == start && IsWalk(g.graph, p) && p[|p| - 1] in EndPoints(g.graph)
  {
    ListingIsWalks(g.graph, g.order, g.rank, start, g.enumerate(EndPoints(g.graph)), p);
  }

  /** The path ends are exactly the end points a walk from ModKey.Null reaches. */
  lemma EndKeysReached(g: ItemGraph, k: ModKey)
    requires g.Valid() && NullKey in g.foundPaths
    ensures k in g.EndKeys() <==>
      k in EndPoints(g.graph) && exists p :: p != [] && p[0] == NullKey && IsWalk(g.graph, p) && p[|p| - 1] == k
  {
    if k in g.EndKeys() {
      var p :| p in g.Found() && p[|p| - 1] == k;
      TraversedWalks(g, NullKey, p);
    }
    if p :| p != [] && p[0] == NullKey && IsWalk(g.graph, p) && p[|p| - 1] == k && k in EndPoints(g.graph) {
      TraversedWalks(g, NullKey, p);
      assert p in g.Found();
    }
  }

  /** The linking loop and the pruning pass, for the records of the defining
      plugins. */
  method LinkPrune(records: map<ModKey, LeveledList>, listings: seq<ModInfo>)
    returns (r: Result<Graph>, ghost rank: map<ModKey, nat>)
    requires WellListed(listings)
    requires forall i :: 0 <= i < |listings| ==> listings[i].key in records
    ensures r.Fail? <==> MasterLoadsLater(listings)
    ensures r.Fail? ==> r.error == KeyNotFound
    ensures r.Ok? ==> var hung := HungUpTo(listings, |listings|); var graph := r.value;
      Ranked(graph, rank) && NullKey in graph &&
      Shrunk(graph, hung) && Pruned(graph) && Covered(graph, hung) &&
      forall k, c :: k in graph && c in graph[k] ==> c in records
  {
    var hung := HangListings(listings);
    if hung.Fail? {
      return Fail(hung.error), map[];
    }
    HungRanked(listings);
    rank := ListingRank(listings);
    var graph := Prune(hung.value);
    ShrunkRanked(graph, hung.value, rank);
    forall k, c | k in graph && c in graph[k] ensures c in records {
      var j :| 0 <= j < |listings| && listings[j].key == c && k in Parents(listings[j], ListedKeys(listings));
    }
    return Ok(graph), rank;
  }

  /** The constructor followed by `Traverse()`. `contexts` are the record's definitions,
      highest priority first; `listings` are the enabled plugins that define it, lowest
      priority first. Base is the first definition: `Reverse().First()` fails on no
      definition. The linking loop fails when a plugin names a defining master that
      loads after it. */
  method Build(contexts: seq<Context>, listings: seq<ModInfo>, enumerate: set<ModKey> -> seq<ModKey>)
    returns (r: Result<ItemGraph>)
    requires Distinct(ModKeysOf(contexts))
    requires WellListed(listings) && Enumerator(enumerate)
    requires forall i :: 0 <= i < |listings| ==> listings[i].key in ModKeysOf(contexts)
    ensures contexts == [] ==> r == Fail(InvalidOperation)
    ensures contexts != [] ==> (r.Fail? <==> MasterLoadsLater(listings))
    ensures contexts != [] && r.Fail? ==> r.error == KeyNotFound
    ensures r.Ok? ==> fresh(r.value)
    ensures r.Ok? ==> var g := r.value; var hung := HungUpTo(listings, |listings|);
      contexts != [] && g.Valid() && NullKey in g.foundPaths &&
      g.base == contexts[|contexts| - 1].record && g.records == RecordMap(contexts) && g.enumerate == enumerate &&
      Shrunk(g.graph, hung) && Pruned(g.graph) && Covered(g.graph, hung)
  {
    if contexts == [] {
      return Fail(InvalidOperation);
    }
    var base := contexts[|contexts| - 1].record;
    var records := RecordMap(contexts);
    forall i | 0 <= i < |listings| ensures listings[i].key in records {
      var j :| 0 <= j < |contexts| && ModKeysOf(contexts)[j] == listings[i].key;
    }
    var linked, rank := LinkPrune(records, listings);
    if linked.Fail? {
      return Fail(linked.error);
    }
    var graph := linked.value;
    var g := new ItemGraph(base, records, graph, OrderOf(graph, enumerate), rank, enumerate);
    var _ := g.Traverse(NullKey);
    r := Ok(g);
  }
}

=== FILE: generator_npc_graph.dfy ===
/** LeveledNpcGraph of the generator: the override graph of one leveled NPC list, whose
    pruning pass also collects ExtentRecords (the record of every child without
    children), the memoised path search, the scalar getters over ExtentRecords and
    `GetEntries`, an Aggregate over the extent lists. */
module GeneratorNpcGraph {
  import opened Types
  import opened ListAlgebra
  import opened Paths
  import opened OverrideGraph
  import opened GeneratorGraph
  import opened GraphBase
  import opened Unseen
  import opened Utility
  import Scalars

  /** The records of a set of plugins. */
  function RecordSet(keys: set<ModKey>, records: map<ModKey, LeveledList>): (r: set<LeveledList>)
    requires keys <= records.Keys
    ensures forall x :: x in r <==> exists u :: u in keys && records[u] == x
  {
    set u | u in keys :: records[u]
  }

  /** The inner loop of the pruning pass on the child set of `key`: a member still in
      the set when its turn comes adds its record (`Records[value]`) to the builder when
      it has no children, and then removes its children from the set. `found` are the
      members whose records were added. */
  method PruneCollectChildren(graph0: Graph, key: ModKey, records: map<ModKey, LeveledList>, extents0: set<LeveledList>)
    returns (graph: Graph, extents: set<LeveledList>, ghost found: set<ModKey>)
    requires key in graph0 && Closed(graph0) && key !in graph0[key]
    requires graph0[key] <= records.Keys
    ensures Shrunk(graph, graph0) && Covered(graph, graph0)
    ensures forall k :: k in graph && k != key ==> graph[k] == graph0[k]
    ensures forall v :: v in graph[key] ==> graph[v] * graph[key] == {}
    ensures found <= graph0[key] && forall u :: u in found ==> graph0[u] == {}
    ensures forall u :: u in graph[key] && graph0[u] == {} ==> u in found
    ensures extents == extents0 + RecordSet(found, records)
  {
    graph := graph0;
    extents := extents0;
    found := {};
    assert RecordSet({}, records) == {};
    var todo := graph0[key];
    while todo != {}
      invariant CollectInv(graph0, key, records, extents0, todo, graph, extents, found)
      decreases todo
    {
      var value :| value in todo;
      graph, extents, found := CollectNext(graph0, key, records, extents0, todo, value, graph, extents, found);
      todo := todo - {value};
    }
  }

  /** What the inner loop keeps while the members of `todo` still wait for their turn. */
  ghost predicate CollectInv(graph0: Graph, key: ModKey, records: map<ModKey, LeveledList>, extents0: set<LeveledList>,
                             todo: set<ModKey>, graph: Graph, extents: set<LeveledList>, found: set<ModKey>)
  {
    key in graph0 && graph0[key] <= graph0.Keys && todo <= graph0[key] && graph.Keys == graph0.Keys &&
    (forall k :: k in graph && k != key ==> graph[k] == graph0[k]) &&
    graph[key] <= graph0[key] &&
    (forall v :: v in graph[key] && v !in todo ==> graph[v] * graph[key] == {}) &&
    (forall u :: u in graph0[key] && u !in graph[key] ==>
       exists w :: w in graph0[key] && w in graph0 && u in graph0[w]) &&
    found <= graph0[key] && (forall u :: u in found ==> graph0[u] == {}) &&
    (forall u :: u in graph[key] && u !in todo && graph0[u] == {} ==> u in found) &&
    found <= records.Keys && extents == extents0 + RecordSet(found, records)
  }

  /** The turn of one member of the child set of `key`. */
  method CollectNext(graph0: Graph, key: ModKey, records: map<ModKey, LeveledList>, extents0: set<LeveledList>,
                     todo: set<ModKey>, value: ModKey, graph1: Graph, extents1: set<LeveledList>, ghost found1: set<ModKey>)
    returns (graph: Graph, extents: set<LeveledList>, ghost found: set<ModKey>)
    requires key in graph0 && Closed(graph0) && key !in graph0[key]
    requires graph0[key] <= records.Keys && value in todo
    requires CollectInv(graph0, key, records, extents0, todo, graph1, extents1, found1)
    ensures CollectInv(graph0, key, records, extents0, todo - {value}, graph, extents, found)
  {
    graph, extents, found := graph1, extents1, found1;
    if value in graph[key] {
      var children := graph[value];
      assert children == graph0[value];
      if |children| == 0 {
        RecordSetUnion(found, {value}, records);
        extents := extents + {records[value]};
        found := found + {value};
      }
      graph := graph[key := graph[key] - children * graph[key]];
      TurnKeepsPruned(graph0, key, todo, value, graph1, graph);
      TurnKeepsCovered(graph0, key, value, graph1, graph);
    }
  }

  /** Removing the children of `value` from the child set of `key` leaves no member of
      it that shares a child with the set once its turn is over. */
  lemma TurnKeepsPruned(graph0: Graph, key: ModKey, todo: set<ModKey>, value: ModKey, graph1: Graph, graph: Graph)
    requires key in graph0 && key !in graph0[key] && graph0[key] <= graph0.Keys && graph1.Keys == graph0.Keys
    requires forall k :: k in graph1 && k != key ==> graph1[k] == graph0[k]
    requires graph1[key] <= graph0[key] && value in graph1[key]
    requires forall v :: v in graph1[key] && v !in todo ==> graph1[v] * graph1[key] == {}
    requires graph == graph1[key := graph1[key] - graph0[value] * graph1[key]]
    ensures forall v :: v in graph[key] && v !in todo - {value} ==> graph[v] * graph[key] == {}
  {
    forall v | v in graph[key] && v !in todo - {value}
      ensures graph[v] * graph[key] == {}
    {
      assert v != key && v in graph0;
      if v != value {
        assert graph[v] * graph[key] <= graph1[v] * graph1[key];
      }
    }
  }

  /** A member pruned in this turn is a child of `value`, another member of the set. */
  lemma TurnKeepsCovered(graph0: Graph, key: ModKey, value: ModKey, graph1: Graph, graph: Graph)
    requires key in graph0 && value in graph0[key] && value in graph0 && key in graph1 && key in graph
    requires forall u :: u in graph0[key] && u !in graph1[key] ==>
      exists w :: w in graph0[key] && w in graph0 && u in graph0[w]
    requires graph[key] == graph1[key] - graph0[value] * graph1[key]
    ensures forall u :: u in graph0[key] && u !in graph[key] ==>
      exists w :: w in graph0[key] && w in graph0 && u in graph0[w]
  {
    forall u | u in graph0[key] && u !in graph[key]
      ensures exists w :: w in graph0[key] && w in graph0 && u in graph0[w]
    {
      if u in graph1[key] {
        assert u in graph0[value];
      }
    }
  }

  /** The pruning pass of the constructor with the ExtentRecords builder. The builder
      ends up with the records of exactly the end points of the linked graph, which are
      those of the pruned graph. */
  method PruneCollect(graph0: Graph, records: map<ModKey, LeveledList>, ghost rank: map<ModKey, nat>)
    returns (graph: Graph, extents: set<LeveledList>)
    requires Ranked(graph0, rank)
    requires forall k, c :: k in graph0 && c in graph0[k] ==> c in records
    ensures Shrunk(graph, graph0) && Pruned(graph) && Covered(graph, graph0)
    ensures EndPoints(graph) == EndPoints(graph0) && EndPoints(graph0) <= records.Keys
    ensures extents == RecordSet(EndPoints(graph0), records)
  {
    graph := graph0;
    extents := {};
    ghost var ends: set<ModKey> := {};
    var todo := graph0.Keys;
    while todo != {}
      invariant todo <= graph0.Keys
      invariant Shrunk(graph, graph0) && Covered(graph, graph0)
      invariant forall k :: k in todo ==> graph[k] == graph0[k]
      invariant forall k, v :: k in graph && k !in todo && v in graph[k] ==> v in graph && graph[v] * graph[k] == {}
      invariant ends <= EndPoints(graph0)
      invariant forall k, u :: k in graph && k !in todo && u in graph[k] && u in graph0 && graph0[u] == {} ==> u in ends
      invariant extents == RecordSet(ends, records)
      decreases todo
    {
      var key :| key in todo;
      var prev := graph;
      ghost var found;
      graph, extents, found := PruneCollectChildren(prev, key, records, extents);
      CoveredTrans(graph, prev, graph0, key);
      PrunedStep(graph, prev, key, todo);
      EndsStep(graph, prev, graph0, rank, key, todo, ends, found);
      RecordSetUnion(ends, found, records);
      ends := ends + found;
      todo := todo - {key};
    }
    CollectedEnds(graph, graph0, rank, ends);
  }

  /** Pruning one more child set keeps the sets pruned before it pruned. */
  lemma PrunedStep(graph: Graph, prev: Graph, key: ModKey, todo: set<ModKey>)
    requires Shrunk(graph, prev) && key in todo && key in graph
    requires forall k :: k in graph && k != key ==> graph[k] == prev[k]
    requires forall v :: v in graph[key] ==> v in graph && graph[v] * graph[key] == {}
    requires forall k, v :: k in prev && k !in todo && v in prev[k] ==> v in prev && prev[v] * prev[k] == {}
    ensures forall k, v :: k in graph && k !in todo - {key} && v in graph[k] ==> v in graph && graph[v] * graph[k] == {}
  {
    forall k, v | k in graph && k !in todo - {key} && v in graph[k]
      ensures v in graph && graph[v] * graph[k] == {}
    {
      if k != key {
        assert v in prev[k];
        assert graph[v] * graph[k] <= prev[v] * prev[k];
      }
    }
  }

  /** The records of two sets of plugins together are the records of their union. */
  lemma RecordSetUnion(a: set<ModKey>, b: set<ModKey>, records: map<ModKey, LeveledList>)
    requires a + b <= records.Keys
    ensures RecordSet(a, records) + RecordSet(b, records) == RecordSet(a + b, records)
  {
  }

  /** One child set pruned: the plugins it collects are end points, and every
      childless child left in a set already pruned has been collected. */
  lemma EndsStep(graph: Graph, prev: Graph, graph0: Graph, rank: map<ModKey, nat>, key: ModKey,
                 todo: set<ModKey>, ends: set<ModKey>, found: set<ModKey>)
    requires Ranked(graph0, rank) && Shrunk(prev, graph0) && Covered(prev, graph0)
    requires key in todo && todo <= graph0.Keys && prev[key] == graph0[key]
    requires Shrunk(graph, prev) && forall k :: k in graph && k != key ==> graph[k] == prev[k]
    requires found <= prev[key] && forall u :: u in found ==> prev[u] == {}
    requires forall u :: u in graph[key] && u in prev && prev[u] == {} ==> u in found
    requires ends <= EndPoints(graph0)
    requires forall k, u :: k in prev && k !in todo && u in prev[k] && u in graph0 && graph0[u] == {} ==> u in ends
    ensures ends + found <= EndPoints(graph0)
    ensures forall k, u :: k in graph && k !in todo - {key} && u in graph[k] && u in graph0 && graph0[u] == {} ==>
      u in ends + found
  {
    PruningKeepsLeaves(prev, graph0, rank);
    forall u | u in found ensures u in EndPoints(graph0) {
      assert u in graph0[key];
    }
    forall k, u | k in graph && k !in todo - {key} && u in graph[k] && u in graph0 && graph0[u] == {}
      ensures u in ends + found
    {
      if k == key {
        assert u in prev && prev[u] == {};
      } else {
        assert u in prev[k];
      }
    }
  }

  /** The children without children met by the pruning pass are all the end points,
      and pruning keeps the end points. */
  lemma CollectedEnds(graph: Graph, graph0: Graph, rank: map<ModKey, nat>, ends: set<ModKey>)
    requires Ranked(graph0, rank) && Shrunk(graph, graph0) && Covered(graph, graph0)
    requires ends <= EndPoints(graph0)
    requires forall k, u :: k in graph && u in graph[k] && u in graph0 && graph0[u] == {} ==> u in ends
    ensures ends == EndPoints(graph0) && EndPoints(graph) == EndPoints(graph0)
  {
    forall u | u in EndPoints(graph0) ensures u in ends {
      ChildKept(graph, graph0, rank, u);
    }
    forall u ensures u in EndPoints(graph) <==> u in EndPoints(graph0) {
      PruningKeepsEnds(graph, graph0, rank, u);
    }
  }

  /** The graph object after its constructor: Base, `Records`, the pruned `Graph`,
      ExtentRecords and the `foundPaths` cache; `order` and `enumerate` are the
      enumeration orders of the child sets and of the end-point set. */
  class NpcGraph {
    const base: LeveledList
    const records: map<ModKey, LeveledList>
    const graph: Graph
    const order: Order
    ghost const rank: map<ModKey, nat>
    const enumerate: set<ModKey> -> seq<ModKey>
    const extentRecords: set<LeveledList>
    var foundPaths: map<ModKey, seq<seq<ModKey>>>

    /** The graph has no cycle and every cached listing is the one a traversal from
        its key produces. */
    ghost predicate Valid()
      reads this
    {
      WellFormed(graph, order, rank) && NullKey in graph &&
      Cached(graph, order, rank, enumerate(EndPoints(graph)), foundPaths)
    }

    constructor (base: LeveledList, records: map<ModKey, LeveledList>, graph: Graph, order: Order,
                 ghost rank: map<ModKey, nat>, enumerate: set<ModKey> -> seq<ModKey>, extentRecords: set<LeveledList>)
      requires WellFormed(graph, order, rank) && NullKey in graph
      ensures Valid() && foundPaths == map[]
      ensures this.base == base && this.records == records && this.graph == graph && this.order == order
      ensures this.rank == rank && this.enumerate == enumerate && this.extentRecords == extentRecords
    {
      this.base := base;
      this.records := records;
      this.graph := graph;
      this.order := order;
      this.rank := rank;
      this.enumerate := enumerate;
      this.extentRecords := extentRecords;
      foundPaths := map[];
    }

    /** `Traverse(startingKey)`: an empty list for a key that is not a node; the cached
        list for a key traversed before; otherwise the paths to each end point in
        turn, which are cached. */
    method Traverse(start: ModKey) returns (paths: seq<seq<ModKey>>)
      requires Valid()
      modifies this
      ensures Valid()
      ensures start !in graph ==> paths == [] && foundPaths == old(foundPaths)
      ensures start in old(foundPaths) ==> paths == old(foundPaths)[start] && foundPaths == old(foundPaths)
      ensures start in graph ==>
        paths == PathsToAll(graph, order, rank, start, enumerate(EndPoints(graph))) &&
        foundPaths == old(foundPaths)[start := paths]
    {
      if start !in graph {
        paths := [];
      } else if start in foundPaths {
        paths := foundPaths[start];
        assert foundPaths == foundPaths[start := paths];
      } else {
        var endPoints := CollectEndPoints(graph);
        paths := VisitAll(graph, order, rank, start, enumerate(endPoints));
        CachedAdd(graph, order, rank, enumerate(EndPoints(graph)), foundPaths, start, paths);
        foundPaths := foundPaths[start := paths];
      }
    }

    /** `GetEditorId`, over ExtentRecords in their enumeration order `extentOrder`. */
    function GetEditorId(extentOrder: seq<LeveledList>, guid: string): (r: string)
      requires Enumerates(extentOrder, extentRecords)
      ensures (forall i :: 0 <= i < |extentOrder| ==> !Scalars.Renamed(extentOrder[i].editorId, base.editorId)) ==>
        r == if base.editorId.Some? then base.editorId.value else guid
      ensures (exists i :: 0 <= i < |extentOrder| && Scalars.Renamed(extentOrder[i].editorId, base.editorId)) ==>
        exists i :: 0 <= i < |extentOrder| && Scalars.Renamed(extentOrder[i].editorId, base.editorId) &&
          extentOrder[i].editorId == Some(r) &&
          forall j :: i < j < |extentOrder| ==> !Scalars.Renamed(extentOrder[j].editorId, base.editorId)
    {
      Scalars.NamedEditorId(extentOrder, base, guid)
    }

    /** `GetChanceNone`: Base's value exactly when every extent record holds it, else
        the value of an extent record after which none differs. */
    function GetChanceNone(extentOrder: seq<LeveledList>): (r: int)
      requires Enumerates(extentOrder, extentRecords)
      ensures Scalars.FieldBy(extentOrder, Scalars.ChanceNoneOf, base, r)
    {
      Scalars.GettersFollowRule(extentOrder, base);
      Scalars.GetChanceNone(extentOrder, base)
    }

    /** `GetGlobal`, by the same rule. */
    function GetGlobal(extentOrder: seq<LeveledList>): (r: Option<FormKey>)
      requires Enumerates(extentOrder, extentRecords)
      ensures Scalars.FieldBy(extentOrder, Scalars.GlobalOf, base, r)
    {
      Scalars.GettersFollowRule(extentOrder, base);
      Scalars.GetGlobal(extentOrder, base)
    }

    /** `GetFlags`, by the same rule. */
    function GetFlags(extentOrder: seq<LeveledList>): (r: int)
      requires Enumerates(extentOrder, extentRecords)
      ensures Scalars.FieldBy(extentOrder, Scalars.FlagsOf, base, r)
    {
      Scalars.GettersFollowRule(extentOrder, base);
      Scalars.GetFlags(extentOrder, base)
    }

    /** `GetEntries`: one extent record gives its entries; no extent record makes
        `First()` fail; otherwise the added entries then Base's entries intersected
        with every extent list, nothing filtered. */
    function GetEntries(extentOrder: seq<LeveledList>, h: Helpers): (r: Result<seq<Entry>>)
      requires Enumerates(extentOrder, extentRecords)
      ensures r.Fail? <==> extentOrder == []
      ensures r.Fail? ==> r.error == InvalidOperation
      ensures |extentOrder| == 1 ==> r == Ok(OrEmpty(extentOrder[0].entries))
      ensures |extentOrder| > 1 ==>
        r == Ok(Added(h, ListsOf(extentOrder), OrEmpty(base.entries), |extentOrder|) +
                Intersected(h, OrEmpty(base.entries), ListsOf(extentOrder), |extentOrder|))
    {
      if |extentOrder| == 1 then Ok(OrEmpty(extentOrder[0].entries))
      else if extentOrder == [] then Fail(InvalidOperation)
      else
        var baseEntries := OrEmpty(base.entries);
        var lists := ListsOf(extentOrder);
        Ok(Added(h, lists, baseEntries, |lists|) + Intersected(h, baseEntries, lists, |lists|))
    }
  }

  /** The `added` Aggregate after the first n extent lists: the first minus Base's
      entries, then each next one minus Base's entries minus the list so far,
      appended. */
  function Added(h: Helpers, lists: seq<seq<Entry>>, baseEntries: seq<Entry>, n: nat): seq<Entry>
    requires 1 <= n <= |lists|
  {
    if n == 1 then h.exceptWith(lists[0], baseEntries)
    else
      var prev := Added(h, lists, baseEntries, n - 1);
      prev + h.exceptWith(h.exceptWith(lists[n - 1], baseEntries), prev)
  }

  /** With drawing helpers every added entry is an entry of an extent list. */
  lemma {:induction false} AddedFrom(h: Helpers, lists: seq<seq<Entry>>, baseEntries: seq<Entry>, n: nat, e: Entry)
    requires Drawn(h) && 1 <= n <= |lists| && e in Added(h, lists, baseEntries, n)
    ensures exists k :: 0 <= k < n && e in lists[k]
  {
    if n == 1 {
      assert e in multiset(h.exceptWith(lists[0], baseEntries));
      assert e in lists[0];
    } else {
      var prev := Added(h, lists, baseEntries, n - 1);
      if e in prev {
        AddedFrom(h, lists, baseEntries, n - 1, e);
      } else {
        var inner := h.exceptWith(lists[n - 1], baseEntries);
        assert e in multiset(h.exceptWith(inner, prev));
        assert e in multiset(inner);
        assert e in lists[n - 1];
      }
    }
  }

  /** With drawing helpers every merged entry comes from an extent list or from Base's
      entries, and nothing is dropped: null entries and empty sublists stay. */
  lemma EntriesDrawn(g: NpcGraph, extentOrder: seq<LeveledList>, h: Helpers)
    requires Drawn(h) && Enumerates(extentOrder, g.extentRecords)
    ensures g.GetEntries(extentOrder, h).Ok? ==> forall e :: e in g.GetEntries(extentOrder, h).value ==>
      (exists k :: 0 <= k < |extentOrder| && e in OrEmpty(extentOrder[k].entries)) || e in OrEmpty(g.base.entries)
  {
    var lists := ListsOf(extentOrder);
    var baseEntries := OrEmpty(g.base.entries);
    if |extentOrder| > 1 {
      IntersectedFromBase(h, baseEntries, lists, |lists|);
      forall e | e in g.GetEntries(extentOrder, h).value
        ensures (exists k :: 0 <= k < |extentOrder| && e in lists[k]) || e in baseEntries
      {
        if e in Added(h, lists, baseEntries, |lists|) {
          AddedFrom(h, lists, baseEntries, |lists|, e);
        } else {
          assert e in multiset(Intersected(h, baseEntries, lists, |lists|));
        }
      }
    }
  }

  /** A traversal listing holds exactly the walks from its key to an end point. */
  lemma TraversedWalks(g: NpcGraph, start: ModKey, p: seq<ModKey>)
    requires g.Valid() && start in g.foundPaths
    ensures p in g.foundPaths[start] <==>
      p != [] && p[0] == start && IsWalk(g.graph, p) && p[|p| - 1] in g.enumerate(EndPoints(g.graph))
  {
    ListingIsWalks(g.graph, g.order, g.rank, start, g.enumerate(EndPoints(g.graph)), p);
  }

  /** The linking loop and the pruning pass with the ExtentRecords builder, for the
      records of the defining plugins. */
  method LinkPrune(records: map<ModKey, LeveledList>, listings: seq<ModInfo>)
    returns (r: Result<(Graph, set<LeveledList>)>, ghost rank: map<ModKey, nat>)
    requires WellListed(listings)
    requires forall i :: 0 <= i < |listings| ==> listings[i].key in records
    ensures r.Fail? <==> MasterLoadsLater(listings)
    ensures r.Fail? ==> r.error == KeyNotFound
    ensures r.Ok? ==> var hung := HungUpTo(listings, |listings|); var graph := r.value.0;
      Ranked(graph, rank) && NullKey in graph &&
      Shrunk(graph, hung) && Pruned(graph) && Covered(graph, hung) &&
      EndPoints(graph) == EndPoints(hung) && EndPoints(hung) <= records.Keys &&
      r.value.1 == RecordSet(EndPoints(hung), records)
  {
    var hung := HangListings(listings);
    if hung.Fail? {
      return Fail(hung.error), map[];
    }
    HungRanked(listings);
    rank := ListingRank(listings);
    forall k, c | k in hung.value && c in hung.value[k] ensures c in records {
      var j :| 0 <= j < |listings| && listings[j].key == c && k in Parents(listings[j], ListedKeys(listings));
    }
    var graph, extents := PruneCollect(hung.value, records, rank);
    ShrunkRanked(graph, hung.value, rank);
    return Ok((graph, extents)), rank;
  }

  /** The constructor followed by `Traverse()`. `contexts` are the record's definitions,
      highest priority first, and `ResolveAll(...).Last()` fails on none; `listings`
      are the enabled plugins that define it, lowest priority first. The linking loop
      fails when a plugin names a defining master that loads after it. ExtentRecords
      are the records of the plugins no other defining plugin hangs off. */
  method Build(contexts: seq<Context>, listings: seq<ModInfo>, enumerate: set<ModKey> -> seq<ModKey>)
    returns (r: Result<NpcGraph>)
    requires Distinct(ModKeysOf(contexts))
    requires WellListed(listings) && Enumerator(enumerate)
    requires forall i :: 0 <= i < |listings| ==> listings[i].key in ModKeysOf(contexts)
    ensures contexts == [] ==> r == Fail(InvalidOperation)
    ensures contexts != [] ==> (r.Fail? <==> MasterLoadsLater(listings))
    ensures contexts != [] && r.Fail? ==> r.error == KeyNotFound
    ensures r.Ok? ==> fresh(r.value)
    ensures r.Ok? ==> var g := r.value; var hung := HungUpTo(listings, |listings|);
      contexts != [] && g.Valid() && NullKey in g.foundPaths &&
      g.base == contexts[|contexts| - 1].record && g.records == RecordMap(contexts) && g.enumerate == enumerate &&
      Shrunk(g.graph, hung) && Pruned(g.graph) && Covered(g.graph, hung) &&
      EndPoints(g.graph) == EndPoints(hung) && EndPoints(g.graph) <= g.records.Keys &&
      g.extentRecords == RecordSet(EndPoints(g.graph), g.records)
  {
    if contexts == [] {
      return Fail(InvalidOperation);
    }
    var base := contexts[|contexts| - 1].record;
    var records := RecordMap(contexts);
    forall i | 0 <= i < |listings| ensures listings[i].key in records {
      var j :| 0 <= j < |contexts| && ModKeysOf(contexts)[j] == listings[i].key;
    }
    var linked, rank := LinkPrune(records, listings);
    if linked.Fail? {
      return Fail(linked.error);
    }
    var (graph, extents) := linked.value;
    var g := new NpcGraph(base, records, graph, OrderOf(graph, enumerate), rank, enumerate, extents);
    var _ := g.Traverse(NullKey);
    r := Ok(g);
  }
}

=== FILE: generator_patcher.dfy ===
/** The generator's `Patcher`: which winning leveled item overrides need a merged
    record, and the step of `Apply` that builds the merged copy of one record from its
    graph, keeps the first 255 entries, removes null entries and empty sublists, and
    leaves out a copy that changes nothing. */
module GeneratorPatcher {
  import opened Types
  import opened ListAlgebra
  import opened Utility
  import opened Unseen
  import opened Patch
  import opened GeneratorItemGraph
  import ResolverPatcher

  /** `FindRecordsToOverride`: for every selected record, in the order of `chains`,
      its origin (`records[0]`) with all its definitions, lowest priority first. */
  function FindRecordsToOverride(chains: seq<seq<LeveledList>>): (r: seq<(LeveledList, seq<LeveledList>)>)
    ensures |r| <= |chains|
    ensures forall i :: 0 <= i < |r| ==> ResolverPatcher.Selected(r[i].1) && r[i].0 == r[i].1[0]
    ensures forall x :: x in r <==>
      exists i :: 0 <= i < |chains| && ResolverPatcher.Selected(chains[i]) && x == (chains[i][0], chains[i])
  {
    if chains == [] then []
    else
      var records := chains[0];
      var rest := FindRecordsToOverride(chains[1..]);
      assert forall i :: 1 <= i < |chains| ==> chains[1..][i - 1] == chains[i];
      (if ResolverPatcher.Selected(records) then [(records[0], records)] else []) + rest
  }

  /** `RemoveAll(entry => IsNullOrEmptySublist(entry, linkCache))`: the entries kept in
      order, and how many were removed. */
  method RemoveAll(entries: seq<Entry>, cache: LinkCache) returns (kept: seq<Entry>, removed: nat)
    ensures kept == Filter(entries, Keep(cache))
    ensures removed == |entries| - |kept|
  {
    kept := [];
    var i := 0;
    while i < |entries|
      invariant 0 <= i <= |entries|
      invariant kept == Filter(entries[..i], Keep(cache))
      invariant |kept| <= i
    {
      FilterSnoc(entries[..i], entries[i], Keep(cache));
      assert entries[..i + 1] == entries[..i] + [entries[i]];
      if !IsNullOrEmptySublist(entries[i], cache) {
        kept := kept + [entries[i]];
      }
      i := i + 1;
    }
    assert entries[..i] == entries;
    removed := |entries| - |kept|;
  }

  /** Nothing is removed exactly when every entry is kept. */
  lemma {:induction false} NothingRemoved(entries: seq<Entry>, cache: LinkCache)
    ensures |Filter(entries, Keep(cache))| == |entries| <==> forall i :: 0 <= i < |entries| ==> Keep(cache)(entries[i])
  {
    if entries != [] {
      NothingRemoved(entries[1..], cache);
      assert forall i :: 1 <= i < |entries| ==> entries[1..][i - 1] == entries[i];
      if |Filter(entries[1..], Keep(cache))| == |entries| - 1 {
        assert forall i :: 0 < i < |entries| ==> Keep(cache)(entries[i]);
      }
    }
  }

  /** The entries the graph yields: the one path end's entries, or else the merge of
      the path ends' entries. */
  function GraphEntries(g: ItemGraph, h: Helpers): seq<Entry>
    reads g
    requires g.Valid() && NullKey in g.foundPaths
  {
    var extents := g.ExtentList();
    if |extents| == 1 then OrEmpty(extents[0].entries) else Merged(h, ListsOf(extents), OrEmpty(g.base.entries))
  }

  /** The merged leveled item: the origin's copy with FormVersion 44, the graph's
      EditorID and scalar fields, and `entries`. */
  function ItemCopy(g: ItemGraph, guid: string, entries: seq<Entry>): LeveledList
    reads g
    requires g.Valid() && NullKey in g.foundPaths
  {
    g.base.(formVersion := ResolverPatcher.FormVersion, editorId := Some(g.GetEditorId(guid)),
            entries := Some(entries), chanceNone := g.GetChanceNone(), global := g.GetGlobal(), flags := g.GetFlags())
  }

  /** The first 255 of the merged entries, then `RemoveAll` of the null entries and
      empty sublists among them. */
  method TakeAndRemove(entries: seq<Entry>, cache: LinkCache) returns (kept: seq<Entry>, removed: nat)
    ensures var taken := ResolverPatcher.Truncated(entries);
      kept == Filter(taken, Keep(cache)) && removed == |taken| - |kept|
    ensures |kept| <= ResolverPatcher.MaxEntries
    ensures forall e :: e in kept ==> !IsNullOrEmptySublist(e, cache)
  {
    var taken := ResolverPatcher.Truncated(entries);
    kept, removed := RemoveAll(taken, cache);
  }

  /** The merged copy of one record built from its graph: the first 255 merged
      entries are taken before the null entries and empty sublists are removed;
      `removed` is the count `RemoveAll` returns. */
  method MergedCopy(g: ItemGraph, cache: LinkCache, h: Helpers, guid: string) returns (copy: LeveledList, removed: nat)
    requires g.Valid() && NullKey in g.foundPaths
    ensures copy.entries.Some? && copy == ItemCopy(g, guid, copy.entries.value)
    ensures var taken := ResolverPatcher.Truncated(GraphEntries(g, h));
      copy.entries.value == Filter(taken, Keep(cache)) && removed == |taken| - |copy.entries.value|
    ensures |copy.entries.value| <= ResolverPatcher.MaxEntries
    ensures forall e :: e in copy.entries.value ==> !IsNullOrEmptySublist(e, cache)
  {
    var entries := g.GetEntries(h);
    var kept;
    kept, removed := TakeAndRemove(entries, cache);
    copy := ItemCopy(g, guid, kept);
  }

  /** One iteration of the leveled item loop of `Apply`, for the graph of a selected
      record and its winning override: the merged copy is set in the patch unless
      nothing was removed from it and it changes nothing. */
  method ApplyItem(g: ItemGraph, winning: LeveledList, cache: LinkCache, h: Helpers, patch: PatchMod, guid: string)
    returns (copy: LeveledList, removed: nat)
    requires g.Valid() && NullKey in g.foundPaths && patch.Valid()
    modifies patch
    ensures patch.Valid() && patch.added == old(patch.added)
    ensures copy.entries.Some? && copy == old(ItemCopy(g, guid, copy.entries.value))
    ensures var taken := ResolverPatcher.Truncated(old(GraphEntries(g, h)));
      copy.entries.value == Filter(taken, Keep(cache)) && removed == |taken| - |copy.entries.value|
    ensures removed == 0 && ResolverPatcher.Unchanged(h, copy, winning) ==> patch.overrides == old(patch.overrides)
    ensures removed != 0 || !ResolverPatcher.Unchanged(h, copy, winning) ==>
      patch.overrides == Upserted(old(patch.overrides), copy)
  {
    copy, removed := MergedCopy(g, cache, h, guid);
    if removed == 0 && ResolverPatcher.Unchanged(h, copy, winning) {
      return;
    }
    patch.Set(copy);
  }

  /** Taking 255 entries before removing null entries and empty sublists can leave
      fewer than 255 entries although 255 keepable ones were merged: one null entry
      ahead of 255 entries that resolve to no leveled list. */
  lemma TakeBeforeRemoveAll(cache: LinkCache, target: FormKey)
    requires target !in cache
    ensures var s := [Entry(None)] + seq(ResolverPatcher.MaxEntries, _ => Entry(Some(EntryData(Some(target), 1, 1))));
      |Filter(s, Keep(cache))| == ResolverPatcher.MaxEntries &&
      |Filter(ResolverPatcher.Truncated(s), Keep(cache))| == ResolverPatcher.MaxEntries - 1
  {
    var good := Entry(Some(EntryData(Some(target), 1, 1)));
    var s := [Entry(None)] + seq(ResolverPatcher.MaxEntries, _ => good);
    assert Keep(cache)(good) && !Keep(cache)(Entry(None));
    var t := ResolverPatcher.Truncated(s);
    assert t == [Entry(None)] + seq(ResolverPatcher.MaxEntries - 1, _ => good);
    AllKept(seq(ResolverPatcher.MaxEntries, _ => good), Keep(cache));
    AllKept(seq(ResolverPatcher.MaxEntries - 1, _ => good), Keep(cache));
    FilterConcat([Entry(None)], seq(ResolverPatcher.MaxEntries, _ => good), Keep(cache));
    FilterConcat([Entry(None)], seq(ResolverPatcher.MaxEntries - 1, _ => good), Keep(cache));
    assert Filter([Entry(None)], Keep(cache)) == [];
  }

  /** A sequence whose every element passes the test filters to itself. */
  lemma {:induction false} AllKept(s: seq<Entry>, p: Entry -> bool)
    requires forall i :: 0 <= i < |s| ==> p(s[i])
    ensures Filter(s, p) == s
  {
    if s != [] {
      AllKept(s[1..], p);
    }
  }
}

=== FILE: graph_base.dfy ===
/** The override graph the resolver builds for one leveled item or spell list
    (MajorRecordGraphBase): which defining plugin builds on which, the extent plugins
    that nothing else overrides, and the common master the extents build on. */
module GraphBase {
  import opened Types
  import opened ListAlgebra
  import opened Paths

  /** The state the constructor leaves behind. `modKeys` lists the defining plugins
      lowest priority first; `extentMods` lists the extent plugins in the enumeration
      order of the adjacency dictionary. */
  datatype RecordGraph = RecordGraph(
    base: LeveledList,
    modKey: ModKey,
    modKeys: seq<ModKey>,
    records: map<ModKey, LeveledList>,
    masters: map<ModKey, set<ModKey>>,
    adjacents: map<ModKey, set<ModKey>>,
    extentMods: seq<ModKey>,
    extentBase: LeveledList,
    extentRecords: set<LeveledList>)

  /** The master references of an enabled plugin that also define the record. */
  function Declared(enabled: map<ModKey, seq<ModKey>>, m: ModKey, modKeys: seq<ModKey>): set<ModKey>
    requires m in enabled
  {
    set x | x in enabled[m] && x in modKeys
  }

  /** Every plugin's masters load before it (the order a valid load order keeps). */
  predicate MastersLoadFirst(enabled: map<ModKey, seq<ModKey>>, modKeys: seq<ModKey>)
  {
    forall k :: 0 <= k < |modKeys| && modKeys[k] in enabled ==>
      forall x :: x in enabled[modKeys[k]] && x in modKeys ==> x in modKeys[..k]
  }

  /** `masters.UnionWith(masters.SelectMany(master => mastersDictionary[master]))`:
      the master set widened by its masters' current sets; a master without an entry
      fails the dictionary lookup. */
  function WidenedMasters(ms: map<ModKey, set<ModKey>>, masters: set<ModKey>): (r: Result<set<ModKey>>)
    ensures r.Fail? <==> exists x :: x in masters && x !in ms
    ensures r.Ok? ==> masters <= r.value && forall x :: x in masters ==> ms[x] <= r.value
    ensures r.Ok? ==> forall y :: y in r.value ==> y in masters || exists x :: x in masters && y in ms[x]
  {
    if forall x :: x in masters ==> x in ms then
      Ok(masters + set x, y | x in masters && y in ms[x] :: y)
    else
      Fail(KeyNotFound)
  }

  /** The adjacency after plugin m is linked under each widened master whose children
      do not overlap the widened set. */
  function AddEdges(adj: map<ModKey, set<ModKey>>, widened: set<ModKey>, m: ModKey): map<ModKey, set<ModKey>>
  {
    map k | k in adj :: if k in widened && adj[k] * widened == {} then adj[k] + {m} else adj[k]
  }

  /** The inner loop of the constructor: `if (adjacent[master].Overlaps(masters) is false)
      adjacent[master].Add(modKey)` for each master, in the set's order. */
  method LinkMasters(adj0: map<ModKey, set<ModKey>>, widened: set<ModKey>, m: ModKey) returns (adj: map<ModKey, set<ModKey>>)
    requires widened <= adj0.Keys
    ensures adj == AddEdges(adj0, widened, m)
  {
    adj := adj0;
    var todo := widened;
    while todo != {}
      invariant todo <= widened
      invariant adj.Keys == adj0.Keys
      invariant forall k :: k in adj ==>
        adj[k] == (if k in widened - todo && adj0[k] * widened == {} then adj0[k] + {m} else adj0[k])
      decreases todo
    {
      var master :| master in todo;
      if adj[master] * widened == {} {
        adj := adj[master := adj[master] + {m}];
      }
      todo := todo - {master};
    }
  }

  /** Which plugins have master sets and adjacency entries, and what a master set holds. */
  ghost predicate KeysInv(enabled: map<ModKey, seq<ModKey>>, modKeys: seq<ModKey>,
                          ms: map<ModKey, set<ModKey>>, adj: map<ModKey, set<ModKey>>)
  {
    (forall m :: m in ms <==> m in modKeys && m in enabled) &&
    (forall m :: m in adj <==> m in modKeys) &&
    (forall m :: m in ms && m in enabled ==> Declared(enabled, m, modKeys) <= ms[m]) &&
    (forall m, x :: m in ms && x in ms[m] ==> x in modKeys)
  }

  /** Handled plugins also hold the declared masters of their declared masters. */
  ghost predicate WidenInv(enabled: map<ModKey, seq<ModKey>>, modKeys: seq<ModKey>, i: nat, ms: map<ModKey, set<ModKey>>)
  {
    forall k :: 0 <= k < i && k < |modKeys| && modKeys[k] in ms && modKeys[k] in enabled ==>
      forall x :: x in Declared(enabled, modKeys[k], modKeys) ==>
        x in ms && x in enabled && Declared(enabled, x, modKeys) <= ms[modKeys[k]]
  }

  /** Every edge runs from a master to an already handled plugin. */
  ghost predicate EdgeFromMasterInv(modKeys: seq<ModKey>, i: nat, ms: map<ModKey, set<ModKey>>, adj: map<ModKey, set<ModKey>>)
  {
    forall x, y :: x in adj && y in adj[x] ==> y in ms && x in ms[y] && exists q :: 0 <= q < i && q < |modKeys| && modKeys[q] == y
  }

  /** A handled plugin is a child of every master whose children avoid its master set. */
  ghost predicate EdgeAddedInv(modKeys: seq<ModKey>, i: nat, ms: map<ModKey, set<ModKey>>, adj: map<ModKey, set<ModKey>>)
  {
    forall k, x :: (0 <= k < i && k < |modKeys| && modKeys[k] in ms && x in ms[modKeys[k]] && x in adj &&
      adj[x] * ms[modKeys[k]] == {}) ==> modKeys[k] in adj[x]
  }

  /** Among the children of one master, an earlier plugin is never in the master set
      of a later one. */
  ghost predicate EdgeOrderInv(modKeys: seq<ModKey>, ms: map<ModKey, set<ModKey>>, adj: map<ModKey, set<ModKey>>)
  {
    forall x, a, b :: (x in adj && 0 <= a < b < |modKeys| && modKeys[a] in adj[x] && modKeys[b] in adj[x] &&
      modKeys[b] in ms) ==> modKeys[a] !in ms[modKeys[b]]
  }

  /** With masters loading first, every master set holds earlier plugins only. */
  ghost predicate EarlierInv(enabled: map<ModKey, seq<ModKey>>, modKeys: seq<ModKey>, ms: map<ModKey, set<ModKey>>)
  {
    MastersLoadFirst(enabled, modKeys) ==>
      forall k, x :: 0 <= k < |modKeys| && modKeys[k] in ms && x in ms[modKeys[k]] ==>
        exists q :: 0 <= q < k && modKeys[q] == x
  }

  /** The facts the constructor's main loop keeps after handling the first i plugins. */
  ghost predicate LinkInvariant(enabled: map<ModKey, seq<ModKey>>, modKeys: seq<ModKey>, i: nat,
                                ms: map<ModKey, set<ModKey>>, adj: map<ModKey, set<ModKey>>)
  {
    i <= |modKeys| && KeysInv(enabled, modKeys, ms, adj) && WidenInv(enabled, modKeys, i, ms) &&
    EdgeFromMasterInv(modKeys, i, ms, adj) && EdgeAddedInv(modKeys, i, ms, adj) &&
    EdgeOrderInv(modKeys, ms, adj) && EarlierInv(enabled, modKeys, ms)
  }

  lemma LinkInit(enabled: map<ModKey, seq<ModKey>>, modKeys: seq<ModKey>)
    ensures LinkInvariant(enabled, modKeys, 0,
                          map m | m in modKeys && m in enabled :: Declared(enabled, m, modKeys),
                          map m | m in modKeys :: {})
  {
    var ms := map m | m in modKeys && m in enabled :: Declared(enabled, m, modKeys);
    if MastersLoadFirst(enabled, modKeys) {
      forall k, x | 0 <= k < |modKeys| && modKeys[k] in ms && x in ms[modKeys[k]]
        ensures exists q :: 0 <= q < k && modKeys[q] == x
      {
        assert x in modKeys[..k];
      }
    }
  }

  lemma StepKeys(enabled: map<ModKey, seq<ModKey>>, modKeys: seq<ModKey>, m: ModKey,
                 ms: map<ModKey, set<ModKey>>, adj: map<ModKey, set<ModKey>>, widened: set<ModKey>)
    requires m in ms && KeysInv(enabled, modKeys, ms, adj)
    requires WidenedMasters(ms, ms[m]) == Ok(widened)
    ensures KeysInv(enabled, modKeys, ms[m := widened], AddEdges(adj, widened, m))
  {
    var ms' := ms[m := widened];
    forall y, x | y in ms' && x in ms'[y] ensures x in modKeys {
      if y == m && x !in ms[m] {
        var z :| z in ms[m] && x in ms[z];
      }
    }
  }

  lemma StepWiden(enabled: map<ModKey, seq<ModKey>>, modKeys: seq<ModKey>, i: nat,
                  ms: map<ModKey, set<ModKey>>, adj: map<ModKey, set<ModKey>>, widened: set<ModKey>)
    requires Distinct(modKeys)
    requires i < |modKeys| && modKeys[i] in ms
    requires KeysInv(enabled, modKeys, ms, adj) && WidenInv(enabled, modKeys, i, ms)
    requires WidenedMasters(ms, ms[modKeys[i]]) == Ok(widened)
    ensures WidenInv(enabled, modKeys, i + 1, ms[modKeys[i] := widened])
  {
    var m := modKeys[i];
    var ms' := ms[m := widened];
    forall k, x | 0 <= k < i + 1 && modKeys[k] in ms' && modKeys[k] in enabled && x in Declared(enabled, modKeys[k], modKeys)
      ensures x in ms' && x in enabled && Declared(enabled, x, modKeys) <= ms'[modKeys[k]]
    {
      if k == i {
        assert x in ms[m];
        assert x in ms;
        assert Declared(enabled, x, modKeys) <= ms[x] <= widened;
      } else {
        assert modKeys[k] != m;
        assert x in ms && Declared(enabled, x, modKeys) <= ms[modKeys[k]];
      }
    }
  }

  lemma StepEdgeFrom(modKeys: seq<ModKey>, i: nat,
                     ms: map<ModKey, set<ModKey>>, adj: map<ModKey, set<ModKey>>, widened: set<ModKey>)
    requires i < |modKeys| && modKeys[i] in ms
    requires EdgeFromMasterInv(modKeys, i, ms, adj)
    requires ms[modKeys[i]] <= widened
    ensures EdgeFromMasterInv(modKeys, i + 1, ms[modKeys[i] := widened], AddEdges(adj, widened, modKeys[i]))
  {
    var m := modKeys[i];
    var ms' := ms[m := widened];
    var adj' := AddEdges(adj, widened, m);
    forall x, y | x in adj' && y in adj'[x]
      ensures y in ms' && x in ms'[y] && exists q :: 0 <= q < i + 1 && q < |modKeys| && modKeys[q] == y
    {
      if y != m {
        assert x in adj && y in adj[x];
        assert y in ms && x in ms[y] && exists q :: 0 <= q < i && q < |modKeys| && modKeys[q] == y;
        var q :| 0 <= q < i && q < |modKeys| && modKeys[q] == y;
        assert 0 <= q < i + 1;
      } else {
        assert modKeys[i] == y;
      }
    }
  }

  lemma StepEdgeAdded(modKeys: seq<ModKey>, i: nat,
                      ms: map<ModKey, set<ModKey>>, adj: map<ModKey, set<ModKey>>, widened: set<ModKey>)
    requires Distinct(modKeys)
    requires i < |modKeys| && modKeys[i] in ms
    requires EdgeAddedInv(modKeys, i, ms, adj)
    ensures EdgeAddedInv(modKeys, i + 1, ms[modKeys[i] := widened], AddEdges(adj, widened, modKeys[i]))
  {
    var m := modKeys[i];
    var ms' := ms[m := widened];
    var adj' := AddEdges(adj, widened, m);
    forall k, x | (0 <= k < i + 1 && modKeys[k] in ms' && x in ms'[modKeys[k]] && x in adj' &&
                   adj'[x] * ms'[modKeys[k]] == {})
      ensures modKeys[k] in adj'[x]
    {
      if k < i {
        assert modKeys[k] != m;
        assert adj[x] <= adj'[x];
      }
    }
  }

  lemma StepEdgeOrder(modKeys: seq<ModKey>, i: nat,
                      ms: map<ModKey, set<ModKey>>, adj: map<ModKey, set<ModKey>>, widened: set<ModKey>)
    requires Distinct(modKeys)
    requires i < |modKeys| && modKeys[i] in ms
    requires EdgeOrderInv(modKeys, ms, adj) && EdgeFromMasterInv(modKeys, i, ms, adj)
    ensures EdgeOrderInv(modKeys, ms[modKeys[i] := widened], AddEdges(adj, widened, modKeys[i]))
  {
    var m := modKeys[i];
    var ms' := ms[m := widened];
    var adj' := AddEdges(adj, widened, m);
    forall x, a, b | (x in adj' && 0 <= a < b < |modKeys| && modKeys[a] in adj'[x] && modKeys[b] in adj'[x] &&
                      modKeys[b] in ms')
      ensures modKeys[a] !in ms'[modKeys[b]]
    {
      if modKeys[b] == m {
        assert modKeys[a] in adj[x] && adj[x] * widened == {};
      } else if modKeys[a] == m {
        assert false;
      } else {
        assert modKeys[a] in adj[x] && modKeys[b] in adj[x];
      }
    }
  }

  lemma StepEarlier(enabled: map<ModKey, seq<ModKey>>, modKeys: seq<ModKey>, i: nat,
                    ms: map<ModKey, set<ModKey>>, widened: set<ModKey>)
    requires Distinct(modKeys)
    requires i < |modKeys| && modKeys[i] in ms
    requires EarlierInv(enabled, modKeys, ms)
    requires WidenedMasters(ms, ms[modKeys[i]]) == Ok(widened)
    ensures EarlierInv(enabled, modKeys, ms[modKeys[i] := widened])
  {
    var m := modKeys[i];
    var ms' := ms[m := widened];
    if MastersLoadFirst(enabled, modKeys) {
      forall k, x | 0 <= k < |modKeys| && modKeys[k] in ms' && x in ms'[modKeys[k]]
        ensures exists q :: 0 <= q < k && modKeys[q] == x
      {
        if k == i && x !in ms[m] {
          var z :| z in ms[m] && x in ms[z];
          var p :| 0 <= p < i && modKeys[p] == z;
          var q :| 0 <= q < p && modKeys[q] == x;
        } else if k != i {
          assert modKeys[k] != m;
        }
      }
    }
  }

  /** One turn of the main loop keeps LinkInvariant. */
  lemma LinkStep(enabled: map<ModKey, seq<ModKey>>, modKeys: seq<ModKey>, i: nat,
                 ms: map<ModKey, set<ModKey>>, adj: map<ModKey, set<ModKey>>, widened: set<ModKey>)
    requires Distinct(modKeys)
    requires i < |modKeys| && modKeys[i] in ms
    requires LinkInvariant(enabled, modKeys, i, ms, adj)
    requires WidenedMasters(ms, ms[modKeys[i]]) == Ok(widened)
    ensures LinkInvariant(enabled, modKeys, i + 1, ms[modKeys[i] := widened],
                          AddEdges(adj, widened, modKeys[i]))
  {
    StepKeys(enabled, modKeys, modKeys[i], ms, adj, widened);
    StepWiden(enabled, modKeys, i, ms, adj, widened);
    StepEdgeFrom(modKeys, i, ms, adj, widened);
    StepEdgeAdded(modKeys, i, ms, adj, widened);
    StepEdgeOrder(modKeys, i, ms, adj, widened);
    StepEarlier(enabled, modKeys, i, ms, widened);
  }

  /** A plugin that is not enabled has nothing to widen or link. */
  lemma LinkSkip(enabled: map<ModKey, seq<ModKey>>, modKeys: seq<ModKey>, i: nat,
                 ms: map<ModKey, set<ModKey>>, adj: map<ModKey, set<ModKey>>)
    requires i < |modKeys| && modKeys[i] !in ms
    requires LinkInvariant(enabled, modKeys, i, ms, adj)
    ensures LinkInvariant(enabled, modKeys, i + 1, ms, adj)
  {
    SkipWiden(enabled, modKeys, i, ms);
    SkipEdgeFrom(modKeys, i, ms, adj);
    SkipEdgeAdded(modKeys, i, ms, adj);
  }

  lemma SkipWiden(enabled: map<ModKey, seq<ModKey>>, modKeys: seq<ModKey>, i: nat, ms: map<ModKey, set<ModKey>>)
    requires i < |modKeys| && modKeys[i] !in ms
    requires WidenInv(enabled, modKeys, i, ms)
    ensures WidenInv(enabled, modKeys, i + 1, ms)
  {
    forall k | 0 <= k < i + 1 && k < |modKeys| && modKeys[k] in ms && modKeys[k] in enabled
      ensures forall x :: x in Declared(enabled, modKeys[k], modKeys) ==>
        x in ms && x in enabled && Declared(enabled, x, modKeys) <= ms[modKeys[k]]
    {
      assert k < i;
    }
  }

  lemma SkipEdgeFrom(modKeys: seq<ModKey>, i: nat, ms: map<ModKey, set<ModKey>>, adj: map<ModKey, set<ModKey>>)
    requires i < |modKeys|
    requires EdgeFromMasterInv(modKeys, i, ms, adj)
    ensures EdgeFromMasterInv(modKeys, i + 1, ms, adj)
  {
    forall x, y | x in adj && y in adj[x]
      ensures y in ms && x in ms[y] && exists q :: 0 <= q < i + 1 && q < |modKeys| && modKeys[q] == y
    {
      var q :| 0 <= q < i && q < |modKeys| && modKeys[q] == y;
    }
  }

  lemma SkipEdgeAdded(modKeys: seq<ModKey>, i: nat, ms: map<ModKey, set<ModKey>>, adj: map<ModKey, set<ModKey>>)
    requires i < |modKeys| && modKeys[i] !in ms
    requires EdgeAddedInv(modKeys, i, ms, adj)
    ensures EdgeAddedInv(modKeys, i + 1, ms, adj)
  {
    forall k, x | 0 <= k < i + 1 && k < |modKeys| && modKeys[k] in ms && x in ms[modKeys[k]] && x in adj &&
      adj[x] * ms[modKeys[k]] == {}
      ensures modKeys[k] in adj[x]
    {
      assert k < i;
    }
  }

  /** Every master reference of an enabled defining plugin that also defines the
      record is itself enabled, so every `mastersDictionary[master]` lookup succeeds. */
  predicate MastersEnabled(enabled: map<ModKey, seq<ModKey>>, modKeys: seq<ModKey>)
  {
    forall m :: m in modKeys && m in enabled ==> forall x :: x in enabled[m] && x in modKeys ==> x in enabled
  }

  /** The invariant of the constructor's main loop after the first i plugins. */
  ghost predicate LinkLoop(enabled: map<ModKey, seq<ModKey>>, modKeys: seq<ModKey>, i: nat,
                           ms: map<ModKey, set<ModKey>>, adj: map<ModKey, set<ModKey>>)
  {
    LinkInvariant(enabled, modKeys, i, ms, adj) && EnabledInv(enabled, modKeys, i, ms)
  }

  /** Before the main loop: every enabled plugin's declared masters, and no links. */
  method LinkStart(enabled: map<ModKey, seq<ModKey>>, modKeys: seq<ModKey>)
    returns (ms: map<ModKey, set<ModKey>>, adj: map<ModKey, set<ModKey>>)
    ensures LinkLoop(enabled, modKeys, 0, ms, adj)
  {
    ms := map m | m in modKeys && m in enabled :: Declared(enabled, m, modKeys);
    adj := map m | m in modKeys :: {};
    LinkInit(enabled, modKeys);
    EnabledInit(enabled, modKeys, ms);
  }

  /** One turn of the main loop: the plugin's master set widened and the plugin linked
      under its masters, or KeyNotFound when one of its masters is not enabled. */
  method LinkNext(enabled: map<ModKey, seq<ModKey>>, modKeys: seq<ModKey>, i: nat,
                  ms0: map<ModKey, set<ModKey>>, adj0: map<ModKey, set<ModKey>>)
    returns (ok: bool, ms: map<ModKey, set<ModKey>>, adj: map<ModKey, set<ModKey>>)
    requires Distinct(modKeys) && i < |modKeys|
    requires LinkLoop(enabled, modKeys, i, ms0, adj0)
    ensures !ok ==> !MastersEnabled(enabled, modKeys)
    ensures ok ==> LinkLoop(enabled, modKeys, i + 1, ms, adj)
  {
    ms, adj := ms0, adj0;
    var m := modKeys[i];
    if m !in ms0 {
      LinkSkip(enabled, modKeys, i, ms0, adj0);
      EnabledSkip(enabled, modKeys, i, ms0);
      return true, ms, adj;
    }
    var w := WidenedMasters(ms0, ms0[m]);
    if w.Fail? {
      var x :| x in ms0[m] && x !in ms0;
      EnabledFail(enabled, modKeys, i, ms0, m, x);
      return false, ms, adj;
    }
    LinkStep(enabled, modKeys, i, ms0, adj0, w.value);
    EnabledStep(enabled, modKeys, i, ms0, adj0, w.value, ms0[m := w.value]);
    adj := LinkMasters(adj0, w.value, m);
    ms := ms0[m := w.value];
    ok := true;
  }

  /** What LinkAll knows about enabled masters after handling the first i plugins:
      those plugins' masters are enabled, and with every master enabled each master
      set holds plugins with a master set of their own. */
  ghost predicate EnabledInv(enabled: map<ModKey, seq<ModKey>>, modKeys: seq<ModKey>, i: nat, ms: map<ModKey, set<ModKey>>)
  {
    (forall k :: 0 <= k < i && k < |modKeys| && modKeys[k] in enabled ==>
       forall x :: x in enabled[modKeys[k]] && x in modKeys ==> x in enabled) &&
    (MastersEnabled(enabled, modKeys) ==> forall m, x :: m in ms && x in ms[m] ==> x in ms)
  }

  lemma EnabledInit(enabled: map<ModKey, seq<ModKey>>, modKeys: seq<ModKey>, ms: map<ModKey, set<ModKey>>)
    requires ms == map m | m in modKeys && m in enabled :: Declared(enabled, m, modKeys)
    ensures EnabledInv(enabled, modKeys, 0, ms)
  {
  }

  lemma EnabledStep(enabled: map<ModKey, seq<ModKey>>, modKeys: seq<ModKey>, i: nat,
                    ms: map<ModKey, set<ModKey>>, adj: map<ModKey, set<ModKey>>, widened: set<ModKey>,
                    ms': map<ModKey, set<ModKey>>)
    requires i < |modKeys| && modKeys[i] in ms
    requires KeysInv(enabled, modKeys, ms, adj)
    requires EnabledInv(enabled, modKeys, i, ms)
    requires WidenedMasters(ms, ms[modKeys[i]]) == Ok(widened)
    requires ms' == ms[modKeys[i] := widened]
    ensures EnabledInv(enabled, modKeys, i + 1, ms')
  {
    var m := modKeys[i];
    forall x | x in enabled[m] && x in modKeys ensures x in enabled {
      assert x in Declared(enabled, m, modKeys);
    }
  }

  lemma EnabledSkip(enabled: map<ModKey, seq<ModKey>>, modKeys: seq<ModKey>, i: nat, ms: map<ModKey, set<ModKey>>)
    requires i < |modKeys| && modKeys[i] !in enabled
    requires EnabledInv(enabled, modKeys, i, ms)
    ensures EnabledInv(enabled, modKeys, i + 1, ms)
  {
  }

  lemma EnabledFail(enabled: map<ModKey, seq<ModKey>>, modKeys: seq<ModKey>, i: nat, ms: map<ModKey, set<ModKey>>, m: ModKey, x: ModKey)
    requires m in ms && x in ms[m] && x !in ms
    requires EnabledInv(enabled, modKeys, i, ms)
    ensures !MastersEnabled(enabled, modKeys)
  {
  }

  lemma EnabledDone(enabled: map<ModKey, seq<ModKey>>, modKeys: seq<ModKey>, ms: map<ModKey, set<ModKey>>)
    requires EnabledInv(enabled, modKeys, |modKeys|, ms)
    ensures MastersEnabled(enabled, modKeys)
  {
    forall m | m in modKeys && m in enabled ensures forall x :: x in enabled[m] && x in modKeys ==> x in enabled {
      var k :| 0 <= k < |modKeys| && modKeys[k] == m;
    }
  }

  /** The records of the defining plugins, keyed by plugin. */
  function RecordMap(contexts: seq<Context>): (r: map<ModKey, LeveledList>)
    requires Distinct(ModKeysOf(contexts))
    ensures forall k :: 0 <= k < |contexts| ==> contexts[k].mod in r && r[contexts[k].mod] == contexts[k].record
    ensures forall m :: m in r ==> m in ModKeysOf(contexts)
  {
    map k | 0 <= k < |contexts| :: contexts[k].mod := contexts[k].record
  }

  /** `extentMods.Aggregate(modKeys, (list, modKey) => list.FindAll(key =>
      mastersDictionary[modKey].Contains(key)))`: the plugins that are a master of
      every extent plugin, in load order. The lookup runs only while the list is not
      empty, so a missing entry fails only then. */
  function ExtentMasters(list: seq<ModKey>, extents: seq<ModKey>, ms: map<ModKey, set<ModKey>>): (r: Result<seq<ModKey>>)
    ensures r.Fail? ==> exists e :: e in extents && e !in ms
    ensures (forall e :: e in extents ==> e in ms) ==> r.Ok?
    ensures r.Ok? ==> IsSubseq(r.value, list)
    ensures r.Ok? ==> forall x :: x in r.value <==> x in list && forall e :: e in extents ==> e in ms && x in ms[e]
    decreases |extents|
  {
    if extents == [] then
      SubseqRefl(list);
      Ok(list)
    else if list == [] then
      Ok([])
    else if extents[0] !in ms then
      Fail(KeyNotFound)
    else
      var e := extents[0];
      var kept := Filter(list, k => k in ms[e]);
      FilterIsSubseq(list, k => k in ms[e]);
      var r := ExtentMasters(kept, extents[1..], ms);
      if r.Ok? then
        SubseqTrans(r.value, kept, list);
        assert forall x :: x in extents <==> x == e || x in extents[1..];
        r
      else
        r
  }

  /** The constructor's main loop: widen each enabled plugin's master set in load order
      and link it under its masters. Fails with KeyNotFound on a master that is not
      enabled. */
  method LinkAll(enabled: map<ModKey, seq<ModKey>>, modKeys: seq<ModKey>)
    returns (r: Result<(map<ModKey, set<ModKey>>, map<ModKey, set<ModKey>>)>)
    requires Distinct(modKeys)
    ensures r.Ok? <==> MastersEnabled(enabled, modKeys)
    ensures r.Ok? ==> LinkInvariant(enabled, modKeys, |modKeys|, r.value.0, r.value.1)
  {
    var ms, adj := LinkStart(enabled, modKeys);
    var i := 0;
    while i < |modKeys|
      invariant LinkLoop(enabled, modKeys, i, ms, adj)
    {
      var ok;
      ok, ms, adj := LinkNext(enabled, modKeys, i, ms, adj);
      if !ok {
        return Fail(KeyNotFound);
      }
      i := i + 1;
    }
    EnabledDone(enabled, modKeys, ms);
    return Ok((ms, adj));
  }

  /** With masters loading first, every edge of the finished adjacency runs from an
      earlier plugin to a later one, so the graph has no cycle. */
  lemma {:induction false} LinkedAcyclic(enabled: map<ModKey, seq<ModKey>>, modKeys: seq<ModKey>,
                                         ms: map<ModKey, set<ModKey>>, adj: map<ModKey, set<ModKey>>)
    requires Distinct(modKeys)
    requires LinkInvariant(enabled, modKeys, |modKeys|, ms, adj)
    requires MastersLoadFirst(enabled, modKeys)
    ensures forall a, b :: 0 <= a < |modKeys| && 0 <= b < |modKeys| && modKeys[b] in adj[modKeys[a]] ==> a < b
  {
    forall a, b | 0 <= a < |modKeys| && 0 <= b < |modKeys| && modKeys[b] in adj[modKeys[a]]
      ensures a < b
    {
      assert modKeys[a] in ms[modKeys[b]];
      var q :| 0 <= q < b && modKeys[q] == modKeys[a];
    }
  }

  /** The extent plugins: the dictionary entries with no child, or with the patch
      plugin as a child, in the dictionary's order. */
  function ExtentModsOf(adjOrder: seq<ModKey>, adj: map<ModKey, set<ModKey>>, patchKey: ModKey): (r: seq<ModKey>)
    requires Enumerates(adjOrder, adj.Keys)
    ensures forall m :: m in r <==> m in adj && (adj[m] == {} || patchKey in adj[m])
    ensures IsSubseq(r, adjOrder)
  {
    FilterIsSubseq(adjOrder, k => k in adj && (adj[k] == {} || patchKey in adj[k]));
    Filter(adjOrder, k => k in adj && (adj[k] == {} || patchKey in adj[k]))
  }

  /** `ExtentRecords`: the records of the extent plugins, as a set of values. */
  function ExtentRecordsOf(extentMods: seq<ModKey>, records: map<ModKey, LeveledList>): (r: set<LeveledList>)
    ensures forall m :: m in extentMods && m in records ==> records[m] in r
    ensures forall x :: x in r ==> exists m :: m in extentMods && m in records && records[m] == x
  {
    set m | m in extentMods && m in records :: records[m]
  }

  /** `ExtentBase`: the record of the latest plugin that is a master of every extent
      plugin, or Base when there is none. */
  ghost predicate IsExtentBase(modKeys: seq<ModKey>, records: map<ModKey, LeveledList>, ms: map<ModKey, set<ModKey>>,
                               extentMods: seq<ModKey>, base: LeveledList, extentBase: LeveledList)
  {
    var common := set x | x in modKeys && forall e :: e in extentMods ==> e in ms && x in ms[e];
    (common == {} ==> extentBase == base) &&
    (common != {} ==>
       exists k :: (0 <= k < |modKeys| && modKeys[k] in common && modKeys[k] in records &&
                    extentBase == records[modKeys[k]] && forall j :: k < j < |modKeys| ==> modKeys[j] !in common))
  }

  /** The extent half of the constructor: extent plugins, the common masters of all of
      them (`FindAll` fold, failing on an extent plugin without master set while the
      list is not empty), ExtentBase and ExtentRecords. */
  method Extents(modKeys: seq<ModKey>, records: map<ModKey, LeveledList>, ms: map<ModKey, set<ModKey>>,
                 adj: map<ModKey, set<ModKey>>, adjOrder: seq<ModKey>, patchKey: ModKey, base: LeveledList)
    returns (r: Result<(seq<ModKey>, LeveledList, set<LeveledList>)>)
    requires Distinct(modKeys) && Enumerates(adjOrder, adj.Keys)
    requires forall m :: m in adj <==> m in modKeys
    requires forall m :: m in modKeys ==> m in records
    ensures (forall m :: m in modKeys ==> m in ms) ==> r.Ok?
    ensures r.Fail? ==> r.error == KeyNotFound
    ensures r.Ok? ==> var (extentMods, extentBase, extentRecords) := r.value;
      (forall m :: m in extentMods <==> m in adj && (adj[m] == {} || patchKey in adj[m])) &&
      extentRecords == ExtentRecordsOf(extentMods, records) &&
      IsExtentBase(modKeys, records, ms, extentMods, base, extentBase)
  {
    var extentMods := ExtentModsOf(adjOrder, adj, patchKey);
    var extentMasters := ExtentMasters(modKeys, extentMods, ms);
    if extentMasters.Fail? {
      return Fail(KeyNotFound);
    }
    // Sort(comparer) orders by position in modKeys, which the list already follows.
    var list := extentMasters.value;
    var extentBase := if list == [] then base else records[list[|list| - 1]];
    ChosenExtentBase(modKeys, records, ms, extentMods, base, extentBase, list);
    return Ok((extentMods, extentBase, ExtentRecordsOf(extentMods, records)));
  }

  /** The last entry of the common-master list, taken in load order, is the latest
      common master. */
  lemma ChosenExtentBase(modKeys: seq<ModKey>, records: map<ModKey, LeveledList>, ms: map<ModKey, set<ModKey>>,
                         extentMods: seq<ModKey>, base: LeveledList, extentBase: LeveledList, list: seq<ModKey>)
    requires Distinct(modKeys) && IsSubseq(list, modKeys)
    requires forall x :: x in list <==> x in modKeys && forall e :: e in extentMods ==> e in ms && x in ms[e]
    requires forall m :: m in modKeys ==> m in records
    requires list != [] ==> list[|list| - 1] in records
    requires extentBase == if list == [] then base else records[list[|list| - 1]]
    ensures IsExtentBase(modKeys, records, ms, extentMods, base, extentBase)
  {
    var common := set x | x in modKeys && forall e :: e in extentMods ==> e in ms && x in ms[e];
    if list == [] {
      assert common == {};
    } else {
      SubseqLast(list, modKeys);
      var k :| 0 <= k < |modKeys| && modKeys[k] == list[|list| - 1] && forall j :: k < j < |modKeys| ==> modKeys[j] !in list;
      assert list[|list| - 1] in list;
      assert modKeys[k] in common;
      assert forall j :: k < j < |modKeys| ==> modKeys[j] !in common;
    }
  }

  /** The MajorRecordGraphBase constructor. `contexts` are the record's contexts,
      highest priority first; `enabled` holds the master references of the plugins
      that are enabled and exist; `adjOrder` is the enumeration order of the
      adjacency dictionary. */
  method Build(contexts: seq<Context>, enabled: map<ModKey, seq<ModKey>>, patchKey: ModKey, adjOrder: seq<ModKey>)
    returns (r: Result<RecordGraph>)
    requires Distinct(ModKeysOf(contexts))
    requires Enumerates(adjOrder, set c | c in contexts :: c.mod)
    ensures contexts == [] ==> r == Fail(ArgumentOutOfRange)
    ensures contexts != [] && r.Fail? ==> r.error == KeyNotFound
    ensures contexts != [] && (forall c :: c in contexts ==> c.mod in enabled) ==> r.Ok?
    ensures r.Ok? ==> MastersEnabled(enabled, Reverse(ModKeysOf(contexts)))
    ensures r.Ok? ==> (contexts != [] &&
      var g := r.value;
      g.base == contexts[|contexts| - 1].record && g.modKey == contexts[|contexts| - 1].mod &&
      g.modKeys == Reverse(ModKeysOf(contexts)) &&
      (forall k :: 0 <= k < |contexts| ==> contexts[k].mod in g.records && g.records[contexts[k].mod] == contexts[k].record))
    ensures r.Ok? ==> var g := r.value;
      LinkInvariant(enabled, g.modKeys, |g.modKeys|, g.masters, g.adjacents)
    ensures r.Ok? ==> var g := r.value;
      (forall m :: m in g.extentMods <==> m in g.adjacents && (g.adjacents[m] == {} || patchKey in g.adjacents[m])) &&
      g.extentRecords == ExtentRecordsOf(g.extentMods, g.records) &&
      IsExtentBase(g.modKeys, g.records, g.masters, g.extentMods, g.base, g.extentBase)
  {
    if contexts == [] {
      return Fail(ArgumentOutOfRange);
    }
    var modContexts := Reverse(contexts);
    var modKeys := ModKeysOf(modContexts);
    ReversedKeys(contexts, modKeys);
    var base, modKey := modContexts[0].record, modContexts[0].mod;
    var records := RecordMap(contexts);
    KeysRecorded(contexts, modKeys, records);
    var linked := LinkAll(enabled, modKeys);
    if linked.Fail? {
      AllEnabled(contexts, enabled, modKeys);
      return Fail(KeyNotFound);
    }
    var (ms, adj) := linked.value;
    AdjacencyEnumerated(contexts, modKeys, adj, adjOrder);
    var extents := Extents(modKeys, records, ms, adj, adjOrder, patchKey, base);
    if extents.Fail? {
      AllEnabled(contexts, enabled, modKeys);
      return Fail(KeyNotFound);
    }
    var (extentMods, extentBase, extentRecords) := extents.value;
    r := Ok(RecordGraph(base, modKey, modKeys, records, ms, adj, extentMods, extentBase, extentRecords));
  }

  /** Every defining plugin has a record. */
  lemma KeysRecorded(contexts: seq<Context>, modKeys: seq<ModKey>, records: map<ModKey, LeveledList>)
    requires forall m :: m in modKeys <==> m in (set c | c in contexts :: c.mod)
    requires forall k :: 0 <= k < |contexts| ==> contexts[k].mod in records
    ensures forall m :: m in modKeys ==> m in records
  {
    forall m | m in modKeys ensures m in records {
      var c :| c in contexts && c.mod == m;
      var k :| 0 <= k < |contexts| && contexts[k] == c;
    }
  }

  /** When every defining plugin is enabled, every master lookup succeeds. */
  lemma AllEnabled(contexts: seq<Context>, enabled: map<ModKey, seq<ModKey>>, modKeys: seq<ModKey>)
    requires forall m :: m in modKeys <==> m in (set c | c in contexts :: c.mod)
    ensures (forall c :: c in contexts ==> c.mod in enabled) ==>
      MastersEnabled(enabled, modKeys) && forall m :: m in modKeys ==> m in enabled
  {
  }

  /** The adjacency dictionary's order enumerates its keys. */
  lemma AdjacencyEnumerated(contexts: seq<Context>, modKeys: seq<ModKey>, adj: map<ModKey, set<ModKey>>, adjOrder: seq<ModKey>)
    requires forall m :: m in modKeys <==> m in (set c | c in contexts :: c.mod)
    requires forall m :: m in adj <==> m in modKeys
    requires Enumerates(adjOrder, set c | c in contexts :: c.mod)
    ensures Enumerates(adjOrder, adj.Keys)
  {
    assert adj.Keys == set c | c in contexts :: c.mod;
  }

  /** The defining plugins in load order are the reversed context plugins, distinct,
      and exactly the plugins of the contexts. */
  lemma ReversedKeys(contexts: seq<Context>, modKeys: seq<ModKey>)
    requires Distinct(ModKeysOf(contexts))
    requires modKeys == ModKeysOf(Reverse(contexts))
    ensures modKeys == Reverse(ModKeysOf(contexts))
    ensures Distinct(modKeys)
    ensures forall m :: m in modKeys <==> m in (set c | c in contexts :: c.mod)
  {
    ReversedKeysOrder(contexts, modKeys);
    forall m ensures m in modKeys <==> m in (set c | c in contexts :: c.mod) {
      ReversedKeysMember(contexts, modKeys, m);
    }
  }

  lemma ReversedKeysOrder(contexts: seq<Context>, modKeys: seq<ModKey>)
    requires Distinct(ModKeysOf(contexts))
    requires modKeys == ModKeysOf(Reverse(contexts))
    ensures modKeys == Reverse(ModKeysOf(contexts))
    ensures Distinct(modKeys)
  {
    var keys := ModKeysOf(contexts);
    forall a | 0 <= a < |modKeys| ensures modKeys[a] == keys[|contexts| - 1 - a] {
    }
    forall a, b | 0 <= a < b < |modKeys| ensures modKeys[a] != modKeys[b] {
      assert modKeys[a] == keys[|contexts| - 1 - a];
      assert modKeys[b] == keys[|contexts| - 1 - b];
    }
  }

  lemma ReversedKeysMember(contexts: seq<Context>, modKeys: seq<ModKey>, m: ModKey)
    requires modKeys == ModKeysOf(Reverse(contexts))
    ensures m in modKeys <==> m in (set c | c in contexts :: c.mod)
  {
    var rev := Reverse(contexts);
    if m in modKeys {
      var a :| 0 <= a < |modKeys| && modKeys[a] == m;
      assert rev[a] == contexts[|contexts| - 1 - a];
      assert contexts[|contexts| - 1 - a] in contexts;
    }
    if m in (set c | c in contexts :: c.mod) {
      var c :| c in contexts && c.mod == m;
      var a :| 0 <= a < |contexts| && contexts[a] == c;
      assert rev[|contexts| - 1 - a] == c;
      assert modKeys[|contexts| - 1 - a] == m;
    }
  }

  /** Where a plugin stands in the load order. */
  function Position(modKeys: seq<ModKey>, m: ModKey): (r: nat)
    requires m in modKeys
    ensures r < |modKeys| && modKeys[r] == m
  {
    if modKeys[0] == m then 0 else 1 + Position(modKeys[1..], m)
  }

  /** Later plugins rank lower: |modKeys| minus the load-order position. */
  function RankOf(modKeys: seq<ModKey>): (rank: map<ModKey, nat>)
    ensures forall m :: m in rank <==> m in modKeys
  {
    map m | m in modKeys :: |modKeys| - Position(modKeys, m)
  }

  /** With masters loading first, the finished adjacency has no cycle: the load-order
      rank strictly drops along every edge. */
  lemma BuiltRanked(enabled: map<ModKey, seq<ModKey>>, modKeys: seq<ModKey>,
                    ms: map<ModKey, set<ModKey>>, adj: map<ModKey, set<ModKey>>)
    requires Distinct(modKeys)
    requires LinkInvariant(enabled, modKeys, |modKeys|, ms, adj)
    requires MastersLoadFirst(enabled, modKeys)
    ensures Ranked(adj, RankOf(modKeys))
  {
    LinkedAcyclic(enabled, modKeys, ms, adj);
    var rank := RankOf(modKeys);
    forall k, c | k in adj && c in adj[k]
      ensures c in adj && c in rank && rank[c] < rank[k]
    {
      assert c in ms && k in ms[c];
      var a, b := Position(modKeys, k), Position(modKeys, c);
      assert modKeys[b] in adj[modKeys[a]];
    }
  }

  /** The test `GetEditorID` puts to an extent record's EditorID: `(id?.Equals(baseId)
      ?? false) is false`, so an absent name always passes and a present one passes when
      it differs from Base's. */
  predicate Unlike(id: Option<string>, baseId: Option<string>)
  {
    !(id.Some? && id == baseId)
  }

  /** `GetEditorID`: among the extent records, in the enumeration order of the
      ExtentRecords set, the last one whose EditorID passes `Unlike`; its EditorID when
      present, else Base's EditorID, else a fresh GUID. */
  function EditorIdOf(extentOrder: seq<LeveledList>, base: LeveledList, guid: string): (r: string)
    ensures var ids := Project(extentOrder, (x: LeveledList) => x.editorId);
      var fallback := if base.editorId.Some? then base.editorId.value else guid;
      ((forall i :: 0 <= i < |ids| ==> !Unlike(ids[i], base.editorId)) ==> r == fallback) &&
      ((exists i :: 0 <= i < |ids| && Unlike(ids[i], base.editorId)) ==>
         exists i :: (0 <= i < |ids| && Unlike(ids[i], base.editorId) &&
           (forall j :: i < j < |ids| ==> !Unlike(ids[j], base.editorId)) &&
           r == (if ids[i].Some? then ids[i].value else fallback)))
  {
    var ids := Project(extentOrder, (x: LeveledList) => x.editorId);
    var last := LastWhere(ids, id => Unlike(id, base.editorId));
    if last.Some? && last.value.Some? then last.value.value
    else if base.editorId.Some? then base.editorId.value
    else guid
  }

  /** An absent name passes the test, so a last extent record without a name hides
      every earlier rename: the result is Base's name, or a fresh GUID. */
  lemma EditorIdOfNamed(extentOrder: seq<LeveledList>, base: LeveledList, guid: string)
    requires |extentOrder| > 0 && extentOrder[|extentOrder| - 1].editorId.None?
    ensures EditorIdOf(extentOrder, base, guid) == if base.editorId.Some? then base.editorId.value else guid
  {
    var ids := Project(extentOrder, (x: LeveledList) => x.editorId);
    assert Unlike(ids[|ids| - 1], base.editorId);
  }

  /** The dictionary entries without children, in dictionary order. */
  function Childless(adjOrder: seq<ModKey>, adj: map<ModKey, set<ModKey>>): (r: seq<ModKey>)
    ensures forall m :: m in r <==> m in adjOrder && m in adj && adj[m] == {}
  {
    FilterIsSubseq(adjOrder, k => k in adj && adj[k] == {});
    SubseqMembers(Filter(adjOrder, k => k in adj && adj[k] == {}), adjOrder);
    Filter(adjOrder, k => k in adj && adj[k] == {})
  }

  /** What `ToString(start)` reports: a message when the start plugin is not in the
      dictionary, else the header's EditorID and one line per path. */
  datatype Listing = MissingStart | Listing(editorId: string, paths: seq<seq<ModKey>>)

  /** `ToString(start)`: every path from the start plugin to a plugin without children,
      ends taken in dictionary order and children in each set's enumeration order. */
  method Describe(g: RecordGraph, start: ModKey, order: Order, rank: map<ModKey, nat>,
                  adjOrder: seq<ModKey>, extentOrder: seq<LeveledList>, guid: string) returns (l: Listing)
    requires WellFormed(g.adjacents, order, rank) && Enumerates(adjOrder, g.adjacents.Keys)
    ensures start !in g.adjacents <==> l == MissingStart
    ensures l.Listing? ==> (l.editorId == EditorIdOf(extentOrder, g.base, guid) &&
      l.paths == PathsToAll(g.adjacents, order, rank, start, Childless(adjOrder, g.adjacents)))
    ensures l.Listing? ==> forall p :: p in l.paths <==>
      (p != [] && p[0] == start && IsWalk(g.adjacents, p) &&
       p[|p| - 1] in g.adjacents && g.adjacents[p[|p| - 1]] == {})
  {
    if start !in g.adjacents {
      return MissingStart;
    }
    var extents := Childless(adjOrder, g.adjacents);
    var paths := VisitAll(g.adjacents, order, rank, start, extents);
    l := Listing(EditorIdOf(extentOrder, g.base, guid), paths);
    ChildlessWalks(g.adjacents, order, rank, start, adjOrder);
  }

  /** The listed paths are exactly the walks from the start to a plugin without
      children. */
  lemma ChildlessWalks(adj: map<ModKey, set<ModKey>>, order: Order, rank: map<ModKey, nat>, start: ModKey, adjOrder: seq<ModKey>)
    requires WellFormed(adj, order, rank) && start in adj && Enumerates(adjOrder, adj.Keys)
    ensures forall p :: p in PathsToAll(adj, order, rank, start, Childless(adjOrder, adj)) <==>
      (p != [] && p[0] == start && IsWalk(adj, p) && p[|p| - 1] in adj && adj[p[|p| - 1]] == {})
  {
    forall p ensures p in PathsToAll(adj, order, rank, start, Childless(adjOrder, adj)) <==>
      (p != [] && p[0] == start && IsWalk(adj, p) && p[|p| - 1] in adj && adj[p[|p| - 1]] == {})
    {
      ListingIsWalks(adj, order, rank, start, Childless(adjOrder, adj), p);
    }
  }
}

=== FILE: list_algebra.dfy ===
/** Order-preserving multiset operations on lists, the subsequence relation, and the
    fixed-size slicing operations (Chunk, Batch, Window) the patcher relies on. */
module ListAlgebra {
  import opened Types

  /** `a` occurs in `b` in the same order, possibly with gaps. */
  predicate IsSubseq<T(==)>(a: seq<T>, b: seq<T>)
    decreases |b|
  {
    if a == [] then true
    else if b == [] then false
    else if a[|a| - 1] == b[|b| - 1] then IsSubseq(a[..|a| - 1], b[..|b| - 1])
    else IsSubseq(a, b[..|b| - 1])
  }

  /** Walks `s` from the left and keeps an element while `budget` still holds a copy
      of it that has not been used: the order-preserving multiset intersection. */
  function Intersect<T(==)>(s: seq<T>, budget: multiset<T>): seq<T>
  {
    if s == [] then []
    else
      var p, x := s[..|s| - 1], s[|s| - 1];
      Intersect(p, budget) + (if multiset(p)[x] < budget[x] then [x] else [])
  }

  /** Walks `s` from the left and drops an element while `budget` still holds a copy
      of it that has not been used: the order-preserving multiset difference. */
  function Disjunct<T(==)>(s: seq<T>, budget: multiset<T>): seq<T>
  {
    if s == [] then []
    else
      var p, x := s[..|s| - 1], s[|s| - 1];
      Disjunct(p, budget) + (if multiset(p)[x] < budget[x] then [] else [x])
  }

  lemma {:induction false} SubseqExtend<T>(a: seq<T>, b: seq<T>, y: T)
    requires IsSubseq(a, b)
    ensures IsSubseq(a, b + [y])
    decreases |b|, 1
  {
    assert (b + [y])[..|b|] == b;
    if a != [] && a[|a| - 1] == y {
      SubseqInit(a, b);
    }
  }

  lemma {:induction false} SubseqInit<T>(a: seq<T>, b: seq<T>)
    requires a != [] && IsSubseq(a, b)
    ensures IsSubseq(a[..|a| - 1], b)
    decreases |b|, 0
  {
    var ib := b[..|b| - 1];
    assert b == ib + [b[|b| - 1]];
    if a[|a| - 1] == b[|b| - 1] {
      SubseqExtend(a[..|a| - 1], ib, b[|b| - 1]);
    } else {
      SubseqInit(a, ib);
      SubseqExtend(a[..|a| - 1], ib, b[|b| - 1]);
    }
  }

  lemma {:induction false} SubseqRefl<T>(s: seq<T>)
    ensures IsSubseq(s, s)
  {
    if s != [] {
      SubseqRefl(s[..|s| - 1]);
    }
  }

  lemma {:induction false} SubseqTrans<T>(a: seq<T>, b: seq<T>, c: seq<T>)
    requires IsSubseq(a, b) && IsSubseq(b, c)
    ensures IsSubseq(a, c)
    decreases |c|
  {
    if a != [] {
      var ic := c[..|c| - 1];
      assert c == ic + [c[|c| - 1]];
      if b[|b| - 1] == c[|c| - 1] {
        if a[|a| - 1] == b[|b| - 1] {
          SubseqTrans(a[..|a| - 1], b[..|b| - 1], ic);
        } else {
          SubseqTrans(a, b[..|b| - 1], ic);
        }
      } else {
        SubseqTrans(a, b, ic);
        SubseqExtend(a, ic, c[|c| - 1]);
      }
    }
  }

  /** Putting an element in front of a list keeps a subsequence of the list. */
  lemma {:induction false} SubseqConsRight<T>(a: seq<T>, b: seq<T>, x: T)
    requires IsSubseq(a, b)
    ensures IsSubseq(a, [x] + b)
    decreases |b|
  {
    if a != [] {
      var b' := b[..|b| - 1];
      assert ([x] + b)[..|b|] == [x] + b';
      if a[|a| - 1] == b[|b| - 1] {
        SubseqConsRight(a[..|a| - 1], b', x);
      } else {
        SubseqConsRight(a, b', x);
      }
    }
  }

  /** The same first element may be put in front of both lists. */
  lemma {:induction false} SubseqCons<T>(a: seq<T>, b: seq<T>, x: T)
    requires IsSubseq(a, b)
    ensures IsSubseq([x] + a, [x] + b)
    decreases |b|
  {
    if b == [] {
      assert [x][..0] == [];
    } else {
      var b', y := b[..|b| - 1], b[|b| - 1];
      assert ([x] + b)[..|b|] == [x] + b';
      if a == [] {
        if x != y {
          SubseqCons(a, b', x);
        }
      } else if a[|a| - 1] == y {
        SubseqCons(a[..|a| - 1], b', x);
        assert ([x] + a)[..|a|] == [x] + a[..|a| - 1];
      } else {
        SubseqCons(a, b', x);
      }
    }
  }

  /** Every value occurs in the intersection min(count in s, count in budget) times. */
  lemma {:induction false} IntersectCounts<T>(s: seq<T>, budget: multiset<T>)
    ensures multiset(Intersect(s, budget)) == multiset(s) * budget
  {
    if s != [] {
      var p, x := s[..|s| - 1], s[|s| - 1];
      assert s == p + [x];
      IntersectCounts(p, budget);
      var r := Intersect(s, budget);
      forall y ensures multiset(r)[y] == (multiset(s) * budget)[y] {
        if y == x {
          assert multiset(s)[x] == multiset(p)[x] + 1;
        } else {
          assert multiset(s)[y] == multiset(p)[y];
        }
      }
      assert multiset(r) == multiset(s) * budget;
    }
  }

  /** The intersection keeps the elements of s in their order. */
  lemma {:induction false} IntersectIsSubseq<T>(s: seq<T>, budget: multiset<T>)
    ensures IsSubseq(Intersect(s, budget), s)
  {
    if s != [] {
      var p, x := s[..|s| - 1], s[|s| - 1];
      assert p + [x] == s;
      var q := Intersect(p, budget);
      IntersectIsSubseq(p, budget);
      if multiset(p)[x] < budget[x] {
        var r := q + [x];
        assert r[..|r| - 1] == q && r[|r| - 1] == x;
        assert IsSubseq(r, s);
        assert Intersect(s, budget) == r;
      } else {
        SubseqExtend(q, p, x);
        assert Intersect(s, budget) == q;
      }
    }
  }

  /** Every value occurs in the difference max(0, count in s - count in budget) times. */
  lemma {:induction false} DisjunctCounts<T>(s: seq<T>, budget: multiset<T>)
    ensures multiset(Disjunct(s, budget)) == multiset(s) - budget
  {
    if s != [] {
      var p, x := s[..|s| - 1], s[|s| - 1];
      assert s == p + [x];
      DisjunctCounts(p, budget);
      var r := Disjunct(s, budget);
      forall y ensures multiset(r)[y] == (multiset(s) - budget)[y] {
        if y == x {
          assert multiset(s)[x] == multiset(p)[x] + 1;
        } else {
          assert multiset(s)[y] == multiset(p)[y];
        }
      }
      assert multiset(r) == multiset(s) - budget;
    }
  }

  /** The difference keeps the elements of s in their order. */
  lemma {:induction false} DisjunctIsSubseq<T>(s: seq<T>, budget: multiset<T>)
    ensures IsSubseq(Disjunct(s, budget), s)
  {
    if s != [] {
      var p, x := s[..|s| - 1], s[|s| - 1];
      assert p + [x] == s;
      var q := Disjunct(p, budget);
      DisjunctIsSubseq(p, budget);
      if multiset(p)[x] < budget[x] {
        SubseqExtend(q, p, x);
        assert Disjunct(s, budget) == q;
      } else {
        var r := q + [x];
        assert r[..|r| - 1] == q && r[|r| - 1] == x;
        assert IsSubseq(r, s);
        assert Disjunct(s, budget) == r;
      }
    }
  }

  /** An empty budget leaves a list unchanged. */
  lemma {:induction false} DisjunctNothing<T>(s: seq<T>)
    ensures Disjunct(s, multiset{}) == s
  {
    if s != [] {
      DisjunctNothing(s[..|s| - 1]);
      assert s[..|s| - 1] + [s[|s| - 1]] == s;
    }
  }

  /** An empty budget keeps nothing. */
  lemma {:induction false} IntersectNothing<T>(s: seq<T>)
    ensures Intersect(s, multiset{}) == []
  {
    if s != [] {
      IntersectNothing(s[..|s| - 1]);
    }
  }

  /** s with the first occurrence of x taken out (List.Remove). */
  function RemoveFirst<T(==)>(s: seq<T>, x: T): (r: seq<T>)
    ensures x in s ==> multiset(r) == multiset(s) - multiset{x}
    ensures x !in s ==> r == s
  {
    if s == [] then []
    else
      assert s == [s[0]] + s[1..];
      if s[0] == x then s[1..] else [s[0]] + RemoveFirst(s[1..], x)
  }

  /** One more element at the end of the walk of Intersect. */
  lemma IntersectStep<T>(p: seq<T>, x: T, budget: multiset<T>)
    ensures Intersect(p + [x], budget) ==
      Intersect(p, budget) + (if multiset(p)[x] < budget[x] then [x] else [])
  {
    assert (p + [x])[..|p|] == p;
  }

  /** One more element at the end of the walk of Disjunct. */
  lemma DisjunctStep<T>(p: seq<T>, x: T, budget: multiset<T>)
    ensures Disjunct(p + [x], budget) ==
      Disjunct(p, budget) + (if multiset(p)[x] < budget[x] then [] else [x])
  {
    assert (p + [x])[..|p|] == p;
  }

  /** What is left of `items` after the elements of `p` and then x were taken from it. */
  lemma PoolStep<T>(items: multiset<T>, p: multiset<T>, x: T)
    ensures p[x] < items[x] ==> (items - p) - multiset{x} == items - (p + multiset{x})
    ensures p[x] >= items[x] ==> items - p == items - (p + multiset{x})
  {
    if p[x] < items[x] {
      forall y ensures ((items - p) - multiset{x})[y] == (items - (p + multiset{x}))[y] {
      }
    } else {
      forall y ensures (items - p)[y] == (items - (p + multiset{x}))[y] {
      }
    }
  }

  /** `list.FindAll(items.Remove)`: each element of `list` is kept exactly when a
      copy of it can still be removed from the working copy of `items`. */
  method FindAllRemove<T(==)>(list: seq<T>, items: seq<T>) returns (kept: seq<T>)
    ensures kept == Intersect(list, multiset(items))
  {
    var pool := items;
    kept := [];
    var i := 0;
    while i < |list|
      invariant 0 <= i <= |list|
      invariant kept == Intersect(list[..i], multiset(items))
      invariant multiset(pool) == multiset(items) - multiset(list[..i])
    {
      var x := list[i];
      PoolTake(list, items, i, pool, kept);
      if x in pool {
        pool := RemoveFirst(pool, x);
        kept := kept + [x];
      }
      i := i + 1;
    }
    assert list[..i] == list;
  }

  /** One turn of FindAllRemove: `items.Remove(x)` succeeds exactly when Intersect
      keeps x, and the working copy stays `items` less what has been walked. */
  lemma PoolTake<T>(list: seq<T>, items: seq<T>, i: nat, pool: seq<T>, kept: seq<T>)
    requires i < |list| && kept == Intersect(list[..i], multiset(items))
    requires multiset(pool) == multiset(items) - multiset(list[..i])
    ensures var x := list[i];
      Intersect(list[..i + 1], multiset(items)) == kept + (if x in pool then [x] else []) &&
      (x in pool ==> multiset(RemoveFirst(pool, x)) == multiset(items) - multiset(list[..i + 1])) &&
      (x !in pool ==> multiset(pool) == multiset(items) - multiset(list[..i + 1]))
  {
    var x := list[i];
    assert list[..i + 1] == list[..i] + [x];
    assert multiset(list[..i + 1]) == multiset(list[..i]) + multiset{x};
    IntersectStep(list[..i], x, multiset(items));
    PoolStep(multiset(items), multiset(list[..i]), x);
    assert x in pool <==> multiset(pool)[x] > 0;
  }

  /** `lists.Aggregate(base, (list, items) => list ∩ items)`: the base list
      intersected with every list in turn. */
  function IntersectAll<T(==)>(base: seq<T>, lists: seq<seq<T>>): seq<T>
    decreases |lists|
  {
    if lists == [] then base else IntersectAll(Intersect(base, multiset(lists[0])), lists[1..])
  }

  /** min(c, count of x in each list): the reference definition of the folded
      intersection's count. */
  function MinCount<T(==)>(c: nat, lists: seq<seq<T>>, x: T): nat
    decreases |lists|
  {
    if lists == [] then c
    else
      var k := multiset(lists[0])[x];
      MinCount(if k < c then k else c, lists[1..], x)
  }

  /** MinCount is the minimum: no larger than c or any list's count, and equal to one of them. */
  lemma {:induction false} MinCountIsMinimum<T>(c: nat, lists: seq<seq<T>>, x: T)
    ensures MinCount(c, lists, x) <= c
    ensures forall k :: 0 <= k < |lists| ==> MinCount(c, lists, x) <= multiset(lists[k])[x]
    ensures MinCount(c, lists, x) == c ||
            exists k :: 0 <= k < |lists| && MinCount(c, lists, x) == multiset(lists[k])[x]
    decreases |lists|
  {
    if lists != [] {
      var k0 := multiset(lists[0])[x];
      var c' := if k0 < c then k0 else c;
      MinCountIsMinimum(c', lists[1..], x);
      var m := MinCount(c, lists, x);
      forall k | 0 <= k < |lists| ensures m <= multiset(lists[k])[x] {
        if k > 0 {
          assert lists[1..][k - 1] == lists[k];
        }
      }
      if m != c && m != k0 {
        var j :| 0 <= j < |lists[1..]| && m == multiset(lists[1..][j])[x];
        assert lists[1..][j] == lists[j + 1];
      }
    }
  }

  /** The folded intersection holds each value as often as the base and every list
      all hold it (the minimum of their counts). */
  lemma {:induction false} IntersectAllCounts<T>(base: seq<T>, lists: seq<seq<T>>, x: T)
    ensures multiset(IntersectAll(base, lists))[x] == MinCount(multiset(base)[x], lists, x)
    decreases |lists|
  {
    if lists != [] {
      IntersectCounts(base, multiset(lists[0]));
      IntersectAllCounts(Intersect(base, multiset(lists[0])), lists[1..], x);
    }
  }

  /** The folded intersection keeps the base order. */
  lemma {:induction false} IntersectAllIsSubseq<T>(base: seq<T>, lists: seq<seq<T>>)
    ensures IsSubseq(IntersectAll(base, lists), base)
    decreases |lists|
  {
    if lists == [] {
      SubseqRefl(base);
    } else {
      var next := Intersect(base, multiset(lists[0]));
      IntersectIsSubseq(base, multiset(lists[0]));
      IntersectAllIsSubseq(next, lists[1..]);
      SubseqTrans(IntersectAll(next, lists[1..]), next, base);
    }
  }

  /** `lists.Aggregate(∅, (acc, e) => acc.Concat(e.DisjunctLeft(lowest).DisjunctLeft(acc)))`:
      each list contributes what it holds beyond `lowest` and beyond what the
      earlier lists contributed. */
  function Disjunction<T(==)>(lists: seq<seq<T>>, lowest: multiset<T>): seq<T>
  {
    if lists == [] then []
    else
      var acc := Disjunction(lists[..|lists| - 1], lowest);
      acc + Disjunct(Disjunct(lists[|lists| - 1], lowest), multiset(acc))
  }

  /** The largest excess of any list over `lowest` for the value x (0 if none):
      the reference definition of the folded disjunction's count. */
  function MaxExcess<T(==)>(lists: seq<seq<T>>, lowest: multiset<T>, x: T): nat
  {
    if lists == [] then 0
    else
      var e := multiset(lists[|lists| - 1])[x] as int - lowest[x] as int;
      var m := MaxExcess(lists[..|lists| - 1], lowest, x);
      if e > m then e else m
  }

  /** The folded disjunction is the multiset union (pointwise maximum) of every
      list's excess over `lowest`. */
  lemma {:induction false} DisjunctionCounts<T>(lists: seq<seq<T>>, lowest: multiset<T>, x: T)
    ensures multiset(Disjunction(lists, lowest))[x] == MaxExcess(lists, lowest, x)
  {
    if lists != [] {
      var init := lists[..|lists| - 1];
      var e := lists[|lists| - 1];
      var acc := Disjunction(init, lowest);
      DisjunctionCounts(init, lowest, x);
      DisjunctCounts(e, lowest);
      DisjunctCounts(Disjunct(e, lowest), multiset(acc));
    }
  }

  /** Every list holds each value at most as often as `lowest` and MaxExcess together. */
  lemma {:induction false} MaxExcessBounds<T>(lists: seq<seq<T>>, lowest: multiset<T>, x: T, k: nat)
    requires k < |lists|
    ensures multiset(lists[k])[x] <= MaxExcess(lists, lowest, x) + lowest[x]
  {
    if k < |lists| - 1 {
      MaxExcessBounds(lists[..|lists| - 1], lowest, x, k);
    }
  }

  /** Consecutive slices of n elements, the last one possibly shorter
      (Enumerable.Chunk and MoreLinq's Batch). */
  function Chunks<T>(s: seq<T>, n: nat): seq<seq<T>>
    requires n > 0
    decreases |s|
  {
    if s == [] then [] else if |s| <= n then [s] else [s[..n]] + Chunks(s[n..], n)
  }

  function Flatten<T>(ss: seq<seq<T>>): seq<T>
  {
    if ss == [] then [] else ss[0] + Flatten(ss[1..])
  }

  /** Chunking loses and reorders nothing. */
  lemma {:induction false} ChunksFlatten<T>(s: seq<T>, n: nat)
    requires n > 0
    ensures Flatten(Chunks(s, n)) == s
    decreases |s|
  {
    if |s| > n {
      ChunksFlatten(s[n..], n);
      assert [s[..n]] + Chunks(s[n..], n) == Chunks(s, n);
      assert s == s[..n] + s[n..];
    } else if s != [] {
      assert Flatten([s]) == s + Flatten([]);
    }
  }

  /** Every chunk holds between 1 and n elements. */
  lemma {:induction false} ChunksSizes<T>(s: seq<T>, n: nat)
    requires n > 0
    ensures forall i :: 0 <= i < |Chunks(s, n)| ==> 0 < |Chunks(s, n)[i]| <= n
    decreases |s|
  {
    if |s| > n {
      ChunksSizes(s[n..], n);
      var c := Chunks(s, n);
      assert c == [s[..n]] + Chunks(s[n..], n);
      forall i | 0 <= i < |c| ensures 0 < |c[i]| <= n {
        if i > 0 {
          assert c[i] == Chunks(s[n..], n)[i - 1];
        }
      }
    }
  }

  /** There are ceil(|s| / n) chunks: the smallest c with |s| <= c * n. */
  lemma {:induction false} ChunksCount<T>(s: seq<T>, n: nat)
    requires n > 0
    ensures var c := |Chunks(s, n)|; |s| <= c * n && (s != [] ==> (c - 1) * n < |s|)
    ensures s == [] <==> Chunks(s, n) == []
    decreases |s|
  {
    if |s| > n {
      ChunksCount(s[n..], n);
      var c := |Chunks(s[n..], n)|;
      assert |Chunks(s, n)| == c + 1;
      assert (c + 1) * n == c * n + n;
      assert (c - 1) * n == c * n - n;
    }
  }

  /** Every run of n consecutive elements, in order (MoreLinq's Window). */
  function Windows<T>(s: seq<T>, n: nat): (w: seq<seq<T>>)
    requires n > 0
    ensures |s| < n ==> w == []
    ensures |s| >= n ==> |w| == |s| - n + 1
    ensures forall i :: 0 <= i < |w| ==> w[i] == s[i..i + n]
  {
    if |s| < n then [] else seq(|s| - n + 1, i requires 0 <= i <= |s| - n => s[i..i + n])
  }

  /** `s` is ordered ascending by `key`. */
  predicate SortedBy<T>(s: seq<T>, key: T -> int)
  {
    forall i, j :: 0 <= i < j < |s| ==> key(s[i]) <= key(s[j])
  }

  /** Puts x into the ordered list r after every element whose key is not larger. */
  method InsertByKey<T>(r: seq<T>, x: T, key: T -> int) returns (r': seq<T>)
    requires SortedBy(r, key)
    ensures SortedBy(r', key)
    ensures multiset(r') == multiset(r) + multiset{x}
  {
    var j := 0;
    while j < |r| && key(r[j]) <= key(x)
      invariant 0 <= j <= |r|
      invariant forall k :: 0 <= k < j ==> key(r[k]) <= key(x)
    {
      j := j + 1;
    }
    assert r == r[..j] + r[j..];
    r' := r[..j] + [x] + r[j..];
    InsertedSorted(r, x, key, j);
  }

  /** x put at the first place whose element has a larger key keeps the order. */
  lemma InsertedSorted<T>(r: seq<T>, x: T, key: T -> int, j: nat)
    requires SortedBy(r, key) && j <= |r|
    requires forall k :: 0 <= k < j ==> key(r[k]) <= key(x)
    requires j < |r| ==> key(x) < key(r[j])
    ensures SortedBy(r[..j] + [x] + r[j..], key)
  {
    var r' := r[..j] + [x] + r[j..];
    assert forall i :: 0 <= i < j ==> r'[i] == r[i];
    assert forall i :: j < i < |r'| ==> r'[i] == r[i - 1];
    forall a, b | 0 <= a < b < |r'| ensures key(r'[a]) <= key(r'[b]) {
      if b < j {
      } else if a < j && b == j {
      } else if a < j {
        assert key(r[a]) <= key(r[b - 1]);
      } else if a == j {
        assert key(r[j]) <= key(r[b - 1]);
      } else {
        assert key(r[a - 1]) <= key(r[b - 1]);
      }
    }
  }

  /** List.Sort with a comparer on `key`: the result is ordered and a permutation;
      the order among equal keys is not fixed (the sort is not stable). */
  method SortBy<T>(s: seq<T>, key: T -> int) returns (r: seq<T>)
    ensures SortedBy(r, key)
    ensures multiset(r) == multiset(s)
  {
    r := [];
    var i := 0;
    while i < |s|
      invariant 0 <= i <= |s|
      invariant SortedBy(r, key)
      invariant multiset(r) == multiset(s[..i])
    {
      r := InsertByKey(r, s[i], key);
      assert s[..i + 1] == s[..i] + [s[i]];
      i := i + 1;
    }
    assert s[..i] == s;
  }

  /** No element occurs twice. */
  predicate Distinct<T(==)>(s: seq<T>)
  {
    forall i, j :: 0 <= i < j < |s| ==> s[i] != s[j]
  }

  /** The position of the first occurrence of `x` in `s`. */
  function FirstIndex<T(==)>(s: seq<T>, x: T): (r: nat)
    requires x in s
    ensures r < |s| && s[r] == x && x !in s[..r]
  {
    if s[0] == x then 0
    else
      var r := FirstIndex(s[1..], x);
      assert s[..r + 1] == [s[0]] + s[1..][..r];
      r + 1
  }

  /** An element of a prefix first occurs in the whole list where it first occurs in
      the prefix. */
  lemma FirstIndexPrefix<T>(s: seq<T>, m: nat)
    requires m <= |s|
    ensures forall x :: x in s[..m] ==> FirstIndex(s, x) == FirstIndex(s[..m], x)
  {
    forall x | x in s[..m] ensures FirstIndex(s, x) == FirstIndex(s[..m], x) {
      var p, q := FirstIndex(s[..m], x), FirstIndex(s, x);
      assert s[..m][..p] == s[..p];
      assert s[q] == x && s[..m][p] == x;
    }
  }

  /** The first occurrence of each element, in order (`Distinct()`). */
  function Dedup<T(==, !new)>(s: seq<T>): (r: seq<T>)
    ensures Distinct(r) && forall x :: x in r <==> x in s
    ensures forall i, j :: 0 <= i < j < |r| ==> FirstIndex(s, r[i]) < FirstIndex(s, r[j])
  {
    if s == [] then []
    else
      var init := s[..|s| - 1];
      var r := Dedup(init);
      assert forall x :: x in s <==> x in init || x == s[|s| - 1];
      FirstIndexPrefix(s, |s| - 1);
      if s[|s| - 1] in r then r
      else
        assert s[|s| - 1] !in s[..|s| - 1];
        assert FirstIndex(s, s[|s| - 1]) == |s| - 1;
        r + [s[|s| - 1]]
  }

  /** The list back to front (`Reverse`). */
  function Reverse<T>(s: seq<T>): (r: seq<T>)
    ensures |r| == |s|
    ensures forall i :: 0 <= i < |s| ==> r[i] == s[|s| - 1 - i]
  {
    if s == [] then [] else Reverse(s[1..]) + [s[0]]
  }

  /** The elements satisfying p, in order (`Where`, `FindAll`). */
  function Filter<T>(s: seq<T>, p: T -> bool): (r: seq<T>)
    ensures |r| <= |s|
    ensures forall i :: 0 <= i < |r| ==> r[i] in s && p(r[i])
    ensures forall i :: 0 <= i < |s| && p(s[i]) ==> s[i] in r
  {
    if s == [] then [] else (if p(s[0]) then [s[0]] else []) + Filter(s[1..], p)
  }

  /** The last element satisfying p, if any (`LastOrDefault(p)`). */
  function LastWhere<T>(s: seq<T>, p: T -> bool): (r: Option<T>)
    ensures r.None? <==> forall i :: 0 <= i < |s| ==> !p(s[i])
    ensures r.Some? ==> exists i :: 0 <= i < |s| && s[i] == r.value && p(s[i]) &&
                                    forall j :: i < j < |s| ==> !p(s[j])
  {
    if s == [] then None
    else if p(s[|s| - 1]) then Some(s[|s| - 1])
    else LastWhere(s[..|s| - 1], p)
  }

  /** The list is a distinct enumeration of exactly the set (an order the caller
      cannot choose, such as a hash set's). */
  predicate Enumerates<T(==)>(s: seq<T>, elements: set<T>)
  {
    Distinct(s) && (forall i :: 0 <= i < |s| ==> s[i] in elements) &&
    (forall x :: x in elements ==> x in s)
  }

  /** The elements of a subsequence occur in the list. */
  lemma {:induction false} SubseqMembers<T>(a: seq<T>, b: seq<T>)
    requires IsSubseq(a, b)
    ensures forall x :: x in a ==> x in b
    decreases |b|
  {
    if a != [] {
      var b' := b[..|b| - 1];
      assert b == b' + [b[|b| - 1]];
      if a[|a| - 1] == b[|b| - 1] {
        SubseqMembers(a[..|a| - 1], b');
        assert a == a[..|a| - 1] + [a[|a| - 1]];
      } else {
        SubseqMembers(a, b');
      }
    }
  }

  /** In a list without repeats, nothing after the position of a subsequence's last
      element belongs to the subsequence. */
  lemma {:induction false} SubseqLast<T>(a: seq<T>, b: seq<T>)
    requires IsSubseq(a, b) && a != [] && Distinct(b)
    ensures exists k :: 0 <= k < |b| && b[k] == a[|a| - 1] && forall j :: k < j < |b| ==> b[j] !in a
    decreases |b|
  {
    var b' := b[..|b| - 1];
    if a[|a| - 1] != b[|b| - 1] {
      SubseqLast(a, b');
      var k :| 0 <= k < |b'| && b'[k] == a[|a| - 1] && forall j :: k < j < |b'| ==> b'[j] !in a;
      SubseqMembers(a, b');
      assert b[|b| - 1] !in b';
      assert b[k] == a[|a| - 1];
    }
  }

  /** The field values of a sequence, in order (`Select`). */
  function Project<A, B>(s: seq<A>, f: A -> B): (r: seq<B>)
    ensures |r| == |s|
    ensures forall i :: 0 <= i < |s| ==> r[i] == f(s[i])
  {
    seq(|s|, i requires 0 <= i < |s| => f(s[i]))
  }

  /** Filtering distributes over concatenation. */
  lemma {:induction false} FilterConcat<T>(a: seq<T>, b: seq<T>, p: T -> bool)
    ensures Filter(a + b, p) == Filter(a, p) + Filter(b, p)
  {
    if a != [] {
      assert (a + b)[1..] == a[1..] + b;
      FilterConcat(a[1..], b, p);
    } else {
      assert a + b == b;
    }
  }

  /** Filtering one element more at the end. */
  lemma FilterSnoc<T>(s: seq<T>, x: T, p: T -> bool)
    ensures Filter(s + [x], p) == Filter(s, p) + (if p(x) then [x] else [])
  {
    FilterConcat(s, [x], p);
    assert Filter([x], p) == (if p(x) then [x] else []) + Filter([x][1..], p);
  }

  function Min(a: int, b: int): int
  {
    if a <= b then a else b
  }

  /** A filtered list is a subsequence of the list. */
  lemma {:induction false} FilterIsSubseq<T>(s: seq<T>, p: T -> bool)
    ensures IsSubseq(Filter(s, p), s)
  {
    if s != [] {
      FilterIsSubseq(s[1..], p);
      assert s == [s[0]] + s[1..];
      if p(s[0]) {
        assert Filter(s, p) == [s[0]] + Filter(s[1..], p);
        SubseqCons(Filter(s[1..], p), s[1..], s[0]);
      } else {
        assert Filter(s, p) == Filter(s[1..], p);
        SubseqConsRight(Filter(s[1..], p), s[1..], s[0]);
      }
    }
  }

  /** Filtering keeps every occurrence of a kept value. */
  lemma {:induction false} FilterCountKept<T>(s: seq<T>, p: T -> bool, x: T)
    requires p(x)
    ensures multiset(Filter(s, p))[x] == multiset(s)[x]
  {
    if s != [] {
      FilterCountKept(s[1..], p, x);
      assert s == [s[0]] + s[1..];
      var head := if p(s[0]) then [s[0]] else [];
      assert Filter(s, p) == head + Filter(s[1..], p);
      assert multiset(Filter(s, p)) == multiset(head) + multiset(Filter(s[1..], p));
      assert multiset(s) == multiset{s[0]} + multiset(s[1..]);
    }
  }

  /** The first element satisfying p (`FirstOrDefault`). */
  function FirstWhere<T>(s: seq<T>, p: T -> bool): (r: Option<T>)
    ensures r.None? <==> forall i :: 0 <= i < |s| ==> !p(s[i])
    ensures r.Some? ==> exists i :: 0 <= i < |s| && s[i] == r.value && p(s[i]) && forall j :: 0 <= j < i ==> !p(s[j])
  {
    if s == [] then None
    else if p(s[0]) then Some(s[0])
    else
      var r := FirstWhere(s[1..], p);
      assert forall j :: 1 <= j < |s| ==> s[1..][j - 1] == s[j];
      r
  }

  /** Appending an element changes the first match only when there was none. */
  lemma {:induction false} FirstWhereSnoc<T>(s: seq<T>, x: T, p: T -> bool)
    ensures FirstWhere(s + [x], p) == if FirstWhere(s, p).Some? then FirstWhere(s, p) else if p(x) then Some(x) else None
  {
    if s != [] {
      assert (s + [x])[1..] == s[1..] + [x];
      FirstWhereSnoc(s[1..], x, p);
    }
  }
}

=== FILE: override_graph.dfy ===
/** The override graph the leveled NPC graph of the resolver and both graphs of the
    generator build: ModKey.Null plus the defining plugins, each plugin hung off the
    plugins among its masters that also define the record, and the pruning pass that
    drops from every child set each member that is a child of another member. */
module OverrideGraph {
  import opened Types
  import opened Paths

  /** The plugins a plugin hangs off: its masters that define the record, or
      ModKey.Null when none of them does (`DefaultIfEmpty(ModKey.Null)`); a plugin
      without master references hangs off ModKey.Null. */
  function Parents(mod: ModInfo, modKeys: set<ModKey>): (r: set<ModKey>)
    ensures r != {} && r <= modKeys + {NullKey}
    ensures NullKey in r ==> r == {NullKey} || NullKey in modKeys
    ensures mod.masters == [] ==> r == {NullKey}
    ensures forall x :: x in r && x != NullKey ==> x in mod.masters
    ensures forall x :: x in mod.masters && x in modKeys ==> x in r
  {
    var ms := set x | x in mod.masters && x in modKeys;
    if ms == {} then {NullKey} else ms
  }

  /** `foreach (var master in masters) Graph[master].Add(mod.ModKey)`. */
  method HangUnder(graph0: Graph, parents: set<ModKey>, m: ModKey) returns (graph: Graph)
    requires parents <= graph0.Keys
    ensures graph.Keys == graph0.Keys
    ensures forall k :: k in graph ==> graph[k] == if k in parents then graph0[k] + {m} else graph0[k]
  {
    graph := graph0;
    var todo := parents;
    while todo != {}
      invariant todo <= parents
      invariant graph.Keys == graph0.Keys
      invariant forall k :: k in graph ==> graph[k] == if k in parents - todo then graph0[k] + {m} else graph0[k]
      decreases todo
    {
      var master :| master in todo;
      graph := graph[master := graph[master] + {m}];
      todo := todo - {master};
    }
  }

  /** Every child of a node is a node. */
  predicate Closed(graph: Graph)
  {
    forall k, c :: k in graph && c in graph[k] ==> c in graph
  }

  /** The same nodes, each with a subset of its children. */
  predicate Shrunk(graph: Graph, graph0: Graph)
  {
    graph.Keys == graph0.Keys && forall k :: k in graph ==> graph[k] <= graph0[k]
  }

  /** No child set holds both a node and one of that node's children. */
  ghost predicate Pruned(graph: Graph)
  {
    forall k, v :: k in graph && v in graph[k] ==> v in graph && graph[v] * graph[k] == {}
  }

  /** Every child pruned from a set was a child of another member of that set. */
  ghost predicate Covered(graph: Graph, graph0: Graph)
  {
    forall k, u :: k in graph && k in graph0 && u in graph0[k] && u !in graph[k] ==>
      exists w :: w in graph0[k] && w in graph0 && u in graph0[w]
  }

  /** `foreach (var value in values) values.ExceptWith(Graph[value].Intersect(values))`
      on the child set of `key`. The enumeration goes on over the set it shrinks, so a
      member removed before its turn is not visited; the members are taken in any
      order. */
  method PruneChildren(graph0: Graph, key: ModKey) returns (graph: Graph)
    requires key in graph0 && Closed(graph0)
    ensures Shrunk(graph, graph0)
    ensures forall k :: k in graph && k != key ==> graph[k] == graph0[k]
    ensures forall v :: v in graph[key] ==> graph[v] * graph[key] == {}
    ensures Covered(graph, graph0)
  {
    graph := graph0;
    var todo := graph0[key];
    while todo != {}
      invariant todo <= graph0[key]
      invariant graph.Keys == graph0.Keys
      invariant forall k :: k in graph && k != key ==> graph[k] == graph0[k]
      invariant graph[key] <= graph0[key]
      invariant forall v :: v in graph[key] && v !in todo ==> graph[v] * graph[key] == {}
      invariant forall u :: u in graph0[key] && u !in graph[key] ==>
        exists w :: w in graph0[key] && w in graph0 && u in graph0[w]
      decreases todo
    {
      var value :| value in todo;
      if value in graph[key] {
        var keys := graph[value];
        assert keys <= graph0[value];
        graph := graph[key := graph[key] - keys * graph[key]];
      }
      todo := todo - {value};
    }
  }

  /** The pruning loop over every child set. */
  method Prune(graph0: Graph) returns (graph: Graph)
    requires Closed(graph0)
    ensures Shrunk(graph, graph0) && Pruned(graph) && Covered(graph, graph0)
  {
    graph := graph0;
    var todo := graph0.Keys;
    while todo != {}
      invariant todo <= graph0.Keys
      invariant Shrunk(graph, graph0) && Covered(graph, graph0)
      invariant forall k :: k in todo ==> graph[k] == graph0[k]
      invariant forall k, v :: k in graph && k !in todo && v in graph[k] ==> v in graph && graph[v] * graph[k] == {}
      decreases todo
    {
      var key :| key in todo;
      var prev := graph;
      graph := PruneChildren(graph, key);
      CoveredTrans(graph, prev, graph0, key);
      todo := todo - {key};
    }
  }

  /** One set pruned after the others keeps every removal covered by the original
      graph. */
  lemma CoveredTrans(graph: Graph, prev: Graph, graph0: Graph, key: ModKey)
    requires Shrunk(prev, graph0) && Shrunk(graph, prev) && Covered(prev, graph0) && Covered(graph, prev)
    requires key in prev && prev[key] == graph0[key]
    requires forall k :: k in graph && k != key ==> graph[k] == prev[k]
    ensures Covered(graph, graph0)
  {
    forall k, u | k in graph && k in graph0 && u in graph0[k] && u !in graph[k]
      ensures exists w :: w in graph0[k] && w in graph0 && u in graph0[w]
    {
      if k == key {
        var w :| w in prev[k] && w in prev && u in prev[w];
        assert u in graph0[w];
      }
    }
  }

  /** A finite set of ranked nodes has a member of greatest rank. */
  lemma {:induction false} Highest(s: set<ModKey>, rank: map<ModKey, nat>) returns (m: ModKey)
    requires s != {} && forall x :: x in s ==> x in rank
    ensures m in s && forall x :: x in s ==> rank[x] <= rank[m]
    decreases |s|
  {
    var x :| x in s;
    if s == {x} {
      return x;
    }
    var rest := Highest(s - {x}, rank);
    m := if rank[x] <= rank[rest] then rest else x;
  }

  /** In a graph without cycles pruning never empties a child set: its member of
      greatest rank is no other member's child. So a node has no children after
      pruning exactly when it had none before. */
  lemma PruningKeepsLeaves(graph: Graph, graph0: Graph, rank: map<ModKey, nat>)
    requires Ranked(graph0, rank) && Shrunk(graph, graph0) && Covered(graph, graph0)
    ensures forall k :: k in graph ==> (graph[k] == {} <==> graph0[k] == {})
  {
    forall k | k in graph && graph0[k] != {}
      ensures graph[k] != {}
    {
      var m := Highest(graph0[k], rank);
      if m !in graph[k] {
        assert false;
      }
    }
  }

  /** A finite set of ranked nodes has a member of least rank. */
  lemma {:induction false} Lowest(s: set<ModKey>, rank: map<ModKey, nat>) returns (m: ModKey)
    requires s != {} && forall x :: x in s ==> x in rank
    ensures m in s && forall x :: x in s ==> rank[m] <= rank[x]
    decreases |s|
  {
    var x :| x in s;
    if s == {x} {
      return x;
    }
    var rest := Lowest(s - {x}, rank);
    m := if rank[rest] <= rank[x] then rest else x;
  }

  /** Pruning leaves every child with a parent: its parent of least rank keeps it,
      for any other member of that child set the child hangs off has a lower rank. */
  lemma ChildKept(graph: Graph, graph0: Graph, rank: map<ModKey, nat>, u: ModKey)
    requires Ranked(graph0, rank) && Shrunk(graph, graph0) && Covered(graph, graph0)
    requires exists k :: k in graph0 && u in graph0[k]
    ensures exists k :: k in graph && u in graph[k]
  {
    var parents := set k | k in graph0 && u in graph0[k];
    var k0 :| k0 in graph0 && u in graph0[k0];
    assert k0 in parents;
    var k := Lowest(parents, rank);
    if u !in graph[k] {
      assert false;
    }
  }

  /** So pruning keeps the end points: the nodes without children that are some
      node's child. */
  lemma PruningKeepsEnds(graph: Graph, graph0: Graph, rank: map<ModKey, nat>, u: ModKey)
    requires Ranked(graph0, rank) && Shrunk(graph, graph0) && Covered(graph, graph0)
    ensures (u in graph && graph[u] == {} && exists k :: k in graph && u in graph[k]) <==>
      (u in graph0 && graph0[u] == {} && exists k :: k in graph0 && u in graph0[k])
  {
    PruningKeepsLeaves(graph, graph0, rank);
    if u in graph0 && graph0[u] == {} && exists k :: k in graph0 && u in graph0[k] {
      ChildKept(graph, graph0, rank, u);
    }
  }

  /** A graph that kept its nodes and lost children is ranked by the same ranks. */
  lemma ShrunkRanked(graph: Graph, graph0: Graph, rank: map<ModKey, nat>)
    requires Ranked(graph0, rank) && Shrunk(graph, graph0)
    ensures Ranked(graph, rank)
  {
  }
}

=== FILE: patch.dfy ===
/** The patch plugin the code writes into: the new records it creates (sublists and
    chunks) and the overrides it sets. */
module Patch {
  import opened Types

  /** A record as `AddNew()` creates it: a fresh FormKey and every field at its default. */
  function NewRecord(fk: FormKey): LeveledList
  {
    LeveledList(fk, None, Bounds(0, 0, 0, 0, 0, 0), 0, 0, None, None, 0, 0, 0)
  }

  /** No two records share a FormKey. */
  predicate DistinctKeys(rs: seq<LeveledList>)
  {
    forall i, j :: 0 <= i < j < |rs| ==> rs[i].formKey != rs[j].formKey
  }

  /** Where a record with the FormKey sits in the group, if anywhere. */
  function KeyIndex(rs: seq<LeveledList>, fk: FormKey): (r: Option<nat>)
    ensures r.None? <==> forall i :: 0 <= i < |rs| ==> rs[i].formKey != fk
    ensures r.Some? ==> r.value < |rs| && rs[r.value].formKey == fk
  {
    if rs == [] then None
    else if rs[|rs| - 1].formKey == fk then Some(|rs| - 1)
    else KeyIndex(rs[..|rs| - 1], fk)
  }

  /** `Set(record)` on a record group: replace the record with the same FormKey, or
      append it when there is none. */
  function Upserted(rs: seq<LeveledList>, r: LeveledList): seq<LeveledList>
  {
    match KeyIndex(rs, r.formKey)
    case Some(i) => rs[i := r]
    case None => rs + [r]
  }

  /** After `Set`, the record is present, every record with another FormKey is kept,
      nothing else is added, and FormKeys stay distinct. */
  lemma UpsertedKeeps(rs: seq<LeveledList>, r: LeveledList)
    requires DistinctKeys(rs)
    ensures r in Upserted(rs, r)
    ensures forall x :: x in rs && x.formKey != r.formKey ==> x in Upserted(rs, r)
    ensures forall x :: x in Upserted(rs, r) ==> x == r || (x in rs && x.formKey != r.formKey)
    ensures DistinctKeys(Upserted(rs, r))
  {
    var u := Upserted(rs, r);
    match KeyIndex(rs, r.formKey)
    case Some(i) =>
      assert u[i] == r;
      forall x | x in rs && x.formKey != r.formKey ensures x in u {
        var k :| 0 <= k < |rs| && rs[k] == x;
        assert u[k] == x;
      }
      forall x | x in u ensures x == r || (x in rs && x.formKey != r.formKey) {
        var k :| 0 <= k < |u| && u[k] == x;
        if k != i {
          assert x == rs[k] && rs[k].formKey != rs[i].formKey;
        }
      }
    case None =>
      assert u[|rs|] == r;
      forall x | x in rs && x.formKey != r.formKey ensures x in u {
        var k :| 0 <= k < |rs| && rs[k] == x;
        assert u[k] == x;
      }
  }

  /** Level 1 / Count 1 links to `count` consecutive new records of the patch,
      starting at local id `id`. */
  function Links(key: ModKey, id: nat, count: nat): (r: seq<Entry>)
    ensures |r| == count
  {
    seq(count, i requires 0 <= i < count => LinkEntry(FormKey(key, id + i)))
  }

  class PatchMod {
    const key: ModKey
    /** The records this run created, in creation order; the i-th has local id i. */
    var added: seq<LeveledList>
    /** The overrides of existing records this run set. */
    var overrides: seq<LeveledList>

    ghost predicate Valid()
      reads this
    {
      (forall i :: 0 <= i < |added| ==> added[i].formKey == FormKey(key, i)) && DistinctKeys(overrides)
    }

    constructor (key: ModKey)
      ensures this.key == key && added == [] && overrides == [] && Valid()
    {
      this.key := key;
      added := [];
      overrides := [];
    }

    /** `AddNew()`: a new record under a FormKey no record of the patch has. */
    method AddNew() returns (fk: FormKey)
      requires Valid()
      modifies this
      ensures Valid()
      ensures fk == FormKey(key, old(|added|)) && added == old(added) + [NewRecord(fk)] && overrides == old(overrides)
      ensures forall x :: x in old(added) ==> x.formKey != fk
    {
      fk := FormKey(key, |added|);
      added := added + [NewRecord(fk)];
    }

    /** Field writes to a record created earlier with `AddNew()`. */
    method Put(r: LeveledList)
      requires Valid() && r.formKey.mod == key && r.formKey.id < |added|
      modifies this
      ensures Valid()
      ensures added == old(added)[r.formKey.id := r] && overrides == old(overrides)
    {
      added := added[r.formKey.id := r];
    }

    /** `new Record(patchMod, ...)` followed by `Add`: the given fields under a new FormKey. */
    method Add(r: LeveledList) returns (fk: FormKey)
      requires Valid()
      modifies this
      ensures Valid()
      ensures fk == FormKey(key, old(|added|)) && added == old(added) + [r.(formKey := fk)] && overrides == old(overrides)
    {
      fk := FormKey(key, |added|);
      added := added + [r.(formKey := fk)];
    }

    /** `Set(copy)` of an override. */
    method Set(r: LeveledList)
      requires Valid()
      modifies this
      ensures Valid()
      ensures overrides == Upserted(old(overrides), r) && added == old(added)
    {
      UpsertedKeeps(overrides, r);
      overrides := Upserted(overrides, r);
    }
  }
}

=== FILE: paths.dfy ===
/** Path enumeration over an override graph: the depth-first `Visit` every graph class
    uses to list the routes from a start plugin to an extent plugin. A graph maps each
    node to its set of children; `order` fixes the order in which a node's child set
    enumerates, and `rank` witnesses that the graph has no cycle. */
module Paths {
  import opened Types
  import opened ListAlgebra

  type Graph = map<ModKey, set<ModKey>>
  type Order = map<ModKey, seq<ModKey>>

  /** Every child is a node of strictly smaller rank, so no path returns to a node. */
  predicate Ranked(graph: Graph, rank: map<ModKey, nat>)
  {
    forall k :: k in graph ==> k in rank && forall c :: c in graph[k] ==> c in graph && c in rank && rank[c] < rank[k]
  }

  /** `order[k]` is the enumeration order of the child set of k. */
  predicate Ordered(graph: Graph, order: Order)
  {
    forall k :: k in graph ==> k in order && Enumerates(order[k], graph[k])
  }

  predicate WellFormed(graph: Graph, order: Order, rank: map<ModKey, nat>)
  {
    Ranked(graph, rank) && Ordered(graph, order)
  }

  /** The paths `Visit(node, end, path)` reports: `path` itself when node is the end,
      else the paths through each child in enumeration order. */
  function PathsTo(graph: Graph, order: Order, rank: map<ModKey, nat>, node: ModKey, end: ModKey, path: seq<ModKey>): seq<seq<ModKey>>
    requires WellFormed(graph, order, rank) && node in graph
    decreases rank[node], 1, 0
  {
    if node == end then [path] else PathsVia(graph, order, rank, node, order[node], end, path)
  }

  function PathsVia(graph: Graph, order: Order, rank: map<ModKey, nat>, parent: ModKey, children: seq<ModKey>,
                    end: ModKey, path: seq<ModKey>): seq<seq<ModKey>>
    requires WellFormed(graph, order, rank) && parent in graph
    requires forall i :: 0 <= i < |children| ==> children[i] in graph[parent]
    decreases rank[parent], 0, |children|
  {
    if children == [] then []
    else
      PathsTo(graph, order, rank, children[0], end, path + [children[0]]) +
      PathsVia(graph, order, rank, parent, children[1..], end, path)
  }

  /** The paths from `start` to each end in turn, as the listing loop collects them. */
  function PathsToAll(graph: Graph, order: Order, rank: map<ModKey, nat>, start: ModKey, ends: seq<ModKey>): seq<seq<ModKey>>
    requires WellFormed(graph, order, rank) && start in graph
  {
    if ends == [] then []
    else PathsToAll(graph, order, rank, start, ends[..|ends| - 1]) + PathsTo(graph, order, rank, start, ends[|ends| - 1], [start])
  }

  /** Consecutive nodes are joined by an edge. */
  predicate IsWalk(graph: Graph, p: seq<ModKey>)
  {
    forall i :: 0 <= i < |p| - 1 ==> p[i] in graph && p[i + 1] in graph[p[i]]
  }

  /** A walk extended by an edge from its last node is a walk. */
  lemma WalkExtend(graph: Graph, p: seq<ModKey>, c: ModKey)
    requires IsWalk(graph, p) && p != [] && p[|p| - 1] in graph && c in graph[p[|p| - 1]]
    ensures IsWalk(graph, p + [c])
  {
  }

  /** Soundness: every reported path extends the path so far by a walk that ends at
      `end`. */
  lemma {:induction false} PathsToSound(graph: Graph, order: Order, rank: map<ModKey, nat>, node: ModKey, end: ModKey, path: seq<ModKey>)
    requires WellFormed(graph, order, rank) && node in graph
    requires path != [] && path[|path| - 1] == node && IsWalk(graph, path)
    ensures forall p :: p in PathsTo(graph, order, rank, node, end, path) ==>
      |path| <= |p| && p[..|path|] == path && IsWalk(graph, p) && p[|p| - 1] == end
    decreases rank[node], 1, 0
  {
    if node != end {
      PathsViaSound(graph, order, rank, node, order[node], end, path);
    }
  }

  lemma {:induction false} PathsViaSound(graph: Graph, order: Order, rank: map<ModKey, nat>, parent: ModKey, children: seq<ModKey>,
                                         end: ModKey, path: seq<ModKey>)
    requires WellFormed(graph, order, rank) && parent in graph
    requires forall i :: 0 <= i < |children| ==> children[i] in graph[parent]
    requires path != [] && path[|path| - 1] == parent && IsWalk(graph, path)
    ensures forall p :: p in PathsVia(graph, order, rank, parent, children, end, path) ==>
      |path| <= |p| && p[..|path|] == path && IsWalk(graph, p) && p[|p| - 1] == end
    decreases rank[parent], 0, |children|
  {
    if children != [] {
      var c := children[0];
      WalkExtend(graph, path, c);
      PathsToSound(graph, order, rank, c, end, path + [c]);
      PathsViaSound(graph, order, rank, parent, children[1..], end, path);
      forall p | p in PathsTo(graph, order, rank, c, end, path + [c])
        ensures |path| <= |p| && p[..|path|] == path
      {
        assert p[..|path|] == (p[..|path| + 1])[..|path|];
      }
    }
  }

  /** A walk that leaves a node never comes back to it. */
  lemma {:induction false} WalkDescends(graph: Graph, rank: map<ModKey, nat>, w: seq<ModKey>)
    requires Ranked(graph, rank) && IsWalk(graph, w) && |w| >= 2
    ensures w[0] in rank && w[|w| - 1] in rank && rank[w[|w| - 1]] < rank[w[0]]
    decreases |w|
  {
    if |w| > 2 {
      WalkDescends(graph, rank, w[1..]);
    }
  }

  /** Every child in an enumeration contributes all of its paths. */
  lemma {:induction false} PathsViaIncludes(graph: Graph, order: Order, rank: map<ModKey, nat>, parent: ModKey, children: seq<ModKey>,
                                            end: ModKey, path: seq<ModKey>, k: nat, p: seq<ModKey>)
    requires WellFormed(graph, order, rank) && parent in graph
    requires forall i :: 0 <= i < |children| ==> children[i] in graph[parent]
    requires k < |children| && p in PathsTo(graph, order, rank, children[k], end, path + [children[k]])
    ensures p in PathsVia(graph, order, rank, parent, children, end, path)
    decreases k
  {
    if k > 0 {
      PathsViaIncludes(graph, order, rank, parent, children[1..], end, path, k - 1, p);
    }
  }

  /** Completeness: the path so far, extended by any walk from the node to `end`, is
      reported. */
  lemma {:induction false} PathsToComplete(graph: Graph, order: Order, rank: map<ModKey, nat>, node: ModKey, end: ModKey,
                                           path: seq<ModKey>, w: seq<ModKey>)
    requires WellFormed(graph, order, rank) && node in graph
    requires IsWalk(graph, w) && w != [] && w[0] == node && w[|w| - 1] == end
    ensures path + w[1..] in PathsTo(graph, order, rank, node, end, path)
    decreases |w|
  {
    if node == end {
      if |w| >= 2 {
        WalkDescends(graph, rank, w);
        assert false;
      }
      assert path + w[1..] == path;
    } else {
      var c := w[1];
      assert c in graph[node];
      var k :| 0 <= k < |order[node]| && order[node][k] == c;
      PathsToComplete(graph, order, rank, c, end, path + [c], w[1..]);
      assert (path + [c]) + w[2..] == path + w[1..];
      PathsViaIncludes(graph, order, rank, node, order[node], end, path, k, path + w[1..]);
    }
  }

  /** The listing from `start` holds exactly the walks from `start` to one of the ends:
      every listed path is such a walk, and every such walk is listed. */
  lemma {:induction false} ListingIsWalks(graph: Graph, order: Order, rank: map<ModKey, nat>, start: ModKey, ends: seq<ModKey>, p: seq<ModKey>)
    requires WellFormed(graph, order, rank) && start in graph
    ensures p in PathsToAll(graph, order, rank, start, ends) <==>
      (p != [] && p[0] == start && IsWalk(graph, p) && p[|p| - 1] in ends)
  {
    if ends != [] {
      var e := ends[|ends| - 1];
      var init := ends[..|ends| - 1];
      ListingIsWalks(graph, order, rank, start, init, p);
      PathsToSound(graph, order, rank, start, e, [start]);
      if p != [] && p[0] == start && IsWalk(graph, p) && p[|p| - 1] == e {
        PathsToComplete(graph, order, rank, start, e, [start], p);
        assert [start] + p[1..] == p;
      }
      assert forall x :: x in ends <==> x in init || x == e;
    }
  }

  /** The recursive `Visit` with a shared output builder: appends the paths from
      `node` to `end` to what the builder already holds. */
  method Visit(graph: Graph, order: Order, ghost rank: map<ModKey, nat>, node: ModKey, end: ModKey,
               path: seq<ModKey>, builder: seq<seq<ModKey>>) returns (out: seq<seq<ModKey>>)
    requires WellFormed(graph, order, rank) && node in graph
    ensures out == builder + PathsTo(graph, order, rank, node, end, path)
    decreases rank[node], 1
  {
    if node == end {
      return builder + [path];
    }
    var children := order[node];
    out := builder;
    var j := 0;
    while j < |children|
      invariant 0 <= j <= |children|
      invariant out + PathsVia(graph, order, rank, node, children[j..], end, path) ==
                builder + PathsVia(graph, order, rank, node, children, end, path)
    {
      var c := children[j];
      assert children[j..][1..] == children[j + 1..];
      out := Visit(graph, order, rank, c, end, path + [c], out);
      j := j + 1;
    }
  }

  /** The listing loop: `Visit(start, end, [start])` for each end in turn, into one
      builder. */
  method VisitAll(graph: Graph, order: Order, ghost rank: map<ModKey, nat>, start: ModKey, ends: seq<ModKey>)
    returns (out: seq<seq<ModKey>>)
    requires WellFormed(graph, order, rank) && start in graph
    ensures out == PathsToAll(graph, order, rank, start, ends)
  {
    out := [];
    var j := 0;
    while j < |ends|
      invariant 0 <= j <= |ends|
      invariant out == PathsToAll(graph, order, rank, start, ends[..j])
    {
      assert ends[..j + 1][..j] == ends[..j];
      out := Visit(graph, order, rank, start, ends[j], [start], out);
      j := j + 1;
    }
    assert ends[..j] == ends;
  }
}

=== FILE: record_patcher.dfy ===
/** The steps the three `RecordPatcher.Try` methods share once a record has at least
    two extent contexts: a copy of the highest extent whose EditorID and scalar group
    follow the lowest override's differing extents, the merged entries filtered and
    sorted by level, more than 255 of them moved into `{EditorID}Chunk_{i}` records,
    and the decision to skip a copy that changes nothing. */
module RecordPatcher {
  import opened Types
  import opened ListAlgebra
  import opened Utility
  import opened Unseen
  import opened Patch

  /** The FormVersion the copies and chunk records get. */
  const FormVersion := 44
  const MaxEntries := 255

  /** `char.IsWhiteSpace`: the controls U+0009 to U+000D and U+0085, and the Unicode
      space, line and paragraph separators. */
  predicate IsWhiteSpace(c: char)
  {
    c == ' ' || ('\t' <= c <= '\r') || c == '\U{85}' || c == '\U{A0}' || c == '\U{1680}' ||
    ('\U{2000}' <= c <= '\U{200A}') || c == '\U{2028}' || c == '\U{2029}' || c == '\U{202F}' ||
    c == '\U{205F}' || c == '\U{3000}'
  }

  /** `string.IsNullOrWhiteSpace`. */
  predicate IsBlank(id: Option<string>)
  {
    id.None? || forall i :: 0 <= i < |id.value| ==> IsWhiteSpace(id.value[i])
  }

  /** The scalar fields that move as one: ChanceNone, Flags and Global for item and NPC
      lists, ChanceNone and Flags for spell lists. */
  datatype Group = WithGlobal | ChanceAndFlags

  /** Equality under the group's translation mask. */
  predicate SameGroup(a: LeveledList, b: LeveledList, group: Group)
  {
    match group
    case WithGlobal => GroupEqual(a, b)
    case ChanceAndFlags => ChanceFlagsEqual(a, b)
  }

  /** `copy.ChanceNone = record.ChanceNone; copy.Flags = record.Flags` and, for the
      Global group, `copy.Global.SetTo(record.Global)`. */
  function TakeGroup(copy: LeveledList, from: LeveledList, group: Group): (r: LeveledList)
    ensures SameGroup(r, from, group)
    ensures r.(chanceNone := copy.chanceNone, flags := copy.flags, global := copy.global) == copy
  {
    copy.(chanceNone := from.chanceNone, flags := from.flags,
          global := if group.WithGlobal? then from.global else copy.global)
  }

  function IdDiffers(lowest: LeveledList): LeveledList -> bool
  {
    (r: LeveledList) => r.editorId != lowest.editorId
  }

  function GroupDiffers(lowest: LeveledList, group: Group): LeveledList -> bool
  {
    (r: LeveledList) => !SameGroup(r, lowest, group)
  }

  /** The EditorID the copy ends with; `extents` are the extent records, highest
      first. */
  function ResolvedId(extents: seq<LeveledList>, lowest: LeveledList, guid: string): Option<string>
    requires extents != []
  {
    if IsBlank(extents[0].editorId) then Some(guid)
    else match FirstWhere(extents, IdDiffers(lowest))
      case Some(r) => r.editorId
      case None => extents[0].editorId
  }

  /** The extent record whose scalar group the copy ends with. */
  function GroupSource(extents: seq<LeveledList>, lowest: LeveledList, group: Group): LeveledList
    requires extents != []
  {
    match FirstWhere(extents, GroupDiffers(lowest, group))
    case Some(r) => r
    case None => extents[0]
  }

  /** The copy after the scalar loop. */
  function Resolved(copy: LeveledList, extents: seq<LeveledList>, lowest: LeveledList, guid: string, group: Group): LeveledList
    requires extents != []
  {
    TakeGroup(copy.(editorId := ResolvedId(extents, lowest, guid)), GroupSource(extents, lowest, group), group)
  }

  /** The EditorID rule: a blank EditorID on the highest extent becomes the GUID; one
      that differs from the lowest override's is kept; otherwise the first later
      extent whose EditorID differs supplies it, and without one it stays. */
  lemma EditorIdRule(extents: seq<LeveledList>, lowest: LeveledList, guid: string)
    requires extents != []
    ensures IsBlank(extents[0].editorId) ==> ResolvedId(extents, lowest, guid) == Some(guid)
    ensures !IsBlank(extents[0].editorId) && extents[0].editorId != lowest.editorId ==>
      ResolvedId(extents, lowest, guid) == extents[0].editorId
    ensures !IsBlank(extents[0].editorId) ==>
      (ResolvedId(extents, lowest, guid) == lowest.editorId <==>
         forall i :: 0 <= i < |extents| ==> extents[i].editorId == lowest.editorId)
    ensures !IsBlank(extents[0].editorId) && ResolvedId(extents, lowest, guid) != lowest.editorId ==>
      exists i :: 0 <= i < |extents| && extents[i].editorId == ResolvedId(extents, lowest, guid) &&
        forall j :: 0 <= j < i ==> extents[j].editorId == lowest.editorId
  {
    var first := FirstWhere(extents, IdDiffers(lowest));
    if first.Some? {
      var i :| 0 <= i < |extents| && extents[i] == first.value && IdDiffers(lowest)(extents[i]) &&
        forall j :: 0 <= j < i ==> !IdDiffers(lowest)(extents[j]);
      if i > 0 {
        assert extents[0].editorId == lowest.editorId;
      }
    } else {
      assert forall i :: 0 <= i < |extents| ==> !IdDiffers(lowest)(extents[i]);
    }
  }

  /** The group moves as one: all its fields come from a single extent record, the
      highest unless its group equals the lowest override's, then the first later one
      whose group differs; the copy's group differs from the lowest override's
      exactly when some extent's does. */
  lemma GroupMovesTogether(extents: seq<LeveledList>, lowest: LeveledList, group: Group)
    requires extents != []
    ensures exists i :: (0 <= i < |extents| && extents[i] == GroupSource(extents, lowest, group) &&
      (forall j :: 0 <= j < i ==> SameGroup(extents[j], lowest, group)) &&
      (i > 0 ==> !SameGroup(extents[i], lowest, group)))
    ensures !SameGroup(GroupSource(extents, lowest, group), lowest, group) <==>
      exists i :: 0 <= i < |extents| && !SameGroup(extents[i], lowest, group)
  {
    var first := FirstWhere(extents, GroupDiffers(lowest, group));
    if first.Some? {
      var i :| 0 <= i < |extents| && extents[i] == first.value && GroupDiffers(lowest, group)(extents[i]) &&
        forall j :: 0 <= j < i ==> !GroupDiffers(lowest, group)(extents[j]);
      assert !SameGroup(extents[i], lowest, group);
    } else {
      assert forall i :: 0 <= i < |extents| ==> !GroupDiffers(lowest, group)(extents[i]);
      assert SameGroup(extents[0], lowest, group);
    }
  }

  /** One step of the EditorID rule: the flag `a` says the prefix already settled the
      EditorID; the next extent settles it when it differs from the lowest override's. */
  lemma IdStep(prefix: seq<LeveledList>, record: LeveledList, lowest: LeveledList, guid: string, a: bool, id: Option<string>)
    requires prefix != []
    requires a == (IsBlank(prefix[0].editorId) || FirstWhere(prefix, IdDiffers(lowest)).Some?)
    requires id == ResolvedId(prefix, lowest, guid)
    ensures var take := !a && lowest.editorId != record.editorId;
      (a || take) == (IsBlank(prefix[0].editorId) || FirstWhere(prefix + [record], IdDiffers(lowest)).Some?) &&
      (if take then record.editorId else id) == ResolvedId(prefix + [record], lowest, guid)
  {
    FirstWhereSnoc(prefix, record, IdDiffers(lowest));
    assert (prefix + [record])[0] == prefix[0];
  }

  /** One step of the group rule, with `b` saying the prefix already settled it. */
  lemma GroupStep(prefix: seq<LeveledList>, record: LeveledList, lowest: LeveledList, group: Group, b: bool,
                  source: LeveledList)
    requires prefix != []
    requires b == FirstWhere(prefix, GroupDiffers(lowest, group)).Some?
    requires source == GroupSource(prefix, lowest, group)
    ensures var take := !b && !SameGroup(lowest, record, group);
      (b || take) == FirstWhere(prefix + [record], GroupDiffers(lowest, group)).Some? &&
      (if take then record else source) == GroupSource(prefix + [record], lowest, group)
  {
    FirstWhereSnoc(prefix, record, GroupDiffers(lowest, group));
    assert (prefix + [record])[0] == prefix[0];
  }

  /** The loop over the later extents with the flags `a` (EditorID settled) and `b`
      (group settled). `copy0` is the highest extent's copy: its EditorID and group are
      the highest's. */
  method ResolveScalars(copy0: LeveledList, extents: seq<LeveledList>, lowest: LeveledList, guid: string, group: Group)
    returns (copy: LeveledList)
    requires extents != []
    requires copy0.editorId == extents[0].editorId && SameGroup(copy0, extents[0], group)
    requires group.WithGlobal? ==> copy0.global == extents[0].global
    ensures copy == Resolved(copy0, extents, lowest, guid, group)
  {
    copy := copy0;
    var a := lowest.editorId != copy.editorId;
    var b := !SameGroup(copy, lowest, group);
    if IsBlank(copy.editorId) {
      copy := copy.(editorId := Some(guid));
      a := true;
    }
    assert extents[..1] == [extents[0]];
    ghost var source := extents[0];
    assert TakeGroup(copy0.(editorId := copy.editorId), source, group) == copy;
    var k := 1;
    while k < |extents|
      invariant ScalarsAt(copy0, extents, lowest, guid, group, k, copy, a, b, source)
    {
      copy, a, b, source := ResolveNext(copy0, extents, lowest, guid, group, k, copy, a, b, source);
      k := k + 1;
    }
    assert extents[..k] == extents;
  }

  /** What the scalar loop knows after the first k extents: the flags say whether an
      EditorID and a group differing from the lowest override were met, and the copy
      holds the EditorID and the group chosen so far. */
  ghost predicate ScalarsAt(copy0: LeveledList, extents: seq<LeveledList>, lowest: LeveledList, guid: string, group: Group,
                            k: nat, copy: LeveledList, a: bool, b: bool, source: LeveledList)
  {
    1 <= k <= |extents| &&
    a == (IsBlank(extents[0].editorId) || FirstWhere(extents[..k], IdDiffers(lowest)).Some?) &&
    copy.editorId == ResolvedId(extents[..k], lowest, guid) &&
    b == FirstWhere(extents[..k], GroupDiffers(lowest, group)).Some? &&
    source == GroupSource(extents[..k], lowest, group) &&
    copy == TakeGroup(copy0.(editorId := copy.editorId), source, group)
  }

  /** One turn of the scalar loop, for the k-th extent. */
  method ResolveNext(copy0: LeveledList, extents: seq<LeveledList>, lowest: LeveledList, guid: string, group: Group,
                     k: nat, copy1: LeveledList, a1: bool, b1: bool, ghost source1: LeveledList)
    returns (copy: LeveledList, a: bool, b: bool, ghost source: LeveledList)
    requires k < |extents| && ScalarsAt(copy0, extents, lowest, guid, group, k, copy1, a1, b1, source1)
    ensures ScalarsAt(copy0, extents, lowest, guid, group, k + 1, copy, a, b, source)
  {
    copy, a, b, source := copy1, a1, b1, source1;
    var record := extents[k];
    assert extents[..k + 1] == extents[..k] + [record];
    assert extents[..k][0] == extents[0];
    IdStep(extents[..k], record, lowest, guid, a, copy.editorId);
    GroupStep(extents[..k], record, lowest, group, b, source);
    if !a && lowest.editorId != record.editorId {
      copy := copy.(editorId := record.editorId);
      a := true;
    }
    if !b && !SameGroup(lowest, record, group) {
      copy := TakeGroup(copy, record, group);
      source := record;
      b := true;
    }
  }

  /** `highest.DeepCopy()` with FormVersion 44, the version-control stamp and an
      emptied entry list. */
  function Copied(highest: LeveledList, stamp: int): LeveledList
  {
    highest.(formVersion := FormVersion, versionControl := stamp, entries := Some([]))
  }

  /** The sort key `i.Data?.Level ?? 0`. */
  function Level(e: Entry): int
  {
    if e.data.None? then 0 else e.data.value.level
  }

  /** The entries `RemoveAll(IsNullEntry)` keeps. */
  function NotNull(): Entry -> bool
  {
    (e: Entry) => !IsNullEntry(e)
  }

  /** `entries.AddRange(first); entries.AddRange(second); entries.RemoveAll(...);
      entries.Sort(by Level)`: List.Sort is not stable, so only the order by level and
      the contents are fixed. */
  method Arrange(first: seq<Entry>, second: seq<Entry>, keep: Entry -> bool) returns (entries: seq<Entry>)
    ensures SortedBy(entries, Level)
    ensures multiset(entries) == multiset(Filter(first + second, keep))
  {
    entries := [];
    entries := entries + first;
    entries := entries + second;
    assert entries == first + second;
    entries := Filter(entries, keep);
    entries := SortBy(entries, Level);
  }

  /** The text an interpolated EditorID gives: null interpolates as nothing. */
  function IdText(id: Option<string>): string
  {
    if id.Some? then id.value else ""
  }

  /** `$"{copy.EditorID}Chunk_{i}"`. */
  function ChunkName(id: Option<string>, i: nat): string
  {
    IdText(id) + "Chunk_" + NatToString(i)
  }

  /** The i-th chunk record (i from 1): the name, FormVersion 44, the stamp, the copy's
      group and the chunk's entries; spell lists have no Global. */
  function ChunkRecord(fk: FormKey, copy: LeveledList, i: nat, chunk: seq<Entry>, stamp: int, group: Group): LeveledList
  {
    NewRecord(fk).(editorId := Some(ChunkName(copy.editorId, i)), formVersion := FormVersion,
                   versionControl := stamp, chanceNone := copy.chanceNone, flags := copy.flags,
                   global := if group.WithGlobal? then copy.global else None, entries := Some(chunk))
  }

  function ChunkRecords(chunks: seq<seq<Entry>>, key: ModKey, id: nat, copy: LeveledList, stamp: int, group: Group)
    : (r: seq<LeveledList>)
    ensures |r| == |chunks|
  {
    seq(|chunks|, i requires 0 <= i < |chunks| => ChunkRecord(FormKey(key, id + i), copy, i + 1, chunks[i], stamp, group))
  }

  /** The records the chunk loop adds to the patch: none for 255 entries or fewer. */
  function ChunksAdded(entries: seq<Entry>, key: ModKey, id: nat, copy: LeveledList, stamp: int, group: Group)
    : seq<LeveledList>
  {
    if |entries| > MaxEntries then ChunkRecords(Chunks(entries, MaxEntries), key, id, copy, stamp, group) else []
  }

  /** The copy's entries after the chunk loop: the arranged entries, or one link per
      chunk record when there are more than 255. */
  function Emitted(copy: LeveledList, entries: seq<Entry>, key: ModKey, id: nat): LeveledList
  {
    if |entries| > MaxEntries then copy.(entries := Some(Links(key, id, |Chunks(entries, MaxEntries)|)))
    else copy.(entries := Some(entries))
  }

  /** The chunk loop, or the plain copy of the entries. */
  method EmitChunks(entries: seq<Entry>, copy0: LeveledList, patch: PatchMod, stamp: int, group: Group)
    returns (copy: LeveledList)
    requires patch.Valid() && copy0.entries == Some([])
    modifies patch
    ensures patch.Valid() && patch.overrides == old(patch.overrides)
    ensures copy == Emitted(copy0, entries, patch.key, old(|patch.added|))
    ensures patch.added == old(patch.added) + ChunksAdded(entries, patch.key, old(|patch.added|), copy0, stamp, group)
  {
    if |entries| <= MaxEntries {
      return copy0.(entries := Some(entries));
    }
    ghost var id := |patch.added|;
    var chunks := Chunks(entries, MaxEntries);
    var links: seq<Entry> := [];
    var i := 1;
    var j := 0;
    while j < |chunks|
      invariant 0 <= j <= |chunks| && i == j + 1
      invariant patch.Valid() && patch.overrides == old(patch.overrides)
      invariant links == Links(patch.key, id, j)
      invariant patch.added == old(patch.added) + ChunkRecords(chunks[..j], patch.key, id, copy0, stamp, group)
    {
      var fk := patch.Add(ChunkRecord(FormKey(patch.key, 0), copy0, i, chunks[j], stamp, group));
      assert ChunkRecords(chunks[..j + 1], patch.key, id, copy0, stamp, group) ==
             ChunkRecords(chunks[..j], patch.key, id, copy0, stamp, group) + [ChunkRecord(fk, copy0, i, chunks[j], stamp, group)];
      links := links + [LinkEntry(fk)];
      i := i + 1;
      j := j + 1;
    }
    assert chunks[..j] == chunks;
    copy := copy0.(entries := Some(links));
  }

  /** The chunk records hold the arranged entries exactly, in order, at most 255 to a
      record, and the copy's links fit in one list exactly when there are at most
      255 * 255 entries. */
  lemma ChunksHoldEntries(entries: seq<Entry>)
    ensures Flatten(Chunks(entries, MaxEntries)) == entries
    ensures forall i :: 0 <= i < |Chunks(entries, MaxEntries)| ==> 0 < |Chunks(entries, MaxEntries)[i]| <= MaxEntries
    ensures |Chunks(entries, MaxEntries)| <= MaxEntries <==> |entries| <= MaxEntries * MaxEntries
  {
    ChunksFlatten(entries, MaxEntries);
    ChunksSizes(entries, MaxEntries);
    ChunksCount(entries, MaxEntries);
  }

  /** The outcome: no record when the copy equals the highest extent outside the
      version fields and the entries, and holds the same entries in any order. */
  function Verdict(copy: LeveledList, highest: LeveledList): Option<LeveledList>
  {
    if MaskedEqual(copy, highest) && SameUnsorted(copy.entries, highest.entries) then None else Some(copy)
  }

  /** The skip check: `copy.Equals(highest, mask) && UnsortedEqual(copy.Entries,
      highest.Entries)`. */
  method Decide(copy: LeveledList, highest: LeveledList) returns (r: Option<LeveledList>)
    ensures r.None? <==> MaskedEqual(copy, highest) && SameUnsorted(copy.entries, highest.entries)
    ensures r.Some? ==> r.value == copy
  {
    var same := false;
    if MaskedEqual(copy, highest) {
      same := UnsortedEqual(copy.entries, highest.entries);
    }
    if same {
      return None;
    }
    return Some(copy);
  }

  /** What follows the merge, for extent records `extents` (highest first) and the
      merged entries before filtering: scalars, arrangement, chunks, skip. */
  method Finish(extents: seq<LeveledList>, lowest: LeveledList, merged: seq<Entry>, keep: Entry -> bool, group: Group,
                patch: PatchMod, stamp: int, guid: string)
    returns (r: Option<LeveledList>, ghost entries: seq<Entry>)
    requires extents != [] && patch.Valid()
    modifies patch
    ensures patch.Valid() && patch.overrides == old(patch.overrides)
    ensures SortedBy(entries, Level) && multiset(entries) == multiset(Filter(merged, keep))
    ensures var copy := Resolved(Copied(extents[0], stamp), extents, lowest, guid, group);
      patch.added == old(patch.added) + ChunksAdded(entries, patch.key, old(|patch.added|), copy, stamp, group) &&
      r == Verdict(Emitted(copy, entries, patch.key, old(|patch.added|)), extents[0])
  {
    var copy := Copied(extents[0], stamp);
    copy := ResolveScalars(copy, extents, lowest, guid, group);
    var arranged := Arrange(merged, [], keep);
    assert merged + [] == merged;
    entries := arranged;
    copy := EmitChunks(arranged, copy, patch, stamp, group);
    r := Decide(copy, extents[0]);
  }

  /** `extentContexts[1..].Aggregate(first, (i, k) => i.IntersectWith(k.Record.Entries))`. */
  function IntersectFold(h: Helpers, acc: seq<Entry>, others: seq<Option<seq<Entry>>>): seq<Entry>
    decreases |others|
  {
    if others == [] then acc else IntersectFold(h, h.intersectWith(acc, others[0]), others[1..])
  }

  /** The kept part of the item and spell patchers: the lowest override's entries
      intersected with the fold over the extents. */
  function KeptWith(h: Helpers, lowest: LeveledList, extents: seq<LeveledList>): seq<Entry>
    requires extents != []
  {
    h.intersectWith(OrEmpty(lowest.entries), Some(IntersectFold(h, OrEmpty(extents[0].entries), EntriesOf(extents[1..]))))
  }

  /** With drawing helpers the kept part holds nothing the lowest override does not. */
  lemma KeptWithFromLowest(h: Helpers, lowest: LeveledList, extents: seq<LeveledList>)
    requires Drawn(h) && extents != []
    ensures multiset(KeptWith(h, lowest, extents)) <= multiset(OrEmpty(lowest.entries))
  {
  }

  /** The disjunction part: each extent's entries beyond the lowest override's and
      beyond what earlier extents contributed. */
  function Disjoint(lowest: LeveledList, extents: seq<LeveledList>): seq<Entry>
  {
    Disjunction(ListsOf(extents), multiset(OrEmpty(lowest.entries)))
  }

  /** How often the arranged entries hold a value: as often as the kept part does plus
      its largest excess over the lowest override in any one extent, or never when the
      filter drops it. */
  lemma MergeCounts(kept: seq<Entry>, lists: seq<seq<Entry>>, lowest: multiset<Entry>, keep: Entry -> bool, x: Entry)
    ensures multiset(Filter(kept + Disjunction(lists, lowest), keep))[x] ==
      if keep(x) then multiset(kept)[x] + MaxExcess(lists, lowest, x) else 0
  {
    DisjunctionCounts(lists, lowest, x);
    if keep(x) {
      FilterCountKept(kept + Disjunction(lists, lowest), keep, x);
    } else {
      assert x !in Filter(kept + Disjunction(lists, lowest), keep);
    }
  }

  /** The entries the RemoveEmptySublists setting keeps: without null entries and
      without links to empty or missing leveled lists, or without null entries only. */
  function KeepFor(removeEmptySublists: bool, cache: LinkCache): Entry -> bool
  {
    if removeEmptySublists then Keep(cache) else NotNull()
  }

  /** Whether a single extent's record needs its null entries stripped, and the
      stripped copy (`RemoveAll(IsNullEntry)` on a deep copy). */
  function StripNulls(winning: LeveledList): (r: Option<LeveledList>)
    ensures r.Some? <==> exists i :: 0 <= i < |OrEmpty(winning.entries)| && IsNullEntry(OrEmpty(winning.entries)[i])
    ensures r.Some? ==> (r.value.entries.Some? && r.value == winning.(entries := r.value.entries) &&
      (forall e :: e in r.value.entries.value <==> e in OrEmpty(winning.entries) && !IsNullEntry(e)) &&
      IsSubseq(r.value.entries.value, OrEmpty(winning.entries)) &&
      forall e :: !IsNullEntry(e) ==> multiset(r.value.entries.value)[e] == multiset(OrEmpty(winning.entries))[e])
  {
    var entries := OrEmpty(winning.entries);
    if exists i :: 0 <= i < |entries| && IsNullEntry(entries[i]) then
      FilterIsSubseq(entries, NotNull());
      SubseqMembers(Filter(entries, NotNull()), entries);
      assert forall e :: !IsNullEntry(e) ==> multiset(Filter(entries, NotNull()))[e] == multiset(entries)[e] by {
        forall e | !IsNullEntry(e) ensures multiset(Filter(entries, NotNull()))[e] == multiset(entries)[e] {
          FilterCountKept(entries, NotNull(), e);
        }
      }
      Some(winning.(entries := Some(Filter(entries, NotNull()))))
    else None
  }
}

=== FILE: record_patcher_item.dfy ===
/** The leveled item patcher of the resolver: the copy of the highest extent keeps the
    entries every extent and the lowest override share, adds what each extent holds
    beyond the lowest override, drops null entries, sorts by level and splits more
    than 255 entries into chunk records. */
module RecordPatcherItem {
  import opened Types
  import opened ListAlgebra
  import opened Utility
  import opened Unseen
  import opened Patch
  import opened RecordPatcher

  /** `Try` for the record whose contexts (highest priority first) are `contexts`;
      `listed` and `priority` are the load order's listed and priority order, `stamp`
      the version-control stamp and `guid` the GUID a blank EditorID receives. The
      result is `Ok(None)` for `return false` and `Ok(Some(copy))` for the setter. */
  method Try(contexts: seq<Context>, listed: seq<ModInfo>, priority: seq<ModInfo>, patch: PatchMod, h: Helpers,
             stamp: int, guid: string)
    returns (r: Result<Option<LeveledList>>, ghost entries: seq<Entry>)
    requires patch.Valid()
    modifies patch
    ensures patch.Valid() && patch.overrides == old(patch.overrides)
    ensures ExtentContexts(contexts, listed).Fail? ==>
      r == Fail(ExtentContexts(contexts, listed).error) && patch.added == old(patch.added)
    ensures ExtentContexts(contexts, listed).Ok? && |ExtentContexts(contexts, listed).value| < 2 ==>
      r == Ok(None) && patch.added == old(patch.added)
    ensures ExtentContexts(contexts, listed).Ok? && |ExtentContexts(contexts, listed).value| >= 2 ==> (
      var extents := RecordsOf(ExtentContexts(contexts, listed).value);
      LowestOverride(contexts, priority).Ok? &&
      var lowest := LowestOverride(contexts, priority).value;
      SortedBy(entries, Level) &&
      multiset(entries) == multiset(Filter(KeptWith(h, lowest, extents) + Disjoint(lowest, extents), NotNull())) &&
      var copy := Resolved(Copied(extents[0], stamp), extents, lowest, guid, WithGlobal);
      patch.added == old(patch.added) + ChunksAdded(entries, patch.key, old(|patch.added|), copy, stamp, WithGlobal) &&
      r == Ok(Verdict(Emitted(copy, entries, patch.key, old(|patch.added|)), extents[0])))
  {
    entries := [];
    var found := GetExtentContexts(contexts, listed);
    if found.Fail? {
      return Fail(found.error), entries;
    }
    var extentContexts := found.value;
    if |extentContexts| < 2 {
      return Ok(None), entries;
    }
    var extents := RecordsOf(extentContexts);
    var lowest := GetLowestOverride(contexts, priority);
    if lowest.Fail? {
      assert false;
    }
    var kept := KeptWith(h, lowest.value, extents);
    var disjunction := Disjoint(lowest.value, extents);
    var o;
    o, entries := Finish(extents, lowest.value, kept + disjunction, NotNull(), WithGlobal, patch, stamp, guid);
    r := Ok(o);
  }
}

=== FILE: record_patcher_npc.dfy ===
/** The leveled NPC patcher of the resolver. It differs from the item patcher in three
    places: a record with a single extent is returned without its null entries when it
    has any, the kept part is the intersection of the lowest override's entries with
    every extent's (and nothing when any of those lists is empty), and the entry filter
    follows the RemoveEmptySublists setting. */
module RecordPatcherNpc {
  import opened Types
  import opened ListAlgebra
  import opened Utility
  import opened Patch
  import opened RecordPatcher

  /** The guard of the intersection: the lowest override and every extent hold entries. */
  predicate AllHoldEntries(lowest: LeveledList, extents: seq<LeveledList>)
  {
    OrEmpty(lowest.entries) != [] && forall i :: 0 <= i < |extents| ==> OrEmpty(extents[i].entries) != []
  }

  /** The kept part: `extentContexts.Aggregate(lowest.Entries, IntersectExt)` under the
      guard. */
  function Kept(lowest: LeveledList, extents: seq<LeveledList>): seq<Entry>
  {
    if AllHoldEntries(lowest, extents) then IntersectAll(OrEmpty(lowest.entries), ListsOf(extents)) else []
  }

  /** The kept part holds each entry as often as the list holding it least often among
      the lowest override and the extents, and keeps the lowest override's order. */
  lemma KeptCounts(lowest: LeveledList, extents: seq<LeveledList>, x: Entry)
    requires AllHoldEntries(lowest, extents)
    ensures multiset(Kept(lowest, extents))[x] <= multiset(OrEmpty(lowest.entries))[x]
    ensures forall k :: 0 <= k < |extents| ==> multiset(Kept(lowest, extents))[x] <= multiset(OrEmpty(extents[k].entries))[x]
    ensures multiset(Kept(lowest, extents))[x] == multiset(OrEmpty(lowest.entries))[x] ||
      exists k :: 0 <= k < |extents| && multiset(Kept(lowest, extents))[x] == multiset(OrEmpty(extents[k].entries))[x]
    ensures IsSubseq(Kept(lowest, extents), OrEmpty(lowest.entries))
  {
    var lists := ListsOf(extents);
    IntersectAllCounts(OrEmpty(lowest.entries), lists, x);
    MinCountIsMinimum(multiset(OrEmpty(lowest.entries))[x], lists, x);
    IntersectAllIsSubseq(OrEmpty(lowest.entries), lists);
  }

  /** The aggregate, one IntersectExt per extent. */
  method IntersectExtents(lowest: seq<Entry>, extents: seq<LeveledList>) returns (acc: seq<Entry>)
    ensures acc == IntersectAll(lowest, ListsOf(extents))
  {
    var lists := ListsOf(extents);
    acc := lowest;
    var k := 0;
    while k < |extents|
      invariant 0 <= k <= |extents|
      invariant IntersectAll(acc, lists[k..]) == IntersectAll(lowest, lists)
    {
      assert lists[k..][1..] == lists[k + 1..];
      acc := IntersectExt(acc, extents[k].entries);
      k := k + 1;
    }
  }

  /** `Try`; `removeEmptySublists` is the setting and `cache` the link cache that
      resolves sublists. A record without extent contexts fails at the index. */
  method Try(contexts: seq<Context>, listed: seq<ModInfo>, priority: seq<ModInfo>, patch: PatchMod,
             cache: LinkCache, removeEmptySublists: bool, stamp: int, guid: string)
    returns (r: Result<Option<LeveledList>>, ghost entries: seq<Entry>)
    requires patch.Valid()
    modifies patch
    ensures patch.Valid() && patch.overrides == old(patch.overrides)
    ensures ExtentContexts(contexts, listed).Fail? ==>
      r == Fail(ExtentContexts(contexts, listed).error) && patch.added == old(patch.added)
    ensures ExtentContexts(contexts, listed).Ok? && |ExtentContexts(contexts, listed).value| == 0 ==>
      r == Fail(IndexOutOfRange) && patch.added == old(patch.added)
    ensures ExtentContexts(contexts, listed).Ok? && |ExtentContexts(contexts, listed).value| == 1 ==>
      r == Ok(StripNulls(ExtentContexts(contexts, listed).value[0].record)) && patch.added == old(patch.added)
    ensures ExtentContexts(contexts, listed).Ok? && |ExtentContexts(contexts, listed).value| >= 2 ==> (
      var extents := RecordsOf(ExtentContexts(contexts, listed).value);
      LowestOverride(contexts, priority).Ok? &&
      var lowest := LowestOverride(contexts, priority).value;
      SortedBy(entries, Level) &&
      multiset(entries) == multiset(Filter(Kept(lowest, extents) + Disjoint(lowest, extents),
                                           KeepFor(removeEmptySublists, cache))) &&
      var copy := Resolved(Copied(extents[0], stamp), extents, lowest, guid, WithGlobal);
      patch.added == old(patch.added) + ChunksAdded(entries, patch.key, old(|patch.added|), copy, stamp, WithGlobal) &&
      r == Ok(Verdict(Emitted(copy, entries, patch.key, old(|patch.added|)), extents[0])))
  {
    entries := [];
    var found := GetExtentContexts(contexts, listed);
    if found.Fail? {
      return Fail(found.error), entries;
    }
    var extentContexts := found.value;
    if |extentContexts| < 2 {
      if |extentContexts| == 0 {
        return Fail(IndexOutOfRange), entries;
      }
      return Ok(StripNulls(extentContexts[0].record)), entries;
    }
    var extents := RecordsOf(extentContexts);
    var lowest := GetLowestOverride(contexts, priority);
    if lowest.Fail? {
      assert false;
    }
    var kept := [];
    if AllHoldEntries(lowest.value, extents) {
      kept := IntersectExtents(OrEmpty(lowest.value.entries), extents);
    }
    var disjunction := Disjoint(lowest.value, extents);
    var o;
    o, entries := Finish(extents, lowest.value, kept + disjunction, KeepFor(removeEmptySublists, cache), WithGlobal,
                         patch, stamp, guid);
    r := Ok(o);
  }
}

=== FILE: record_patcher_spell.dfy ===
/** The leveled spell patcher of the resolver: the item patcher's merge with the NPC
    patcher's single-extent branch and entry filter; the group that moves is ChanceNone
    and Flags (spell lists have no Global). */
module RecordPatcherSpell {
  import opened Types
  import opened ListAlgebra
  import opened Utility
  import opened Unseen
  import opened Patch
  import opened RecordPatcher

  /** `Try`; the parameters are those of the item and NPC patchers. */
  method Try(contexts: seq<Context>, listed: seq<ModInfo>, priority: seq<ModInfo>, patch: PatchMod, h: Helpers,
             cache: LinkCache, removeEmptySublists: bool, stamp: int, guid: string)
    returns (r: Result<Option<LeveledList>>, ghost entries: seq<Entry>)
    requires patch.Valid()
    modifies patch
    ensures patch.Valid() && patch.overrides == old(patch.overrides)
    ensures ExtentContexts(contexts, listed).Fail? ==>
      r == Fail(ExtentContexts(contexts, listed).error) && patch.added == old(patch.added)
    ensures ExtentContexts(contexts, listed).Ok? && |ExtentContexts(contexts, listed).value| == 0 ==>
      r == Fail(IndexOutOfRange) && patch.added == old(patch.added)
    ensures ExtentContexts(contexts, listed).Ok? && |ExtentContexts(contexts, listed).value| == 1 ==>
      r == Ok(StripNulls(ExtentContexts(contexts, listed).value[0].record)) && patch.added == old(patch.added)
    ensures ExtentContexts(contexts, listed).Ok? && |ExtentContexts(contexts, listed).value| >= 2 ==> (
      var extents := RecordsOf(ExtentContexts(contexts, listed).value);
      LowestOverride(contexts, priority).Ok? &&
      var lowest := LowestOverride(contexts, priority).value;
      SortedBy(entries, Level) &&
      multiset(entries) == multiset(Filter(KeptWith(h, lowest, extents) + Disjoint(lowest, extents),
                                           KeepFor(removeEmptySublists, cache))) &&
      var copy := Resolved(Copied(extents[0], stamp), extents, lowest, guid, ChanceAndFlags);
      patch.added == old(patch.added) + ChunksAdded(entries, patch.key, old(|patch.added|), copy, stamp, ChanceAndFlags) &&
      r == Ok(Verdict(Emitted(copy, entries, patch.key, old(|patch.added|)), extents[0])))
  {
    entries := [];
    var found := GetExtentContexts(contexts, listed);
    if found.Fail? {
      return Fail(found.error), entries;
    }
    var extentContexts := found.value;
    if |extentContexts| < 2 {
      if |extentContexts| == 0 {
        return Fail(IndexOutOfRange), entries;
      }
      return Ok(StripNulls(extentContexts[0].record)), entries;
    }
    var extents := RecordsOf(extentContexts);
    var lowest := GetLowestOverride(contexts, priority);
    if lowest.Fail? {
      assert false;
    }
    var kept := KeptWith(h, lowest.value, extents);
    var disjunction := Disjoint(lowest.value, extents);
    var o;
    o, entries := Finish(extents, lowest.value, kept + disjunction, KeepFor(removeEmptySublists, cache), ChanceAndFlags,
                         patch, stamp, guid);
    r := Ok(o);
  }
}

=== FILE: resolver_item_graph.dfy ===
/** LeveledItemGraph of the resolver: `GetEntries`, which yields added then common
    entries, at most 254 of them directly, and moves the rest into a chain of sublist
    records in the patch. Its scalar getters are those of Scalars. */
module ResolverItemGraph {
  import opened Types
  import opened ListAlgebra
  import opened Utility
  import opened Scalars
  import opened GraphBase
  import opened Unseen
  import opened Patch

  /** The most entries a leveled list can hold. */
  const MaxEntries := 255
  /** How many entries GetEntries yields before the rest go to a sublist. */
  const YieldCap := 254

  /** What has been yielded once a stream has been produced: its first 254 entries. */
  function Yielded(stream: seq<Entry>): seq<Entry>
  {
    stream[..Min(YieldCap, |stream|)]
  }

  /** The added entries produced from the first n extent lists: each list minus the
      ExtentBase entries minus what had been yielded before it, without null or empty
      sublist entries. */
  function AddedStream(h: Helpers, lists: seq<seq<Entry>>, baseEntries: seq<Entry>, cache: LinkCache, n: nat): seq<Entry>
    requires n <= |lists|
  {
    if n == 0 then []
    else
      var prev := AddedStream(h, lists, baseEntries, cache, n - 1);
      prev + Filter(h.without(h.without(lists[n - 1], baseEntries), Yielded(prev)), Keep(cache))
  }

  /** The common entries: the ExtentBase entries intersected (FindAll + List.Remove)
      with every extent list, in base order, without null or empty sublists. */
  function CommonItems(baseEntries: seq<Entry>, lists: seq<seq<Entry>>, cache: LinkCache): seq<Entry>
  {
    Filter(IntersectAll(baseEntries, lists), Keep(cache))
  }

  /** Everything GetEntries produces, before the cap: added entries, then common ones. */
  function EntryStream(h: Helpers, lists: seq<seq<Entry>>, baseEntries: seq<Entry>, cache: LinkCache): seq<Entry>
  {
    AddedStream(h, lists, baseEntries, cache, |lists|) + CommonItems(baseEntries, lists, cache)
  }

  /** No entry of the stream is null or a link to an empty sublist. */
  lemma {:induction false} AddedStreamKept(h: Helpers, lists: seq<seq<Entry>>, baseEntries: seq<Entry>, cache: LinkCache, n: nat)
    requires n <= |lists|
    ensures forall e :: e in AddedStream(h, lists, baseEntries, cache, n) ==> !IsNullOrEmptySublist(e, cache)
  {
    if n > 0 {
      AddedStreamKept(h, lists, baseEntries, cache, n - 1);
    }
  }

  lemma StreamKept(h: Helpers, lists: seq<seq<Entry>>, baseEntries: seq<Entry>, cache: LinkCache)
    ensures forall e :: e in EntryStream(h, lists, baseEntries, cache) ==> !IsNullOrEmptySublist(e, cache)
  {
    AddedStreamKept(h, lists, baseEntries, cache, |lists|);
  }

  /** With helpers that draw from their first argument, every added entry occurs in
      some extent list. */
  lemma {:induction false} AddedFromExtents(h: Helpers, lists: seq<seq<Entry>>, baseEntries: seq<Entry>, cache: LinkCache, n: nat)
    requires Drawn(h) && n <= |lists|
    ensures forall e :: e in AddedStream(h, lists, baseEntries, cache, n) ==> exists k :: 0 <= k < n && e in lists[k]
  {
    if n > 0 {
      AddedFromExtents(h, lists, baseEntries, cache, n - 1);
      var prev := AddedStream(h, lists, baseEntries, cache, n - 1);
      var inner := h.without(lists[n - 1], baseEntries);
      var outer := h.without(inner, Yielded(prev));
      assert multiset(outer) <= multiset(inner) <= multiset(lists[n - 1]);
      forall e | e in AddedStream(h, lists, baseEntries, cache, n) ensures exists k :: 0 <= k < n && e in lists[k] {
        if e !in prev {
          assert e in Filter(outer, Keep(cache));
          assert e in multiset(outer);
          assert e in lists[n - 1];
        }
      }
    }
  }

  /** The common entries keep ExtentBase order, and hold each entry as often as the
      base and every extent list all hold it, less null and empty sublists. */
  lemma CommonFromBase(baseEntries: seq<Entry>, lists: seq<seq<Entry>>, cache: LinkCache, e: Entry)
    ensures IsSubseq(CommonItems(baseEntries, lists, cache), baseEntries)
    ensures !IsNullOrEmptySublist(e, cache) ==>
      multiset(CommonItems(baseEntries, lists, cache))[e] == MinCount(multiset(baseEntries)[e], lists, e)
  {
    var all := IntersectAll(baseEntries, lists);
    IntersectAllIsSubseq(baseEntries, lists);
    FilterIsSubseq(all, Keep(cache));
    SubseqTrans(Filter(all, Keep(cache)), all, baseEntries);
    IntersectAllCounts(baseEntries, lists, e);
    if !IsNullOrEmptySublist(e, cache) {
      FilterCountKept(all, Keep(cache), e);
    }
  }

  function SublistName(editorId: string, depth: nat): string
  {
    "Mir_" + editorId + "_Sublist_" + NatToString(depth)
  }

  /** A sublist record as `_` fills it in: name, entries, the resolved Flags and
      Global; every other field keeps its default. */
  function SublistRecord(fk: FormKey, editorId: string, depth: nat, entries: seq<Entry>,
                         flags: int, global: Option<FormKey>): LeveledList
  {
    NewRecord(fk).(editorId := Some(SublistName(editorId, depth)), entries := Some(entries), flags := flags, global := global)
  }

  /** The sublist records for `items`, created from local id `id` on: over 255 items,
      the first 254 and a link to the chain of the remaining ones. */
  function Chain(items: seq<Entry>, depth: nat, key: ModKey, id: nat, editorId: string,
                 flags: int, global: Option<FormKey>): seq<LeveledList>
    decreases |items|
  {
    if |items| > MaxEntries then
      [SublistRecord(FormKey(key, id), editorId, depth, items[..YieldCap] + [LinkEntry(FormKey(key, id + 1))], flags, global)] +
      Chain(items[YieldCap..], depth + 1, key, id + 1, editorId, flags, global)
    else
      [SublistRecord(FormKey(key, id), editorId, depth, items, flags, global)]
  }

  /** The split as the code writes it: `items[0..254]` and `items[255..]`. */
  function ChainAsWritten(items: seq<Entry>, depth: nat, key: ModKey, id: nat, editorId: string,
                          flags: int, global: Option<FormKey>): seq<LeveledList>
    decreases |items|
  {
    if |items| > MaxEntries then
      [SublistRecord(FormKey(key, id), editorId, depth, items[..YieldCap] + [LinkEntry(FormKey(key, id + 1))], flags, global)] +
      ChainAsWritten(items[MaxEntries..], depth + 1, key, id + 1, editorId, flags, global)
    else
      [SublistRecord(FormKey(key, id), editorId, depth, items, flags, global)]
  }

  /** Reading a chain of sublists back: each record's entries, its trailing link
      replaced by what the next record holds. */
  function Expand(chain: seq<LeveledList>): seq<Entry>
  {
    if chain == [] then []
    else if |chain| == 1 then OrEmpty(chain[0].entries)
    else
      var e := OrEmpty(chain[0].entries);
      (if e == [] then [] else e[..|e| - 1]) + Expand(chain[1..])
  }

  /** Records with consecutive FormKeys from `id`, each of at most 255 entries, each
      but the last ending with a link to the next. */
  predicate Linked(chain: seq<LeveledList>, key: ModKey, id: nat)
  {
    chain != [] &&
    (forall i :: 0 <= i < |chain| ==>
      chain[i].formKey == FormKey(key, id + i) && chain[i].entries.Some? && |chain[i].entries.value| <= MaxEntries) &&
    (forall i :: 0 <= i < |chain| - 1 ==>
      chain[i].entries.Some? && chain[i].entries.value != [] &&
      chain[i].entries.value[|chain[i].entries.value| - 1] == LinkEntry(FormKey(key, id + i + 1)))
  }

  /** The chain holds every item exactly once, in order, and no record exceeds the
      limit. */
  lemma {:induction false} ChainKeepsItems(items: seq<Entry>, depth: nat, key: ModKey, id: nat, editorId: string,
                                           flags: int, global: Option<FormKey>)
    ensures Linked(Chain(items, depth, key, id, editorId, flags, global), key, id)
    ensures Expand(Chain(items, depth, key, id, editorId, flags, global)) == items
    decreases |items|
  {
    var chain := Chain(items, depth, key, id, editorId, flags, global);
    if |items| > MaxEntries {
      var rest := Chain(items[YieldCap..], depth + 1, key, id + 1, editorId, flags, global);
      ChainKeepsItems(items[YieldCap..], depth + 1, key, id + 1, editorId, flags, global);
      assert chain == [chain[0]] + rest;
      assert chain[1..] == rest;
      var e := items[..YieldCap] + [LinkEntry(FormKey(key, id + 1))];
      assert OrEmpty(chain[0].entries) == e;
      assert e[..|e| - 1] == items[..YieldCap];
      assert items[..YieldCap] + items[YieldCap..] == items;
      LinkedCons(chain[0], rest, key, id);
    }
  }

  /** A record with the next FormKey and a trailing link to a linked chain extends
      it. */
  lemma LinkedCons(head: LeveledList, rest: seq<LeveledList>, key: ModKey, id: nat)
    requires Linked(rest, key, id + 1)
    requires head.formKey == FormKey(key, id) && head.entries.Some? && |head.entries.value| <= MaxEntries
    requires head.entries.value != [] &&
      head.entries.value[|head.entries.value| - 1] == LinkEntry(FormKey(key, id + 1))
    ensures Linked([head] + rest, key, id)
  {
    var chain := [head] + rest;
    forall i | 0 < i < |chain|
      ensures chain[i] == rest[i - 1]
    {
    }
  }

  /** As written the chain is still linked and no record exceeds the limit, but it
      reads back one item short for every link it holds. */
  lemma {:induction false} ChainAsWrittenLinked(items: seq<Entry>, depth: nat, key: ModKey, id: nat, editorId: string,
                                                flags: int, global: Option<FormKey>)
    ensures Linked(ChainAsWritten(items, depth, key, id, editorId, flags, global), key, id)
    ensures |Expand(ChainAsWritten(items, depth, key, id, editorId, flags, global))| ==
      |items| - (|ChainAsWritten(items, depth, key, id, editorId, flags, global)| - 1)
    decreases |items|
  {
    var chain := ChainAsWritten(items, depth, key, id, editorId, flags, global);
    if |items| > MaxEntries {
      var rest := ChainAsWritten(items[MaxEntries..], depth + 1, key, id + 1, editorId, flags, global);
      ChainAsWrittenLinked(items[MaxEntries..], depth + 1, key, id + 1, editorId, flags, global);
      assert chain == [chain[0]] + rest;
      assert chain[1..] == rest;
      var e := items[..YieldCap] + [LinkEntry(FormKey(key, id + 1))];
      assert OrEmpty(chain[0].entries) == e;
      assert e[..|e| - 1] == items[..YieldCap];
      LinkedCons(chain[0], rest, key, id);
    }
  }

  /** As written, a list of 256 to 510 items loses the item at index 254: the chain
      reads back one entry short. */
  lemma ChainAsWrittenDropsItem(items: seq<Entry>, depth: nat, key: ModKey, id: nat, editorId: string,
                                flags: int, global: Option<FormKey>)
    requires MaxEntries < |items| <= 2 * MaxEntries
    ensures Expand(ChainAsWritten(items, depth, key, id, editorId, flags, global)) == items[..YieldCap] + items[MaxEntries..]
    ensures |Expand(ChainAsWritten(items, depth, key, id, editorId, flags, global))| == |items| - 1
  {
    var chain := ChainAsWritten(items, depth, key, id, editorId, flags, global);
    var rest := ChainAsWritten(items[MaxEntries..], depth + 1, key, id + 1, editorId, flags, global);
    assert chain == [chain[0]] + rest && |rest| == 1;
    assert chain[1..] == rest;
    var e := items[..YieldCap] + [LinkEntry(FormKey(key, id + 1))];
    assert e[..|e| - 1] == items[..YieldCap];
  }

  /** The helper `_`: a new patch record for `items` at this depth, built after the
      deeper sublists it links to, and a Level 1 / Count 1 link to it. Over 255 items
      the record keeps `items[0..254]` and the deeper sublists get `items[255..]`, so
      the item at index 254 is lost (see ChainAsWrittenDropsItem). */
  method Sublist(items: seq<Entry>, depth: nat, patch: PatchMod, editorId: string, flags: int, global: Option<FormKey>)
    returns (link: Entry)
    requires patch.Valid()
    modifies patch
    ensures patch.Valid() && patch.overrides == old(patch.overrides)
    ensures link == LinkEntry(FormKey(patch.key, old(|patch.added|)))
    ensures patch.added == old(patch.added) + ChainAsWritten(items, depth, patch.key, old(|patch.added|), editorId, flags, global)
    decreases |items|
  {
    ghost var before := patch.added;
    var fk := patch.AddNew();
    var entries := items;
    ghost var rest: seq<LeveledList> := [];
    if |items| > MaxEntries {
      var inner := Sublist(items[MaxEntries..], depth + 1, patch, editorId, flags, global);
      entries := items[..YieldCap] + [inner];
      rest := ChainAsWritten(items[MaxEntries..], depth + 1, patch.key, |before| + 1, editorId, flags, global);
    }
    assert patch.added == before + [NewRecord(fk)] + rest;
    var record := SublistRecord(fk, editorId, depth, entries, flags, global);
    ChainAsWrittenHead(items, depth, patch.key, |before|, editorId, flags, global);
    patch.Put(record);
    ReplaceAfter(before, NewRecord(fk), record, rest);
    link := LinkEntry(fk);
  }

  /** The first record of a chain as written and the chain that follows it. */
  lemma ChainAsWrittenHead(items: seq<Entry>, depth: nat, key: ModKey, id: nat, editorId: string,
                           flags: int, global: Option<FormKey>)
    ensures |items| > MaxEntries ==>
      ChainAsWritten(items, depth, key, id, editorId, flags, global) ==
        [SublistRecord(FormKey(key, id), editorId, depth, items[..YieldCap] + [LinkEntry(FormKey(key, id + 1))], flags, global)] +
        ChainAsWritten(items[MaxEntries..], depth + 1, key, id + 1, editorId, flags, global)
    ensures |items| <= MaxEntries ==>
      ChainAsWritten(items, depth, key, id, editorId, flags, global) == [SublistRecord(FormKey(key, id), editorId, depth, items, flags, global)]
  {
  }

  /** Replacing the element that follows `before`. */
  lemma ReplaceAfter<T>(before: seq<T>, x: T, y: T, rest: seq<T>)
    ensures (before + [x] + rest)[|before| := y] == before + [y] + rest
  {
    assert forall i :: 0 <= i < |before| ==> (before + [x] + rest)[|before| := y][i] == before[i];
  }

  /** At most 254 yielded entries, and overflow only once that many are yielded. */
  predicate Capped(yielded: seq<Entry>, extra: seq<Entry>)
  {
    |yielded| <= YieldCap && (|yielded| < YieldCap ==> extra == [])
  }

  lemma CappedSplit(yielded: seq<Entry>, extra: seq<Entry>)
    requires Capped(yielded, extra)
    ensures Yielded(yielded + extra) == yielded
    ensures (yielded + extra)[|yielded|..] == extra
  {
    assert (yielded + extra)[..|yielded|] == yielded;
  }

  /** One entry more: yielded while fewer than 254 are, else set aside. */
  method Route(yielded: seq<Entry>, extra: seq<Entry>, item: Entry) returns (yielded': seq<Entry>, extra': seq<Entry>)
    requires Capped(yielded, extra)
    ensures Capped(yielded', extra') && yielded' + extra' == yielded + extra + [item]
  {
    if |yielded| < YieldCap {
      yielded', extra' := yielded + [item], extra;
    } else {
      yielded', extra' := yielded, extra + [item];
    }
  }

  /** Each of `items` in turn, through Route. */
  method RouteAll(yielded: seq<Entry>, extra: seq<Entry>, items: seq<Entry>) returns (yielded': seq<Entry>, extra': seq<Entry>)
    requires Capped(yielded, extra)
    ensures Capped(yielded', extra') && yielded' + extra' == yielded + extra + items
  {
    yielded', extra' := yielded, extra;
    var j := 0;
    while j < |items|
      invariant 0 <= j <= |items|
      invariant yielded' + extra' == yielded + extra + items[..j]
      invariant Capped(yielded', extra')
    {
      assert items[..j + 1] == items[..j] + [items[j]];
      yielded', extra' := Route(yielded', extra', items[j]);
      j := j + 1;
    }
    assert items[..j] == items;
  }

  /** `GetEntries`. `extentOrder` enumerates ExtentRecords; `editorId`, `flags` and
      `global` are what GetEditorID, GetFlags and GetGlobal return. The result has at
      most 255 entries: the first 254 of the stream and, when more remain, a link to
      the sublist chain built from them as written, where each sublist over 255 items
      loses its item at index 254. */
  method GetEntries(g: RecordGraph, extentOrder: seq<LeveledList>, cache: LinkCache, h: Helpers, patch: PatchMod,
                    editorId: string, flags: int, global: Option<FormKey>) returns (entries: seq<Entry>)
    requires Enumerates(extentOrder, g.extentRecords)
    requires patch.Valid()
    modifies patch
    ensures patch.Valid() && patch.overrides == old(patch.overrides)
    ensures |extentOrder| == 1 ==> entries == OrEmpty(extentOrder[0].entries) && patch.added == old(patch.added)
    ensures |extentOrder| != 1 ==> (
      var s := EntryStream(h, ListsOf(extentOrder), OrEmpty(g.extentBase.entries), cache);
      |entries| <= MaxEntries &&
      (|s| <= YieldCap ==> entries == s && patch.added == old(patch.added)) &&
      (|s| > YieldCap ==>
         entries == s[..YieldCap] + [LinkEntry(FormKey(patch.key, old(|patch.added|)))] &&
         patch.added == old(patch.added) + ChainAsWritten(s[YieldCap..], 1, patch.key, old(|patch.added|), editorId, flags, global)))
  {
    if |extentOrder| == 1 {
      return OrEmpty(extentOrder[0].entries);
    }
    var baseEntries := OrEmpty(g.extentBase.entries);
    var lists := ListsOf(extentOrder);
    var yielded, extra := AddedEntries(h, lists, baseEntries, cache);
    var common := CommonItems(baseEntries, lists, cache);
    yielded, extra := RouteAll(yielded, extra, common);
    ghost var s := yielded + extra;
    CappedSplit(yielded, extra);
    if extra != [] {
      var link := Sublist(extra, 1, patch, editorId, flags, global);
      entries := yielded + [link];
    } else {
      entries := yielded;
    }
  }

  /** The inner loop over one list's candidates: those that are neither null nor an
      empty sublist, each in turn through Route. */
  method RouteKept(yielded: seq<Entry>, extra: seq<Entry>, candidates: seq<Entry>, cache: LinkCache)
    returns (yielded': seq<Entry>, extra': seq<Entry>)
    requires Capped(yielded, extra)
    ensures Capped(yielded', extra') && yielded' + extra' == yielded + extra + Filter(candidates, Keep(cache))
  {
    yielded', extra' := yielded, extra;
    var j := 0;
    while j < |candidates|
      invariant 0 <= j <= |candidates|
      invariant yielded' + extra' == yielded + extra + Filter(candidates[..j], Keep(cache))
      invariant Capped(yielded', extra')
    {
      var item := candidates[j];
      FilterSnoc(candidates[..j], item, Keep(cache));
      assert candidates[..j + 1] == candidates[..j] + [item];
      if !IsNullOrEmptySublist(item, cache) {
        yielded', extra' := Route(yielded', extra', item);
      }
      j := j + 1;
    }
    assert candidates[..j] == candidates;
  }

  /** The first loop of GetEntries: each extent list minus the base entries minus the
      entries yielded before it, routed past the cap. */
  method AddedEntries(h: Helpers, lists: seq<seq<Entry>>, baseEntries: seq<Entry>, cache: LinkCache)
    returns (yielded: seq<Entry>, extra: seq<Entry>)
    ensures Capped(yielded, extra)
    ensures yielded + extra == AddedStream(h, lists, baseEntries, cache, |lists|)
  {
    yielded, extra := [], [];
    var k := 0;
    while k < |lists|
      invariant 0 <= k <= |lists|
      invariant yielded + extra == AddedStream(h, lists, baseEntries, cache, k)
      invariant Capped(yielded, extra)
    {
      CappedSplit(yielded, extra);
      var candidates := h.without(h.without(lists[k], baseEntries), yielded);
      yielded, extra := RouteKept(yielded, extra, candidates, cache);
      k := k + 1;
    }
  }
}

=== FILE: resolver_npc_graph.dfy ===
/** LeveledNpcGraph of the resolver: a graph over the defining plugins plus
    ModKey.Null in which each plugin hangs off the plugins among its masters that also
    define the record, pruned so that no child set holds a node together with one of
    that node's children; the extent records are those of the nodes without children
    (or with the patch as a child). */
module ResolverNpcGraph {
  import opened Types
  import opened ListAlgebra
  import opened Utility
  import opened Paths
  import opened GraphBase
  import opened Unseen
  import opened OverrideGraph

  /** The state the constructor leaves behind. */
  datatype NpcGraph = NpcGraph(
    base: LeveledList,
    records: map<ModKey, LeveledList>,
    modKeys: set<ModKey>,
    graph: Graph,
    extentRecords: set<LeveledList>)

  /** The graph holds exactly the nodes and edges the linking loop creates for the
      first n plugins of `mods`: an edge k -> m for each such plugin m and every k it
      hangs off. */
  ghost predicate Hung(graph: Graph, modKeys: set<ModKey>, mods: seq<ModInfo>, n: nat)
    requires n <= |mods|
  {
    graph.Keys == modKeys + {NullKey} &&
    forall k, c :: k in graph ==>
      (c in graph[k] <==> exists j :: 0 <= j < n && mods[j].key == c && k in Parents(mods[j], modKeys))
  }

  /** Every edge of the graph is one the linking loop created. */
  ghost predicate Within(graph: Graph, modKeys: set<ModKey>, mods: seq<ModInfo>)
  {
    forall k, c :: k in graph && c in graph[k] ==>
      exists j :: 0 <= j < |mods| && mods[j].key == c && k in Parents(mods[j], modKeys)
  }

  /** The linking loop over the enabled defining plugins in priority order, starting
      from an empty child set for every defining plugin and for ModKey.Null. */
  method HangAll(modKeys: set<ModKey>, mods: seq<ModInfo>) returns (graph: Graph)
    ensures Hung(graph, modKeys, mods, |mods|)
  {
    graph := map k | k in modKeys + {NullKey} :: {};
    var i := 0;
    while i < |mods|
      invariant 0 <= i <= |mods|
      invariant Hung(graph, modKeys, mods, i)
    {
      var prev := graph;
      graph := HangUnder(graph, Parents(mods[i], modKeys), mods[i].key);
      HungStep(prev, graph, modKeys, mods, i);
      i := i + 1;
    }
  }

  /** Hanging one more plugin under its parents extends the loop's graph by it. */
  lemma HungStep(prev: Graph, graph: Graph, modKeys: set<ModKey>, mods: seq<ModInfo>, n: nat)
    requires n < |mods| && Hung(prev, modKeys, mods, n)
    requires graph.Keys == prev.Keys
    requires forall k :: k in graph ==> graph[k] == if k in Parents(mods[n], modKeys) then prev[k] + {mods[n].key} else prev[k]
    ensures Hung(graph, modKeys, mods, n + 1)
  {
    forall k, c | k in graph
      ensures c in graph[k] <==> exists j :: 0 <= j < n + 1 && mods[j].key == c && k in Parents(mods[j], modKeys)
    {
      HungEdge(prev, graph, modKeys, mods, n, k, c);
    }
  }

  /** The same for one pair of nodes. */
  lemma HungEdge(prev: Graph, graph: Graph, modKeys: set<ModKey>, mods: seq<ModInfo>, n: nat, k: ModKey, c: ModKey)
    requires n < |mods| && Hung(prev, modKeys, mods, n) && k in prev
    requires k in graph && graph[k] == if k in Parents(mods[n], modKeys) then prev[k] + {mods[n].key} else prev[k]
    ensures c in graph[k] <==> exists j :: 0 <= j < n + 1 && mods[j].key == c && k in Parents(mods[j], modKeys)
  {
    if c in graph[k] {
      if c in prev[k] {
        var j :| 0 <= j < n && mods[j].key == c && k in Parents(mods[j], modKeys);
        assert 0 <= j < n + 1;
      } else {
        assert mods[n].key == c && k in Parents(mods[n], modKeys);
      }
    } else {
      assert c !in prev[k];
      assert !exists j :: 0 <= j < n && mods[j].key == c && k in Parents(mods[j], modKeys);
    }
  }

  /** The nodes that are extents: no children, or the patch among the children. */
  function ExtentKeys(graph: Graph, patchKey: ModKey): (r: set<ModKey>)
    ensures forall k :: k in r <==> k in graph && (graph[k] == {} || patchKey in graph[k])
  {
    set k | k in graph && (graph[k] == {} || patchKey in graph[k])
  }

  /** `ExtentRecords`: the records of the extent nodes; ModKey.Null has no record, so
      the dictionary lookup fails when it is an extent. */
  function ExtentRecordsOf(graph: Graph, records: map<ModKey, LeveledList>, patchKey: ModKey): (r: Result<set<LeveledList>>)
    requires forall k :: k in graph && k != NullKey ==> k in records
    ensures r.Fail? <==> NullKey in ExtentKeys(graph, patchKey)
    ensures r.Fail? ==> r.error == KeyNotFound
    ensures r.Ok? ==> forall x :: x in r.value <==> exists k :: k in ExtentKeys(graph, patchKey) && records[k] == x
  {
    var keys := ExtentKeys(graph, patchKey);
    if NullKey in keys then Fail(KeyNotFound)
    else Ok(set k | k in keys :: records[k])
  }

  /** The enabled plugins, in priority order, that define the record. */
  function DefiningMods(priority: seq<ModInfo>, modKeys: set<ModKey>): (r: seq<ModInfo>)
    ensures forall m :: m in r <==> m in priority && m.key in modKeys
  {
    FilterIsSubseq(priority, (m: ModInfo) => m.key in modKeys);
    SubseqMembers(Filter(priority, (m: ModInfo) => m.key in modKeys), priority);
    Filter(priority, (m: ModInfo) => m.key in modKeys)
  }

  /** What the linking loop and the pruning pass leave: `hung` is the graph after the
      linking loop, and `graph` keeps a subset of each of its child sets, drops a
      child only when another member of the same set has it as a child, and holds no
      set with a node together with one of that node's children. */
  ghost predicate Linked(graph: Graph, hung: Graph, modKeys: set<ModKey>, mods: seq<ModInfo>)
  {
    Hung(hung, modKeys, mods, |mods|) && Shrunk(graph, hung) && Covered(graph, hung) && Pruned(graph)
  }

  /** With no enabled plugin defining the record nothing hangs off ModKey.Null, so it
      is an extent and the record lookup fails. */
  lemma NoModsNullExtent(graph: Graph, hung: Graph, modKeys: set<ModKey>, patchKey: ModKey)
    requires Linked(graph, hung, modKeys, [])
    ensures NullKey in ExtentKeys(graph, patchKey)
  {
    assert NullKey in hung;
  }

  /** When masters load first, whether ModKey.Null is an extent does not depend on
      the pruning order: it is one when nothing hangs off it after the linking loop,
      and it is not one when something does and the patch is not among those. */
  lemma NullExtentDecided(graph: Graph, hung: Graph, modKeys: set<ModKey>, priority: seq<ModInfo>, patchKey: ModKey)
    requires DistinctPlugins(priority) && MastersBelow(priority)
    requires Linked(graph, hung, modKeys, DefiningMods(priority, modKeys))
    ensures hung[NullKey] == {} ==> NullKey in ExtentKeys(graph, patchKey)
    ensures hung[NullKey] != {} && patchKey !in hung[NullKey] ==> NullKey !in ExtentKeys(graph, patchKey)
  {
    var mods := DefiningMods(priority, modKeys);
    assert NullKey in hung;
    assert Within(hung, modKeys, mods);
    BuiltRanked(hung, modKeys, priority);
    PruningKeepsLeaves(graph, hung, PriorityRank(priority, hung.Keys));
  }

  /** The linking loop followed by the pruning pass; `hung` is the graph between the
      two. */
  method LinkPrune(modKeys: set<ModKey>, mods: seq<ModInfo>) returns (graph: Graph, ghost hung: Graph)
    requires forall j :: 0 <= j < |mods| ==> mods[j].key in modKeys
    ensures graph.Keys == modKeys + {NullKey}
    ensures Linked(graph, hung, modKeys, mods) && Within(graph, modKeys, mods)
  {
    var hanging := HangAll(modKeys, mods);
    HungClosed(hanging, modKeys, mods);
    graph := Prune(hanging);
    ShrunkWithin(graph, hanging, modKeys, mods);
    hung := hanging;
  }

  /** The constructor. `contexts` are the record's definitions, highest priority
      first; `priority` lists the enabled plugins with their masters, highest priority
      first. No context belongs to ModKey.Null and no plugin defines the record
      twice. `graph` and `hung` are the graph the constructor builds and the one the
      linking loop leaves before pruning. */
  method Build(contexts: seq<Context>, priority: seq<ModInfo>, patchKey: ModKey)
    returns (r: Result<NpcGraph>, ghost graph: Graph, ghost hung: Graph)
    requires Distinct(ModKeysOf(contexts))
    requires forall i :: 0 <= i < |contexts| ==> contexts[i].mod != NullKey
    ensures contexts == [] ==> r == Fail(InvalidOperation)
    ensures contexts != [] ==> (
      var records := RecordMap(contexts);
      graph.Keys == records.Keys + {NullKey} &&
      (r.Fail? <==> NullKey in ExtentKeys(graph, patchKey)) &&
      (r.Fail? ==> r.error == KeyNotFound) &&
      (r.Ok? ==>
         r.value.graph == graph && r.value.base == contexts[|contexts| - 1].record &&
         r.value.records == records && r.value.modKeys == records.Keys &&
         ExtentRecordsOf(graph, records, patchKey) == Ok(r.value.extentRecords)))
    ensures contexts != [] ==> (
      var modKeys := RecordMap(contexts).Keys;
      var mods := DefiningMods(priority, modKeys);
      Linked(graph, hung, modKeys, mods) && Within(graph, modKeys, mods) &&
      (mods == [] ==> r.Fail?))
  {
    if contexts == [] {
      return Fail(InvalidOperation), map[], map[];
    }
    var base := contexts[|contexts| - 1].record;
    var records := RecordMap(contexts);
    var modKeys := records.Keys;
    var mods := DefiningMods(priority, modKeys);
    var linked;
    linked, hung := LinkPrune(modKeys, mods);
    graph := linked;
    var extents := ExtentRecordsOf(linked, records, patchKey);
    if mods == [] {
      NoModsNullExtent(linked, hung, modKeys, patchKey);
    }
    if extents.Fail? {
      return Fail(extents.error), graph, hung;
    }
    r := Ok(NpcGraph(base, records, modKeys, linked, extents.value));
  }

  /** The linking loop only hangs defining plugins, so every child is a node. */
  lemma HungClosed(hung: Graph, modKeys: set<ModKey>, mods: seq<ModInfo>)
    requires Hung(hung, modKeys, mods, |mods|) && forall j :: 0 <= j < |mods| ==> mods[j].key in modKeys
    ensures Closed(hung)
  {
    forall k, c | k in hung && c in hung[k] ensures c in hung {
      var j :| 0 <= j < |mods| && mods[j].key == c && k in Parents(mods[j], modKeys);
    }
  }

  /** Pruning only removes edges, so what remains is among the hung edges. */
  lemma ShrunkWithin(graph: Graph, hung: Graph, modKeys: set<ModKey>, mods: seq<ModInfo>)
    requires Hung(hung, modKeys, mods, |mods|) && Shrunk(graph, hung)
    ensures Within(graph, modKeys, mods)
  {
  }

  /** No plugin of the priority order is listed twice or is ModKey.Null. */
  predicate DistinctPlugins(priority: seq<ModInfo>)
  {
    (forall i, j :: 0 <= i < j < |priority| ==> priority[i].key != priority[j].key) &&
    forall i :: 0 <= i < |priority| ==> priority[i].key != NullKey
  }

  /** Every master of a plugin has lower priority, that is, loads before it. */
  predicate MastersBelow(priority: seq<ModInfo>)
  {
    forall i, j :: 0 <= i < |priority| && 0 <= j < |priority| && priority[j].key in priority[i].masters ==> i < j
  }

  /** A node's rank: its place in the priority order, or past the end for ModKey.Null
      and for plugins that are not enabled. */
  function PriorityRank(priority: seq<ModInfo>, nodes: set<ModKey>): (rank: map<ModKey, nat>)
    ensures rank.Keys == nodes
  {
    var keys := Project(priority, (m: ModInfo) => m.key);
    map k | k in nodes :: if k in keys then Position(keys, k) else |priority|
  }

  /** When masters load first, the built graph has no cycle: the priority rank drops
      along every edge, so `Traverse` terminates. */
  lemma BuiltRanked(graph: Graph, modKeys: set<ModKey>, priority: seq<ModInfo>)
    requires DistinctPlugins(priority) && MastersBelow(priority)
    requires graph.Keys == modKeys + {NullKey}
    requires Within(graph, modKeys, DefiningMods(priority, modKeys))
    ensures Ranked(graph, PriorityRank(priority, graph.Keys))
  {
    var mods := DefiningMods(priority, modKeys);
    forall k, c | k in graph && c in graph[k]
      ensures c in graph && c in PriorityRank(priority, graph.Keys) &&
        PriorityRank(priority, graph.Keys)[c] < PriorityRank(priority, graph.Keys)[k]
    {
      var j :| 0 <= j < |mods| && mods[j].key == c && k in Parents(mods[j], modKeys);
      RankDrops(graph.Keys, modKeys, priority, mods, j, k);
    }
  }

  /** The edge from a parent k to the j-th defining plugin goes down in rank. */
  lemma RankDrops(nodes: set<ModKey>, modKeys: set<ModKey>, priority: seq<ModInfo>, mods: seq<ModInfo>, j: nat, k: ModKey)
    requires DistinctPlugins(priority) && MastersBelow(priority)
    requires mods == DefiningMods(priority, modKeys)
    requires j < |mods| && k in Parents(mods[j], modKeys) && k in nodes && mods[j].key in nodes
    ensures PriorityRank(priority, nodes)[mods[j].key] < PriorityRank(priority, nodes)[k]
  {
    var c := mods[j].key;
    var keys := Project(priority, (m: ModInfo) => m.key);
    assert mods[j] in mods;
    var i :| 0 <= i < |priority| && priority[i] == mods[j];
    assert keys[i] == c;
    var p := Position(keys, c);
    assert p == i;
    if k != NullKey && k in keys {
      var q := Position(keys, k);
      assert priority[q].key == k && k in priority[i].masters;
    }
  }

  /** `Traverse(startingKey)`: nothing for a start that is not a node; otherwise every
      path from the start to a defining plugin without children, ends in the set's
      enumeration order and children in each child set's. */
  method Traverse(g: NpcGraph, start: ModKey, order: Order, rank: map<ModKey, nat>, keyOrder: seq<ModKey>)
    returns (paths: seq<seq<ModKey>>)
    requires WellFormed(g.graph, order, rank) && Enumerates(keyOrder, g.modKeys)
    ensures start !in g.graph ==> paths == []
    ensures start in g.graph ==> paths == PathsToAll(g.graph, order, rank, start, Childless(keyOrder, g.graph))
    ensures forall p :: p in paths <==>
      (start in g.graph && p != [] && p[0] == start && IsWalk(g.graph, p) &&
       p[|p| - 1] in g.modKeys && p[|p| - 1] in g.graph && g.graph[p[|p| - 1]] == {})
  {
    if start !in g.graph {
      return [];
    }
    var extents := Childless(keyOrder, g.graph);
    paths := VisitAll(g.graph, order, rank, start, extents);
    forall p ensures p in paths <==>
      (p != [] && p[0] == start && IsWalk(g.graph, p) &&
       p[|p| - 1] in g.modKeys && p[|p| - 1] in g.graph && g.graph[p[|p| - 1]] == {})
    {
      ListingIsWalks(g.graph, order, rank, start, extents, p);
    }
  }

  /** `GetEntries()`: one extent record gives its entries; otherwise the added entries
      (each extent list minus Base's entries minus what was added before, by
      `ExceptWith`) then Base's entries intersected with every extent list, without
      null or empty sublists, however many there are. */
  method GetEntries(g: NpcGraph, extentOrder: seq<LeveledList>, cache: LinkCache, h: Helpers) returns (r: seq<Entry>)
    requires Enumerates(extentOrder, g.extentRecords)
    ensures |extentOrder| == 1 ==> r == OrEmpty(extentOrder[0].entries)
    ensures |extentOrder| != 1 ==>
      r == Filter(Accumulated(h.exceptWith, ListsOf(extentOrder), OrEmpty(g.base.entries), |extentOrder|) +
                  Intersected(h, OrEmpty(g.base.entries), ListsOf(extentOrder), |extentOrder|), Keep(cache))
  {
    if |extentOrder| == 1 {
      return OrEmpty(extentOrder[0].entries);
    }
    var baseEntries := OrEmpty(g.base.entries);
    var lists := ListsOf(extentOrder);
    var added := Accumulate(h.exceptWith, lists, baseEntries);
    var intersection := Intersected(h, baseEntries, lists, |lists|);
    r := Filter(added + intersection, Keep(cache));
  }

  /** With drawing helpers, every merged entry is kept by the filter and comes from an
      extent list or from Base's entries; nothing is dropped for length. */
  lemma MergedDrawn(h: Helpers, lists: seq<seq<Entry>>, baseEntries: seq<Entry>, cache: LinkCache)
    requires Drawn(h)
    ensures var added := Accumulated(h.exceptWith, lists, baseEntries, |lists|);
      var kept := Intersected(h, baseEntries, lists, |lists|);
      var r := Filter(added + kept, Keep(cache));
      (forall e :: e in r ==> !IsNullOrEmptySublist(e, cache) && ((exists k :: 0 <= k < |lists| && e in lists[k]) || e in baseEntries)) &&
      (forall e :: e in added + kept && !IsNullOrEmptySublist(e, cache) ==> e in r)
  {
    var added := Accumulated(h.exceptWith, lists, baseEntries, |lists|);
    var kept := Intersected(h, baseEntries, lists, |lists|);
    AccumulatedFromLists(h.exceptWith, lists, baseEntries, |lists|);
    IntersectedFromBase(h, baseEntries, lists, |lists|);
    forall e | e in kept ensures e in baseEntries {
      assert e in multiset(kept);
    }
  }
}

=== FILE: resolver_patcher.dfy ===
/** The resolver's `Patcher`: which winning overrides need a merged record, and the
    step of `Apply` that builds the merged copy of one record from its graph, keeps the
    first 255 entries and leaves out a copy that changes nothing. */
module ResolverPatcher {
  import opened Types
  import opened ListAlgebra
  import opened Utility
  import opened Unseen
  import opened Patch
  import opened Scalars
  import opened GraphBase
  import ResolverItemGraph
  import ResolverNpcGraph

  const MaxEntries := 255
  const FormVersion := 44

  /** `window[0].Entries?.ToImmutableHashSet().IsSubsetOf(window[^1].Entries.EmptyIfNull())
      is false`: the earlier list holds an entry the later one lacks. A null earlier
      list makes the test null, which is not false. */
  predicate NotCovered(earlier: LeveledList, later: LeveledList)
  {
    earlier.entries.Some? && exists e :: e in earlier.entries.value && e !in OrEmpty(later.entries)
  }

  /** The selection test for the definitions of a record, lowest priority first
      (`ResolveAll(...).Reverse()`): more than one definition, and some pair of
      consecutive definitions after the first that is not covered. */
  predicate Selected(records: seq<LeveledList>)
  {
    |records| > 1 &&
    var windows := Windows(records[1..], 2);
    exists i :: 0 <= i < |windows| && NotCovered(windows[i][0], windows[i][1])
  }

  /** The windows are the consecutive pairs after the origin. */
  lemma SelectedIff(records: seq<LeveledList>)
    ensures Selected(records) <==> exists i :: 1 <= i < |records| - 1 && NotCovered(records[i], records[i + 1])
  {
    if |records| > 1 {
      var windows := Windows(records[1..], 2);
      forall i | 0 <= i < |windows|
        ensures windows[i][0] == records[i + 1] && windows[i][1] == records[i + 2]
      {
      }
      if i :| 1 <= i < |records| - 1 && NotCovered(records[i], records[i + 1]) {
        assert NotCovered(windows[i - 1][0], windows[i - 1][1]);
      }
    }
  }

  /** A record defined once or twice is never selected: the first has no window and
      the second a single-element one. */
  lemma FewDefinitionsNotSelected(records: seq<LeveledList>)
    requires |records| <= 2
    ensures !Selected(records)
  {
    SelectedIff(records);
  }

  /** An override with null entries never triggers the selection, so when every
      override between the origin and the winner has null entries nothing is
      selected. */
  lemma NullOverridesNotSelected(records: seq<LeveledList>)
    requires forall i :: 1 <= i < |records| - 1 ==> records[i].entries.None?
    ensures !Selected(records)
  {
    SelectedIff(records);
  }

  /** `FindRecordsToOverride`: the winning override (the last definition) of every
      selected record, in the order of `chains`, which holds each winning override's
      definitions lowest priority first. */
  function FindRecordsToOverride(chains: seq<seq<LeveledList>>): (r: seq<LeveledList>)
    ensures |r| <= |chains|
    ensures forall x :: x in r <==>
      exists i :: 0 <= i < |chains| && Selected(chains[i]) && x == chains[i][|chains[i]| - 1]
  {
    if chains == [] then []
    else
      var records := chains[0];
      var rest := FindRecordsToOverride(chains[1..]);
      assert forall i :: 1 <= i < |chains| ==> chains[1..][i - 1] == chains[i];
      (if Selected(records) then [records[|records| - 1]] else []) + rest
  }

  /** `Take(255)`: the longest prefix of at most 255 entries. */
  function Truncated(s: seq<Entry>): (r: seq<Entry>)
    ensures |r| == Min(|s|, MaxEntries) && r == s[..|r|]
  {
    if |s| <= MaxEntries then s else s[..MaxEntries]
  }

  /** The skip test: masked-equal to the winning override, and intersecting the copy's
      entries with the winner's loses none of them (`CompareCount(...) == 0`). */
  predicate Unchanged(h: Helpers, copy: LeveledList, winning: LeveledList)
  {
    MaskedEqual(copy, winning) &&
    |h.intersectWith(OrEmpty(copy.entries), Some(OrEmpty(winning.entries)))| == |OrEmpty(copy.entries)|
  }

  /** A sub-multiset as large as its super-multiset is the whole. */
  lemma SameSizeSubMultiset(a: multiset<Entry>, b: multiset<Entry>)
    requires a <= b && |a| == |b|
    ensures a == b
  {
    assert b == a + (b - a);
    assert |b - a| == 0;
  }

  /** Were `IntersectWith` the order-preserving multiset intersection, the count test
      would hold exactly when the copy's entries are among the winner's, counting
      repeats. */
  lemma CountTestMeansContained(s: seq<Entry>, w: seq<Entry>)
    ensures |Intersect(s, multiset(w))| == |s| <==> multiset(s) <= multiset(w)
  {
    IntersectCounts(s, multiset(w));
    var both := multiset(s) * multiset(w);
    assert |multiset(Intersect(s, multiset(w)))| == |Intersect(s, multiset(w))|;
    if multiset(s) <= multiset(w) {
      assert both == multiset(s);
    }
    if |Intersect(s, multiset(w))| == |s| {
      SameSizeSubMultiset(both, multiset(s));
    }
  }

  /** With that `IntersectWith`, a copy is skipped exactly when it is masked-equal to
      the winner and holds none of its entries more often than the winner does. */
  lemma UnchangedMeaning(h: Helpers, copy: LeveledList, winning: LeveledList)
    requires forall a, b :: h.intersectWith(a, b) == Intersect(a, multiset(OrEmpty(b)))
    ensures Unchanged(h, copy, winning) <==>
      MaskedEqual(copy, winning) && multiset(OrEmpty(copy.entries)) <= multiset(OrEmpty(winning.entries))
  {
    CountTestMeansContained(OrEmpty(copy.entries), OrEmpty(winning.entries));
  }

  /** The merged leveled item: Base's copy with FormVersion 44, the graph's EditorID
      and scalar fields, and `entries`. */
  function ItemCopy(g: RecordGraph, extentOrder: seq<LeveledList>, guid: string, entries: seq<Entry>): LeveledList
  {
    g.base.(formVersion := FormVersion, editorId := Some(EditorIdOf(extentOrder, g.base, guid)),
            entries := Some(entries), chanceNone := GetChanceNone(extentOrder, g.base),
            global := GetGlobal(extentOrder, g.base), flags := GetFlags(extentOrder, g.base))
  }

  /** One iteration of the leveled item loop of `Apply`, for the graph of a selected
      record and its winning override. The graph's entries may add sublist records to
      the patch; the copy is set in the patch unless it changes nothing. */
  method ApplyItem(g: RecordGraph, extentOrder: seq<LeveledList>, winning: LeveledList, cache: LinkCache, h: Helpers,
                   patch: PatchMod, guid: string) returns (copy: LeveledList)
    requires Enumerates(extentOrder, g.extentRecords) && patch.Valid()
    modifies patch
    ensures patch.Valid()
    ensures copy.entries.Some? && |copy.entries.value| <= MaxEntries
    ensures copy == ItemCopy(g, extentOrder, guid, copy.entries.value)
    ensures |extentOrder| == 1 ==>
      copy.entries.value == Truncated(OrEmpty(extentOrder[0].entries)) && patch.added == old(patch.added)
    ensures |extentOrder| != 1 ==> (
      var s := ResolverItemGraph.EntryStream(h, ListsOf(extentOrder), OrEmpty(g.extentBase.entries), cache);
      (|s| <= ResolverItemGraph.YieldCap ==> copy.entries.value == s && patch.added == old(patch.added)) &&
      (|s| > ResolverItemGraph.YieldCap ==>
         copy.entries.value == s[..ResolverItemGraph.YieldCap] + [LinkEntry(FormKey(patch.key, old(|patch.added|)))] &&
         patch.added == old(patch.added) +
           ResolverItemGraph.ChainAsWritten(s[ResolverItemGraph.YieldCap..], 1, patch.key, old(|patch.added|),
                                           EditorIdOf(extentOrder, g.base, guid), GetFlags(extentOrder, g.base),
                                           GetGlobal(extentOrder, g.base))))
    ensures Unchanged(h, copy, winning) ==> patch.overrides == old(patch.overrides)
    ensures !Unchanged(h, copy, winning) ==> patch.overrides == Upserted(old(patch.overrides), copy)
  {
    var editorId := EditorIdOf(extentOrder, g.base, guid);
    copy := g.base;
    copy := copy.(formVersion := FormVersion);
    copy := copy.(editorId := Some(editorId));
    var entries := ResolverItemGraph.GetEntries(g, extentOrder, cache, h, patch, editorId,
                                                GetFlags(extentOrder, g.base), GetGlobal(extentOrder, g.base));
    copy := copy.(entries := Some(Truncated(entries)));
    copy := copy.(chanceNone := GetChanceNone(extentOrder, g.base));
    copy := copy.(global := GetGlobal(extentOrder, g.base));
    copy := copy.(flags := GetFlags(extentOrder, g.base));
    if Unchanged(h, copy, winning) {
      return;
    }
    patch.Set(copy);
  }

  /** The merged leveled NPC list: Base's copy with FormVersion 44, the NPC graph's
      EditorID (present names only) and scalar fields, and `entries`. */
  function NpcCopy(g: ResolverNpcGraph.NpcGraph, extentOrder: seq<LeveledList>, guid: string, entries: seq<Entry>)
    : LeveledList
  {
    g.base.(formVersion := FormVersion,
            editorId := Some(NamedEditorId(extentOrder, g.base, guid)),
            chanceNone := GetChanceNone(extentOrder, g.base), entries := Some(entries),
            global := GetGlobal(extentOrder, g.base), flags := GetFlags(extentOrder, g.base))
  }

  /** One iteration of the leveled NPC loop of `Apply`: the NPC graph never truncates,
      so here `Take(255)` is what drops the entries past the 255th. */
  method ApplyNpc(g: ResolverNpcGraph.NpcGraph, extentOrder: seq<LeveledList>, winning: LeveledList, cache: LinkCache,
                  h: Helpers, patch: PatchMod, guid: string) returns (copy: LeveledList)
    requires Enumerates(extentOrder, g.extentRecords) && patch.Valid()
    modifies patch
    ensures patch.Valid() && patch.added == old(patch.added)
    ensures copy.entries.Some? && |copy.entries.value| <= MaxEntries
    ensures copy == NpcCopy(g, extentOrder, guid, copy.entries.value)
    ensures |extentOrder| == 1 ==> copy.entries.value == Truncated(OrEmpty(extentOrder[0].entries))
    ensures |extentOrder| != 1 ==>
      copy.entries.value ==
        Truncated(Filter(Accumulated(h.exceptWith, ListsOf(extentOrder), OrEmpty(g.base.entries), |extentOrder|) +
                         Intersected(h, OrEmpty(g.base.entries), ListsOf(extentOrder), |extentOrder|),
                         Keep(cache)))
    ensures Unchanged(h, copy, winning) ==> patch.overrides == old(patch.overrides)
    ensures !Unchanged(h, copy, winning) ==> patch.overrides == Upserted(old(patch.overrides), copy)
  {
    copy := g.base;
    copy := copy.(formVersion := FormVersion);
    copy := copy.(editorId := Some(NamedEditorId(extentOrder, g.base, guid)));
    copy := copy.(chanceNone := GetChanceNone(extentOrder, g.base));
    var entries := ResolverNpcGraph.GetEntries(g, extentOrder, cache, h);
    copy := copy.(entries := Some(Truncated(entries)));
    copy := copy.(global := GetGlobal(extentOrder, g.base));
    copy := copy.(flags := GetFlags(extentOrder, g.base));
    if Unchanged(h, copy, winning) {
      return;
    }
    patch.Set(copy);
  }
}

=== FILE: resolver_spell_graph.dfy ===
/** LeveledSpellGraph of the resolver: `GetEntries` merges added and intersected
    entries and, over 255 of them, keeps a prefix and moves the rest into 255-entry
    batch records in the patch. Its scalar getters are those of Scalars
    (GetObjectBounds, GetChanceNone, GetFlags) on spell records. */
module ResolverSpellGraph {
  import opened Types
  import opened ListAlgebra
  import opened Utility
  import opened GraphBase
  import opened Unseen
  import opened Patch

  const MaxEntries := 255

  /** The merged list: added (each extent list minus the ExtentBase entries minus what
      was added before, by `Without`) then the intersection, without null or empty
      sublists. */
  function Merged(h: Helpers, lists: seq<seq<Entry>>, baseEntries: seq<Entry>, cache: LinkCache): seq<Entry>
  {
    Filter(Accumulated(h.without, lists, baseEntries, |lists|) + IntersectAll(baseEntries, lists), Keep(cache))
  }

  function CeilDiv(a: nat, b: nat): nat
    requires b > 0
  {
    (a + b - 1) / b
  }

  /** There are ceil(|s| / 255) batches. */
  lemma BatchCount<T>(s: seq<T>)
    ensures |Chunks(s, MaxEntries)| == CeilDiv(|s|, MaxEntries)
  {
    ChunksCount(s, MaxEntries);
  }

  /** `((n - 255) / 255) + 1`, as the code computes the number of batch links. */
  function SegmentsAsWritten(n: nat): int
    requires n > MaxEntries
  {
    (n - MaxEntries) / MaxEntries + 1
  }

  /** The top-level size with s segments: 255 - s kept entries, then one link per
      255-entry batch of the remaining n - (255 - s). */
  function TopLevelSize(n: nat, s: int): int
    requires MaxEntries < n && 0 <= s <= MaxEntries
  {
    (MaxEntries - s) + CeilDiv(n - (MaxEntries - s), MaxEntries)
  }

  /** Writing n - 255 = 255 q + r, the sum q + r is at most 254. */
  predicate DigitsFit(n: nat)
    requires n > MaxEntries
  {
    (n - MaxEntries) / MaxEntries + (n - MaxEntries) % MaxEntries <= 254
  }

  /** As written, the top level fits exactly when, writing n - 255 = 255 q + r, the
      sum q + r is at most 254. */
  lemma SegmentsAsWrittenExact(n: nat)
    requires MaxEntries < n && SegmentsAsWritten(n) <= MaxEntries
    ensures TopLevelSize(n, SegmentsAsWritten(n)) <= MaxEntries <==> DigitsFit(n)
  {
    var q, r := (n - MaxEntries) / MaxEntries, (n - MaxEntries) % MaxEntries;
    assert n - MaxEntries == 255 * q + r;
    var extra := n - (MaxEntries - (q + 1));
    assert extra == 255 * q + (q + r + 1);
    assert CeilDiv(extra, MaxEntries) == (255 * q + q + r + 255) / 255;
    if q + r <= 254 {
      assert (255 * q + q + r + 255) / 255 == q + 1;
    } else {
      assert (255 * q + q + r + 255) / 255 >= q + 2;
    }
  }

  /** RemoveRange is handed a negative count, and fails, from 65280 merged entries
      on. */
  lemma SegmentsAsWrittenFail(n: nat)
    requires n > MaxEntries
    ensures SegmentsAsWritten(n) > MaxEntries <==> n >= 65280
  {
  }

  /** 764 merged entries give 2 segments but 3 batches: 253 + 3 = 256 top-level
      entries, one more than a list can hold. */
  lemma SegmentsAsWrittenOverflows()
    ensures SegmentsAsWritten(764) == 2
    ensures TopLevelSize(764, SegmentsAsWritten(764)) == 256
  {
  }

  /** The number of links that makes the top level fit: the least s with
      (255 - s) + ceil((n - 255 + s) / 255) <= 255, that is ceil((n - 255) / 254). */
  function Segments(n: nat): (s: nat)
    requires n > MaxEntries
    ensures s >= 1
  {
    CeilDiv(n - MaxEntries, 254)
  }

  /** With the corrected count, the top level never exceeds 255 entries while the
      count itself fits (up to 65025 merged entries). */
  lemma SegmentsFit(n: nat)
    requires MaxEntries < n <= 65025
    ensures Segments(n) <= MaxEntries
    ensures TopLevelSize(n, Segments(n)) <= MaxEntries
  {
    var m := n - MaxEntries;
    var s := Segments(n);
    assert 254 * s >= m;
    assert m + s <= 255 * s;
    assert CeilDiv(m + s, MaxEntries) <= s;
  }

  /** A batch record: the name with its 1-based batch number, the resolved Flags and
      the batch's entries. */
  function BatchRecord(fk: FormKey, editorId: string, index: nat, entries: seq<Entry>, flags: int): LeveledList
  {
    NewRecord(fk).(editorId := Some("Mir_" + editorId + "_Sublist_" + NatToString(index + 1)),
                   flags := flags, entries := Some(entries))
  }

  function BatchRecords(batches: seq<seq<Entry>>, key: ModKey, id: nat, editorId: string, flags: int): (r: seq<LeveledList>)
    ensures |r| == |batches|
  {
    seq(|batches|, i requires 0 <= i < |batches| => BatchRecord(FormKey(key, id + i), editorId, i, batches[i], flags))
  }

  /** One new record per batch, in order, and a link to each. */
  method EmitBatches(batches: seq<seq<Entry>>, patch: PatchMod, editorId: string, flags: int) returns (links: seq<Entry>)
    requires patch.Valid()
    modifies patch
    ensures patch.Valid() && patch.overrides == old(patch.overrides)
    ensures links == Links(patch.key, old(|patch.added|), |batches|)
    ensures patch.added == old(patch.added) + BatchRecords(batches, patch.key, old(|patch.added|), editorId, flags)
  {
    ghost var id := |patch.added|;
    links := [];
    var j := 0;
    while j < |batches|
      invariant 0 <= j <= |batches|
      invariant patch.Valid() && patch.overrides == old(patch.overrides)
      invariant links == Links(patch.key, id, j)
      invariant patch.added == old(patch.added) + BatchRecords(batches[..j], patch.key, id, editorId, flags)
    {
      var fk := patch.Add(BatchRecord(FormKey(patch.key, 0), editorId, j, batches[j], flags));
      assert BatchRecords(batches[..j + 1], patch.key, id, editorId, flags) ==
             BatchRecords(batches[..j], patch.key, id, editorId, flags) + [BatchRecord(fk, editorId, j, batches[j], flags)];
      links := links + [LinkEntry(fk)];
      j := j + 1;
    }
    assert batches[..j] == batches;
  }

  /** The prefix and the batches together are the merged list, in order, and no batch
      holds more than 255 entries. */
  lemma OverflowKeepsItems(items: seq<Entry>, kept: nat)
    requires kept <= |items|
    ensures items[..kept] + Flatten(Chunks(items[kept..], MaxEntries)) == items
    ensures forall i :: 0 <= i < |Chunks(items[kept..], MaxEntries)| ==> |Chunks(items[kept..], MaxEntries)[i]| <= MaxEntries
  {
    ChunksFlatten(items[kept..], MaxEntries);
    ChunksSizes(items[kept..], MaxEntries);
    assert items[..kept] + items[kept..] == items;
  }

  /** `GetEntries`. `extentOrder` enumerates ExtentRecords; `editorId` and `flags`
      are what GetEditorID and GetFlags return. Over 255 merged entries it reserves
      the segment count as written, so the top level can exceed 255 entries (see
      SegmentsAsWrittenExact); a count above 255 makes RemoveRange fail. */
  method GetEntries(g: RecordGraph, extentOrder: seq<LeveledList>, cache: LinkCache, h: Helpers, patch: PatchMod,
                    editorId: string, flags: int) returns (r: Result<seq<Entry>>)
    requires Enumerates(extentOrder, g.extentRecords)
    requires patch.Valid()
    modifies patch
    ensures patch.Valid() && patch.overrides == old(patch.overrides)
    ensures |extentOrder| == 1 ==> r == Ok(OrEmpty(extentOrder[0].entries)) && patch.added == old(patch.added)
    ensures |extentOrder| != 1 ==> (
      var items := Merged(h, ListsOf(extentOrder), OrEmpty(g.extentBase.entries), cache);
      (|items| <= MaxEntries ==> r == Ok(items) && patch.added == old(patch.added)) &&
      (MaxEntries < |items| && SegmentsAsWritten(|items|) > MaxEntries ==>
         r == Fail(ArgumentOutOfRange) && patch.added == old(patch.added)) &&
      (MaxEntries < |items| && SegmentsAsWritten(|items|) <= MaxEntries ==>
         var kept := MaxEntries - SegmentsAsWritten(|items|);
         var batches := Chunks(items[kept..], MaxEntries);
         r.Ok? && |r.value| == TopLevelSize(|items|, SegmentsAsWritten(|items|)) &&
         (|r.value| <= MaxEntries <==> DigitsFit(|items|)) &&
         r.value == items[..kept] + Links(patch.key, old(|patch.added|), |batches|) &&
         patch.added == old(patch.added) + BatchRecords(batches, patch.key, old(|patch.added|), editorId, flags)))
  {
    if |extentOrder| == 1 {
      return Ok(OrEmpty(extentOrder[0].entries));
    }
    var baseEntries := OrEmpty(g.extentBase.entries);
    var lists := ListsOf(extentOrder);
    var added := Accumulate(h.without, lists, baseEntries);
    var intersection := IntersectAll(baseEntries, lists);
    var items := Filter(added + intersection, Keep(cache));
    if |items| <= MaxEntries {
      return Ok(items);
    }
    var segments := SegmentsAsWritten(|items|);
    if segments > MaxEntries {
      return Fail(ArgumentOutOfRange);
    }
    var kept := MaxEntries - segments;
    SegmentsAsWrittenExact(|items|);
    BatchCount(items[kept..]);
    var links := EmitBatches(Chunks(items[kept..], MaxEntries), patch, editorId, flags);
    r := Ok(items[..kept] + links);
  }
}

=== FILE: scalars.dfy ===
/** The "last value that differs from Base" rule the graph classes use for every
    scalar field, and its EditorID variants. */
module Scalars {
  import opened Types
  import opened ListAlgebra

  /** `values.Where(v => v != baseValue).DefaultIfEmpty(baseValue).Last()`, which is also
      `records.LastOrDefault(r => r.F != Base.F)?.F ?? Base.F` on the projected values. */
  function LastDiffering<T(==)>(values: seq<T>, baseValue: T): (r: T)
    ensures r == baseValue <==> forall i :: 0 <= i < |values| ==> values[i] == baseValue
    ensures r != baseValue ==>
      exists i :: 0 <= i < |values| && values[i] == r && forall j :: i < j < |values| ==> values[j] == baseValue
  {
    if values == [] then baseValue
    else if values[|values| - 1] != baseValue then values[|values| - 1]
    else LastDiffering(values[..|values| - 1], baseValue)
  }

  /** A last differing value is never overridden by appending the base value. */
  lemma {:induction false} LastDifferingIgnoresBase<T>(values: seq<T>, baseValue: T)
    ensures LastDiffering(values + [baseValue], baseValue) == LastDiffering(values, baseValue)
  {
    assert (values + [baseValue])[..|values|] == values;
  }

  /** A present name that differs from the base name (`id is not null && !id.Equals(Base.EditorID)`). */
  predicate Renamed(id: Option<string>, baseId: Option<string>)
  {
    id.Some? && id != baseId
  }

  /** `ids.Where(id => id is not null && !id.Equals(baseId)).LastOrDefault() ?? baseId ?? guid`:
      the last present name differing from Base's, else Base's name, else a fresh GUID. */
  function LastNamed(ids: seq<Option<string>>, baseId: Option<string>, guid: string): (r: string)
    ensures (exists i :: 0 <= i < |ids| && Renamed(ids[i], baseId)) ==>
      exists i :: 0 <= i < |ids| && Renamed(ids[i], baseId) && ids[i] == Some(r) &&
        forall j :: i < j < |ids| ==> !Renamed(ids[j], baseId)
    ensures (forall i :: 0 <= i < |ids| ==> !Renamed(ids[i], baseId)) ==>
      r == (if baseId.Some? then baseId.value else guid)
  {
    var last := LastWhere(ids, id => Renamed(id, baseId));
    if last.Some? then last.value.value
    else if baseId.Some? then baseId.value
    else guid
  }

  /** The EditorID rule over extent records `xs`: without a rename, Base's name or else
      the GUID; with one, the name of a renaming record after which none renames. */
  predicate NamedBy(xs: seq<LeveledList>, base: LeveledList, guid: string, r: string)
  {
    ((forall i :: 0 <= i < |xs| ==> !Renamed(xs[i].editorId, base.editorId)) ==>
       r == if base.editorId.Some? then base.editorId.value else guid) &&
    ((exists i :: 0 <= i < |xs| && Renamed(xs[i].editorId, base.editorId)) ==>
       exists i :: 0 <= i < |xs| && Renamed(xs[i].editorId, base.editorId) && xs[i].editorId == Some(r) &&
         forall j :: i < j < |xs| ==> !Renamed(xs[j].editorId, base.editorId))
  }

  /** `GetEditorId` of the NPC graphs and of the generator's item graph: the rule above
      on the names of the extent records. */
  function NamedEditorId(extentOrder: seq<LeveledList>, base: LeveledList, guid: string): (r: string)
    ensures NamedBy(extentOrder, base, guid, r)
  {
    var ids := Project(extentOrder, (x: LeveledList) => x.editorId);
    assert forall i :: 0 <= i < |extentOrder| ==> ids[i] == extentOrder[i].editorId;
    LastNamed(ids, base.editorId, guid)
  }

  /** A fresh GUID is used only when Base has no name and no extent renames it. */
  lemma LastNamedGuid(ids: seq<Option<string>>, baseId: Option<string>, guid: string)
    requires forall i :: 0 <= i < |ids| ==> ids[i].Some? ==> ids[i].value != guid
    requires baseId.Some? ==> baseId.value != guid
    ensures LastNamed(ids, baseId, guid) == guid <==>
      baseId.None? && forall i :: 0 <= i < |ids| ==> ids[i].None?
  {
    if baseId.None? && forall i :: 0 <= i < |ids| ==> ids[i].None? {
      assert forall i :: 0 <= i < |ids| ==> !Renamed(ids[i], baseId);
    }
  }

  /** The scalar fields the getters read. */
  function ObjectBoundsOf(x: LeveledList): Bounds { x.objectBounds }
  function ChanceNoneOf(x: LeveledList): int { x.chanceNone }
  function FlagsOf(x: LeveledList): int { x.flags }
  function GlobalOf(x: LeveledList): Option<FormKey> { x.global }

  /** The graph classes' scalar getters: over the extent records in the enumeration
      order of ExtentRecords, the last value that differs from Base's, else Base's. */
  function GetObjectBounds(extentOrder: seq<LeveledList>, base: LeveledList): Bounds
  {
    LastDiffering(Project(extentOrder, ObjectBoundsOf), base.objectBounds)
  }

  function GetChanceNone(extentOrder: seq<LeveledList>, base: LeveledList): int
  {
    LastDiffering(Project(extentOrder, ChanceNoneOf), base.chanceNone)
  }

  function GetFlags(extentOrder: seq<LeveledList>, base: LeveledList): int
  {
    LastDiffering(Project(extentOrder, FlagsOf), base.flags)
  }

  function GetGlobal(extentOrder: seq<LeveledList>, base: LeveledList): Option<FormKey>
  {
    LastDiffering(Project(extentOrder, GlobalOf), base.global)
  }

  /** `r` is Base's value of `field` exactly when every record of `xs` holds it, and
      otherwise the value of a record after which none differs from Base's. */
  predicate FieldBy<T(==)>(xs: seq<LeveledList>, field: LeveledList -> T, base: LeveledList, r: T)
  {
    (r == field(base) <==> forall i :: 0 <= i < |xs| ==> field(xs[i]) == field(base)) &&
    (r != field(base) ==>
       exists i :: 0 <= i < |xs| && field(xs[i]) == r &&
         forall j :: i < j < |xs| ==> field(xs[j]) == field(base))
  }

  /** The rule on the projected values is the rule on the records. */
  lemma LastDifferingField<T>(xs: seq<LeveledList>, field: LeveledList -> T, base: LeveledList)
    ensures FieldBy(xs, field, base, LastDiffering(Project(xs, field), field(base)))
  {
    var values := Project(xs, field);
    var r := LastDiffering(values, field(base));
    if r != field(base) {
      var i :| 0 <= i < |values| && values[i] == r && forall j :: i < j < |values| ==> values[j] == field(base);
      assert field(xs[i]) == r;
    }
  }

  /** The getters agree with the rule: Base's value exactly when every extent record
      holds it, else the value of an extent record after which none differs. */
  lemma GettersFollowRule(extentOrder: seq<LeveledList>, base: LeveledList)
    ensures FieldBy(extentOrder, ChanceNoneOf, base, GetChanceNone(extentOrder, base))
    ensures FieldBy(extentOrder, FlagsOf, base, GetFlags(extentOrder, base))
    ensures FieldBy(extentOrder, GlobalOf, base, GetGlobal(extentOrder, base))
    ensures FieldBy(extentOrder, ObjectBoundsOf, base, GetObjectBounds(extentOrder, base))
  {
    LastDifferingField(extentOrder, ChanceNoneOf, base);
    LastDifferingField(extentOrder, FlagsOf, base);
    LastDifferingField(extentOrder, GlobalOf, base);
    LastDifferingField(extentOrder, ObjectBoundsOf, base);
  }
}

=== FILE: types.dfy ===
/** Records, entries and plugin identities shared by every part of the leveled-list
    patcher: a leveled item, NPC or spell list as one source (plugin) defines it. */
module Types {

  datatype Option<+T> = None | Some(value: T)

  /** The exceptions the code can raise, as values. */
  datatype Error =
    | IndexOutOfRange      // an array or list index outside its bounds
    | KeyNotFound          // a dictionary lookup of an absent key
    | InvalidOperation     // First()/Single() on an empty sequence, an explicit throw
    | ArgumentOutOfRange   // a negative count given to List.RemoveRange / GetRange

  datatype Result<+T> = Ok(value: T) | Fail(error: Error)

  /** A plugin identity. NullKey is Mutagen's ModKey.Null, the synthetic root. */
  datatype ModKey = NullKey | Plugin(id: nat)

  /** A record identity: the plugin that first defined it and a local id. */
  datatype FormKey = FormKey(mod: ModKey, id: nat)

  /** Level, count and target of one entry; a null target is `None`. */
  datatype EntryData = EntryData(reference: Option<FormKey>, level: int, count: int)

  /** One entry of a leveled list; its Data may itself be absent. */
  datatype Entry = Entry(data: Option<EntryData>)

  /** The six coordinates of an object-bounds field, compared as a value. */
  datatype Bounds = Bounds(x1: int, y1: int, z1: int, x2: int, y2: int, z2: int)

  /** A leveled list record as one plugin holds it. Spell lists have no Global in
      the game data; for them `global` is carried along and never read or written. */
  datatype LeveledList = LeveledList(
    formKey: FormKey,
    editorId: Option<string>,
    objectBounds: Bounds,
    chanceNone: int,
    flags: int,
    global: Option<FormKey>,
    entries: Option<seq<Entry>>,
    formVersion: int,
    versionControl: int,
    version2: int)

  /** (plugin, record) as the link cache resolves it for one FormKey. */
  datatype Context = Context(mod: ModKey, record: LeveledList)

  /** Resolution of a FormKey to a leveled list of the kind being patched. */
  type LinkCache = map<FormKey, LeveledList>

  /** A list, or the empty list when it is null (`?? Array.Empty`, `EmptyIfNull`). */
  function OrEmpty<T>(list: Option<seq<T>>): seq<T>
  {
    if list.Some? then list.value else []
  }

  /** A plugin of the load order with the master references of its header. */
  datatype ModInfo = ModInfo(key: ModKey, masters: seq<ModKey>)

  /** Equality under the translation mask that leaves out FormVersion,
      VersionControl, Version2 and Entries. */
  predicate MaskedEqual(a: LeveledList, b: LeveledList)
  {
    a.(formVersion := 0, versionControl := 0, version2 := 0, entries := None) ==
    b.(formVersion := 0, versionControl := 0, version2 := 0, entries := None)
  }

  /** Equality under the mask that keeps only ChanceNone, Flags and Global. */
  predicate GroupEqual(a: LeveledList, b: LeveledList)
  {
    a.chanceNone == b.chanceNone && a.flags == b.flags && a.global == b.global
  }

  /** Equality under the mask that keeps only ChanceNone and Flags (spell lists). */
  predicate ChanceFlagsEqual(a: LeveledList, b: LeveledList)
  {
    a.chanceNone == b.chanceNone && a.flags == b.flags
  }

  /** The link entry the code creates for a new sublist record: Level 1, Count 1. */
  function LinkEntry(target: FormKey): Entry
  {
    Entry(Some(EntryData(Some(target), 1, 1)))
  }

  /** The entries of a sequence of records, in order. */
  function EntriesOf(records: seq<LeveledList>): (r: seq<Option<seq<Entry>>>)
    ensures |r| == |records|
    ensures forall i :: 0 <= i < |records| ==> r[i] == records[i].entries
  {
    if records == [] then [] else [records[0].entries] + EntriesOf(records[1..])
  }

  /** The records of a sequence of contexts, in order. */
  function RecordsOf(contexts: seq<Context>): (r: seq<LeveledList>)
    ensures |r| == |contexts|
    ensures forall i :: 0 <= i < |contexts| ==> r[i] == contexts[i].record
  {
    if contexts == [] then [] else [contexts[0].record] + RecordsOf(contexts[1..])
  }

  /** The plugins of a sequence of contexts, in order. */
  function ModKeysOf(contexts: seq<Context>): (r: seq<ModKey>)
    ensures |r| == |contexts|
    ensures forall i :: 0 <= i < |contexts| ==> r[i] == contexts[i].mod
  {
    if contexts == [] then [] else [contexts[0].mod] + ModKeysOf(contexts[1..])
  }

  /** Decimal rendering of a counter, as C# string interpolation prints it. */
  function NatToString(n: nat): string
  {
    if n < 10 then [Digit(n)] else NatToString(n / 10) + [Digit(n % 10)]
  }

  function Digit(d: nat): char
    requires d < 10
  {
    "0123456789"[d]
  }
}

=== FILE: unseen.dfy ===
/** The entry-list extension methods the code calls but does not define: `Without`,
    `ExceptWith`, `IntersectWith` and `And`, library code from outside the
    repository. Their behaviour is not visible, so the model receives them as
    function values; the one thing it may assume about them, where a lemma says so,
    is that their result is drawn from their arguments. */
module Unseen {
  import opened Types

  datatype Helpers = Helpers(
    without: (seq<Entry>, seq<Entry>) -> seq<Entry>,
    exceptWith: (seq<Entry>, seq<Entry>) -> seq<Entry>,
    intersectWith: (seq<Entry>, Option<seq<Entry>>) -> seq<Entry>,
    and: (seq<Entry>, seq<Entry>) -> seq<Entry>)

  /** The weak assumption: `Without`, `ExceptWith` and `IntersectWith` return some of
      the entries of their first argument, and `And` some of the entries of both. */
  ghost predicate Drawn(h: Helpers)
  {
    (forall a, b :: multiset(h.without(a, b)) <= multiset(a)) &&
    (forall a, b :: multiset(h.exceptWith(a, b)) <= multiset(a)) &&
    (forall a, b :: multiset(h.intersectWith(a, b)) <= multiset(a)) &&
    (forall a, b :: multiset(h.and(a, b)) <= multiset(a) + multiset(b))
  }

  /** The builder fold of the graphs' `GetEntries`: after the first n extent lists, the
      builder has grown by each list minus the base entries minus what it already held,
      `minus` being the helper the file uses (`Without` or `ExceptWith`). */
  function Accumulated(minus: (seq<Entry>, seq<Entry>) -> seq<Entry>, lists: seq<seq<Entry>>,
                       baseEntries: seq<Entry>, n: nat): seq<Entry>
    requires n <= |lists|
  {
    if n == 0 then []
    else
      var prev := Accumulated(minus, lists, baseEntries, n - 1);
      prev + minus(minus(lists[n - 1], baseEntries), prev)
  }

  /** With a helper that draws from its first argument, every accumulated entry occurs
      in one of the lists folded so far. */
  lemma {:induction false} AccumulatedFromLists(minus: (seq<Entry>, seq<Entry>) -> seq<Entry>, lists: seq<seq<Entry>>,
                                                baseEntries: seq<Entry>, n: nat)
    requires forall a, b :: multiset(minus(a, b)) <= multiset(a)
    requires n <= |lists|
    ensures forall e :: e in Accumulated(minus, lists, baseEntries, n) ==> exists k :: 0 <= k < n && e in lists[k]
  {
    if n > 0 {
      AccumulatedFromLists(minus, lists, baseEntries, n - 1);
      var prev := Accumulated(minus, lists, baseEntries, n - 1);
      var inner := minus(lists[n - 1], baseEntries);
      var outer := minus(inner, prev);
      assert multiset(outer) <= multiset(inner) <= multiset(lists[n - 1]);
      forall e | e in Accumulated(minus, lists, baseEntries, n) ensures exists k :: 0 <= k < n && e in lists[k] {
        if e !in prev {
          assert e in multiset(outer);
        }
      }
    }
  }

  /** The aggregate itself, one extent list at a time into one builder. */
  method Accumulate(minus: (seq<Entry>, seq<Entry>) -> seq<Entry>, lists: seq<seq<Entry>>, baseEntries: seq<Entry>)
    returns (builder: seq<Entry>)
    ensures builder == Accumulated(minus, lists, baseEntries, |lists|)
  {
    builder := [];
    var k := 0;
    while k < |lists|
      invariant 0 <= k <= |lists|
      invariant builder == Accumulated(minus, lists, baseEntries, k)
    {
      builder := builder + minus(minus(lists[k], baseEntries), builder);
      k := k + 1;
    }
  }

  /** The intersection fold `lists.Aggregate(baseEntries, (list, items) =>
      list.IntersectWith(items))` after the first n lists. */
  function Intersected(h: Helpers, baseEntries: seq<Entry>, lists: seq<seq<Entry>>, n: nat): seq<Entry>
    requires n <= |lists|
  {
    if n == 0 then baseEntries else h.intersectWith(Intersected(h, baseEntries, lists, n - 1), Some(lists[n - 1]))
  }

  /** With drawing helpers the fold never holds more of an entry than the base list. */
  lemma {:induction false} IntersectedFromBase(h: Helpers, baseEntries: seq<Entry>, lists: seq<seq<Entry>>, n: nat)
    requires Drawn(h) && n <= |lists|
    ensures multiset(Intersected(h, baseEntries, lists, n)) <= multiset(baseEntries)
  {
    if n > 0 {
      IntersectedFromBase(h, baseEntries, lists, n - 1);
    }
  }
}

=== FILE: utility.dfy ===
/** The shared helpers of the resolver: multiset operations on entry lists built on
    counting dictionaries, the entry predicates, the version-control stamp, and the
    choice of the lowest override and of the extent contexts of a record. */
module Utility {
  import opened Types
  import opened ListAlgebra

  /** A counting dictionary's value for x; an absent key counts 0. */
  function Count<T>(d: map<T, int>, x: T): int
  {
    if x in d then d[x] else 0
  }

  /** `source.IntersectExt(other)`: counts the elements of `other` that also occur in
      `source`, then walks `source` and yields an element while its count is positive. */
  method IntersectExt<T(==)>(source: seq<T>, other: Option<seq<T>>) returns (r: seq<T>)
    ensures source == [] || other.None? || other.value == [] ==> r == []
    ensures r == Intersect(source, multiset(OrEmpty(other)))
  {
    if source == [] || other.None? || other.value == [] {
      IntersectNothing(source);
      return [];
    }
    var dict := CountShared(source, other.value);
    r := TakeCounted(source, other.value, dict);
  }

  /** The first loop of IntersectExt: the count in `o` of every element that also
      occurs in `source`. */
  method CountShared<T(==)>(source: seq<T>, o: seq<T>) returns (dict: map<T, int>)
    ensures forall x :: x in source ==> Count(dict, x) == multiset(o)[x]
  {
    var both := set x | x in source && x in o;
    dict := map[];
    var i := 0;
    while i < |o|
      invariant 0 <= i <= |o|
      invariant forall x :: Count(dict, x) == (if x in both then multiset(o[..i])[x] else 0)
    {
      var it := o[i];
      assert o[..i + 1] == o[..i] + [it];
      if it in both {
        if it !in dict {
          dict := dict[it := 1];
        } else {
          dict := dict[it := dict[it] + 1];
        }
      }
      i := i + 1;
    }
    assert o[..i] == o;
  }

  /** The second loop of IntersectExt: an element is yielded while its count is
      positive, and each yield uses one count up. */
  method TakeCounted<T(==)>(source: seq<T>, o: seq<T>, dict0: map<T, int>) returns (r: seq<T>)
    requires forall x :: x in source ==> Count(dict0, x) == multiset(o)[x]
    ensures r == Intersect(source, multiset(o))
  {
    var dict := dict0;
    r := [];
    var j := 0;
    while j < |source|
      invariant 0 <= j <= |source|
      invariant r == Intersect(source[..j], multiset(o))
      invariant Counted(source, o, dict, r)
    {
      dict, r := TakeNext(source, o, j, dict, r);
      j := j + 1;
    }
    assert source[..j] == source;
  }

  /** The counts left in the dictionary: each element's count in `o` less the copies
      yielded so far. */
  predicate Counted<T(==)>(source: seq<T>, o: seq<T>, dict: map<T, int>, r: seq<T>)
  {
    forall x :: x in source ==> Count(dict, x) == multiset(o)[x] as int - multiset(r)[x] as int
  }

  /** One turn of the second loop, for `source[j]`. */
  method TakeNext<T(==)>(source: seq<T>, o: seq<T>, j: nat, dict0: map<T, int>, r0: seq<T>)
    returns (dict: map<T, int>, r: seq<T>)
    requires j < |source| && r0 == Intersect(source[..j], multiset(o)) && Counted(source, o, dict0, r0)
    ensures r == Intersect(source[..j + 1], multiset(o)) && Counted(source, o, dict, r)
  {
    var it := source[j];
    TakeWhenCounted(source, o, j, dict0, r0);
    dict, r := dict0, r0;
    if it in dict && dict[it] > 0 {
      var count := dict[it] - 1;
      dict := dict[it := count];
      if count <= 0 {
        dict := dict - {it};
      }
      r := r + [it];
      CountedAfterTake(source, o, dict0, r0, it, dict);
    }
  }

  /** A positive count left for `source[j]` is exactly Intersect's test for it. */
  lemma TakeWhenCounted<T>(source: seq<T>, o: seq<T>, j: nat, dict: map<T, int>, r: seq<T>)
    requires j < |source| && r == Intersect(source[..j], multiset(o)) && Counted(source, o, dict, r)
    ensures source[j] in dict && dict[source[j]] > 0 ==> Intersect(source[..j + 1], multiset(o)) == r + [source[j]]
    ensures !(source[j] in dict && dict[source[j]] > 0) ==> Intersect(source[..j + 1], multiset(o)) == r
  {
    var it := source[j];
    assert source[..j + 1] == source[..j] + [it];
    IntersectStep(source[..j], it, multiset(o));
    IntersectCounts(source[..j], multiset(o));
    assert it in source;
  }

  /** Using up one count of `it` and yielding it keeps the counts right. */
  lemma CountedAfterTake<T>(source: seq<T>, o: seq<T>, dict0: map<T, int>, r0: seq<T>, it: T, dict: map<T, int>)
    requires Counted(source, o, dict0, r0) && it in dict0 && dict0[it] > 0
    requires Count(dict, it) == dict0[it] - 1 && forall x :: x != it ==> Count(dict, x) == Count(dict0, x)
    ensures Counted(source, o, dict, r0 + [it])
  {
    assert multiset(r0 + [it]) == multiset(r0) + multiset{it};
  }

  /** The counting loop shared by UnsortedEqual and DisjunctLeft: `TryAdd(it, 1)`, else
      increment. */
  method Tally<T(==)>(items: seq<T>) returns (d: map<T, int>)
    ensures forall x :: Count(d, x) == multiset(items)[x]
  {
    d := map[];
    var i := 0;
    while i < |items|
      invariant 0 <= i <= |items|
      invariant forall x :: Count(d, x) == multiset(items[..i])[x]
    {
      var it := items[i];
      assert items[..i + 1] == items[..i] + [it];
      if it !in d {
        d := d[it := 1];
      } else {
        d := d[it := d[it] + 1];
      }
      i := i + 1;
    }
    assert items[..i] == items;
  }

  /** How many copies of x in `budget` a walk over `p` has not used up yet. */
  function Unused<T(==)>(budget: seq<T>, p: seq<T>, x: T): nat
  {
    if multiset(p)[x] < multiset(budget)[x] then multiset(budget)[x] - multiset(p)[x] else 0
  }

  lemma UnusedStep<T>(budget: seq<T>, p: seq<T>, y: T)
    ensures Unused(budget, p + [y], y) == if Unused(budget, p, y) > 0 then Unused(budget, p, y) - 1 else 0
    ensures forall x :: x != y ==> Unused(budget, p + [y], x) == Unused(budget, p, x)
  {
    assert multiset(p + [y]) == multiset(p) + multiset{y};
  }

  /** Null equals only null, and two lists are equal exactly when they hold the same
      elements the same number of times, in any order. */
  predicate SameUnsorted<T(==)>(first: Option<seq<T>>, second: Option<seq<T>>)
  {
    if first.None? then second.None?
    else second.Some? && multiset(first.value) == multiset(second.value)
  }

  /** `first.UnsortedEqual(second)`: counts `first`, takes `second` off the counts
      and checks that every count ends at zero. */
  method UnsortedEqual<T(==)>(first: Option<seq<T>>, second: Option<seq<T>>) returns (r: bool)
    ensures r <==> SameUnsorted(first, second)
  {
    if first.None? {
      return second.None?;
    }
    if second.None? {
      return false;
    }
    var f, s := first.value, second.value;
    if |f| != |s| {
      assert |multiset(f)| != |multiset(s)|;
      return false;
    }
    var d := Tally(f);
    var j := 0;
    while j < |s|
      invariant 0 <= j <= |s|
      invariant forall x :: Count(d, x) == multiset(f)[x] as int - multiset(s[..j])[x] as int
    {
      var it := s[j];
      assert s[..j + 1] == s[..j] + [it];
      if it !in d || d[it] == 0 {
        assert s == s[..j + 1] + s[j + 1..];
        assert multiset(s)[it] > multiset(f)[it];
        return false;
      }
      d := d[it := d[it] - 1];
      j := j + 1;
    }
    assert s[..j] == s;
    r := forall k | k in d :: d[k] == 0;
    if r {
      forall x ensures multiset(f)[x] == multiset(s)[x] {
        assert Count(d, x) == 0;
      }
      assert multiset(f) == multiset(s);
    } else {
      var k :| k in d && d[k] != 0;
      assert Count(d, k) != 0;
    }
  }

  /** UnsortedEqual is symmetric. */
  lemma SameUnsortedSymmetric<T>(first: Option<seq<T>>, second: Option<seq<T>>)
    requires SameUnsorted(first, second)
    ensures SameUnsorted(second, first)
  {
  }

  /** `left.DisjunctLeft(right)`: counts `right`, then walks `left` and skips an element
      while its count is positive, yielding the rest. */
  method DisjunctLeft<T(==)>(left: seq<T>, right: Option<seq<T>>) returns (r: seq<T>)
    ensures right.None? || right.value == [] ==> r == left
    ensures r == Disjunct(left, multiset(OrEmpty(right)))
  {
    if right.None? || right.value == [] {
      DisjunctNothing(left);
      return left;
    }
    var o := right.value;
    var dict := Tally(o);
    r := SkipCounted(left, o, dict);
  }

  /** The second loop of DisjunctLeft: an element is skipped while its count is
      positive, and the count goes down. */
  method SkipCounted<T(==)>(left: seq<T>, o: seq<T>, dict0: map<T, int>) returns (r: seq<T>)
    requires forall x :: Count(dict0, x) == multiset(o)[x]
    ensures r == Disjunct(left, multiset(o))
  {
    var dict := dict0;
    r := [];
    var j := 0;
    while j < |left|
      invariant 0 <= j <= |left|
      invariant r == Disjunct(left[..j], multiset(o))
      invariant forall x :: Count(dict, x) == Unused(o, left[..j], x)
    {
      var it := left[j];
      assert left[..j + 1] == left[..j] + [it];
      DisjunctStep(left[..j], it, multiset(o));
      UnusedStep(o, left[..j], it);
      if it in dict && dict[it] > 0 {
        dict := dict[it := dict[it] - 1];
      } else {
        r := r + [it];
      }
      j := j + 1;
    }
    assert left[..j] == left;
  }

  /** An entry without data, or whose reference is null. */
  predicate IsNullEntry(entry: Entry)
  {
    entry.data.None? || entry.data.value.reference.None?
  }

  /** The record the link cache resolves a reference to, if it is a list of the kind
      being patched. */
  function Resolve(cache: LinkCache, target: FormKey): Option<LeveledList>
  {
    if target in cache then Some(cache[target]) else None
  }

  /** A null entry, or one whose reference resolves to a list of the same kind whose
      entries are null or empty; a reference that does not resolve is kept. */
  function IsNullOrEmptySublist(entry: Entry, cache: LinkCache): (r: bool)
    ensures IsNullEntry(entry) ==> r
    ensures !IsNullEntry(entry) ==>
      (r <==> match Resolve(cache, entry.data.value.reference.value)
                case None => false
                case Some(list) => OrEmpty(list.entries) == [])
  {
    match entry.data
    case None => true
    case Some(data) =>
      match data.reference
      case None => true
      case Some(target) =>
        target in cache && (cache[target].entries.None? || |cache[target].entries.value| == 0)
  }

  /** A calendar date as DateTime.Today supplies it. */
  datatype Date = Date(year: int, month: int, day: int)

  predicate ValidDate(d: Date)
  {
    1 <= d.year <= 9999 && 1 <= d.month <= 12 && 1 <= d.day <= 31
  }

  /** The year field of the stamp: years since 2000, at least 1. */
  function StampYear(d: Date): int
  {
    if d.year - 2000 > 1 then d.year - 2000 else 1
  }

  /** The version-control stamp: day in bits 0-4, month in bits 5-8, and the
      StampYear from bit 9; each field reads back unchanged. */
  function Timestamp(d: Date): (r: bv32)
    requires ValidDate(d)
    ensures r & 0x1F == d.day as bv32
    ensures (r >> 5) & 0xF == d.month as bv32
    ensures r >> 9 == StampYear(d) as bv32
  {
    var y, m, day := StampYear(d) as bv32, d.month as bv32, d.day as bv32;
    StampFields(y, m, day);
    (y << 9) | (m << 5) | day
  }

  lemma StampFields(y: bv32, m: bv32, day: bv32)
    requires y < 0x8000 && m < 16 && day < 32
    ensures ((y << 9) | (m << 5) | day) & 0x1F == day
    ensures (((y << 9) | (m << 5) | day) >> 5) & 0xF == m
    ensures ((y << 9) | (m << 5) | day) >> 9 == y
  {
  }

  /** The master references a plugin of the priority order lists, or none when the
      plugin is not in it (`FirstOrDefault(...)?.MasterReferences ?? Empty`). */
  function MastersIn(order: seq<ModInfo>, m: ModKey): (r: seq<ModKey>)
    ensures (forall k :: 0 <= k < |order| ==> order[k].key != m) ==> r == []
    ensures forall k :: FirstAt(order, m, k) ==> r == order[k].masters
  {
    if order == [] then []
    else if order[0].key == m then order[0].masters
    else
      FirstAtShift(order, m);
      MastersIn(order[1..], m)
  }

  /** Index k holds the first entry of the priority order for plugin m. */
  predicate FirstAt(order: seq<ModInfo>, m: ModKey, k: int)
  {
    0 <= k < |order| && order[k].key == m && forall j :: 0 <= j < k ==> order[j].key != m
  }

  /** Past a first entry for another plugin, the first entry for m moves down by one. */
  lemma FirstAtShift(order: seq<ModInfo>, m: ModKey)
    requires order != [] && order[0].key != m
    ensures forall k :: FirstAt(order, m, k) ==> FirstAt(order[1..], m, k - 1) && order[1..][k - 1] == order[k]
    ensures (forall k :: 0 <= k < |order[1..]| ==> order[1..][k].key != m) ==> forall k :: 0 <= k < |order| ==> order[k].key != m
  {
    forall k | FirstAt(order, m, k)
      ensures FirstAt(order[1..], m, k - 1)
    {
      assert forall j :: 0 <= j < k - 1 ==> order[1..][j] == order[j + 1];
    }
  }

  /** The plugins that define the record. */
  function ModsOf(contexts: seq<Context>): set<ModKey>
  {
    set c | c in contexts :: c.mod
  }

  /** The defining plugins that are a master of each of the first n contexts' plugins. */
  function MastersOfFirst(contexts: seq<Context>, priority: seq<ModInfo>, n: nat): set<ModKey>
    requires n <= |contexts|
  {
    set m | m in ModsOf(contexts) && forall k :: 0 <= k < n ==> m in MastersIn(priority, contexts[k].mod)
  }

  lemma MastersOfFirstStep(contexts: seq<Context>, priority: seq<ModInfo>, i: nat)
    requires i < |contexts|
    ensures MastersOfFirst(contexts, priority, i + 1) ==
      MastersOfFirst(contexts, priority, i) * (set m | m in MastersIn(priority, contexts[i].mod))
  {
  }

  /** The record of the first context whose plugin is in `keys`, else `fallback`. */
  function FirstWithModIn(contexts: seq<Context>, keys: set<ModKey>, fallback: LeveledList): (r: LeveledList)
    ensures r == fallback || exists i :: 0 <= i < |contexts| && contexts[i].mod in keys && r == contexts[i].record
    ensures forall i :: (0 <= i < |contexts| && contexts[i].mod in keys &&
                         (forall j :: 0 <= j < i ==> contexts[j].mod !in keys)) ==> r == contexts[i].record
  {
    if contexts == [] then fallback
    else if contexts[0].mod in keys then contexts[0].record
    else
      var r := FirstWithModIn(contexts[1..], keys, fallback);
      assert forall i :: 1 <= i < |contexts| ==> contexts[1..][i - 1] == contexts[i];
      r
  }

  /** What GetLowestOverride returns for the contexts of a record (highest priority
      first) and the priority order; an empty context list fails at the index. */
  function LowestOverride(contexts: seq<Context>, priority: seq<ModInfo>): Result<LeveledList>
  {
    if contexts == [] then Fail(IndexOutOfRange)
    else
      var origin := contexts[|contexts| - 1].record;
      if |contexts| <= 2 then Ok(origin)
      else
        var keys := MastersOfFirst(contexts, priority, |contexts|);
        if |keys| > 0 then Ok(FirstWithModIn(contexts, keys, origin)) else Ok(origin)
  }

  /** The narrowing loop of GetLowestOverride: starting from the defining plugins,
      keep those that are a master of each context's plugin in turn. */
  method SharedMasters(contexts: seq<Context>, priority: seq<ModInfo>) returns (keys: set<ModKey>)
    ensures keys == MastersOfFirst(contexts, priority, |contexts|)
  {
    keys := ModsOf(contexts);
    var i := 0;
    while i < |contexts|
      invariant 0 <= i <= |contexts|
      invariant keys == MastersOfFirst(contexts, priority, i)
    {
      var masters := MastersIn(priority, contexts[i].mod);
      MastersOfFirstStep(contexts, priority, i);
      keys := keys * (set m | m in masters);
      i := i + 1;
    }
  }

  /** GetLowestOverride: narrows the set of defining plugins to the masters of each
      context's plugin in turn, then takes the first context left in it. */
  method GetLowestOverride(contexts: seq<Context>, priority: seq<ModInfo>) returns (r: Result<LeveledList>)
    ensures r == LowestOverride(contexts, priority)
  {
    if |contexts| == 0 {
      return Fail(IndexOutOfRange);
    }
    var origin := contexts[|contexts| - 1].record;
    if |contexts| <= 2 {
      return Ok(origin);
    }
    var keys := SharedMasters(contexts, priority);
    if |keys| > 0 {
      return Ok(FirstWithModIn(contexts, keys, origin));
    }
    return Ok(origin);
  }

  /** With three or more contexts the result is the origin or the record of the first
      context whose plugin is a master of every defining plugin, itself included. */
  lemma LowestOverrideIsSharedMaster(contexts: seq<Context>, priority: seq<ModInfo>)
    requires |contexts| > 2
    ensures var r := LowestOverride(contexts, priority).value;
      r == contexts[|contexts| - 1].record ||
      exists i :: 0 <= i < |contexts| && r == contexts[i].record &&
        forall k :: 0 <= k < |contexts| ==> contexts[i].mod in MastersIn(priority, contexts[k].mod)
  {
  }

  /** A plugin never lists itself as a master, so no defining plugin is a master of
      every defining plugin and the result is always the origin. */
  lemma LowestOverrideIsOrigin(contexts: seq<Context>, priority: seq<ModInfo>)
    requires contexts != []
    requires forall c :: c in contexts ==> c.mod !in MastersIn(priority, c.mod)
    ensures LowestOverride(contexts, priority) == Ok(contexts[|contexts| - 1].record)
  {
    if |contexts| > 2 {
      var keys := MastersOfFirst(contexts, priority, |contexts|);
      forall m | m in keys ensures false {
      }
      assert keys == {};
    }
  }

  /** The position of the first listed plugin with key m, or -1 (`IndexOf`). */
  function IndexOf(listed: seq<ModInfo>, m: ModKey): (r: int)
    ensures -1 <= r < |listed|
    ensures r >= 0 ==> listed[r].key == m && forall k :: 0 <= k < r ==> listed[k].key != m
    ensures r == -1 ==> forall k :: 0 <= k < |listed| ==> listed[k].key != m
  {
    if listed == [] then -1
    else if listed[0].key == m then 0
    else
      var i := IndexOf(listed[1..], m);
      assert forall k :: 1 <= k < |listed| ==> listed[1..][k - 1] == listed[k];
      if i == -1 then -1 else i + 1
  }

  /** `o` with `prefix` put in front of a successful result. */
  function Prefixed(prefix: seq<Context>, o: Result<seq<Context>>): Result<seq<Context>>
  {
    if o.Ok? then Ok(prefix + o.value) else o
  }

  /** The walk of GetExtentContexts over the remaining contexts: a context is yielded
      unless its plugin is already in `refs`; a yielded context adds its plugin's
      masters to `refs`, which is then narrowed to the defining plugins. A yielded
      plugin missing from the listed order fails the index. */
  function ExtentWalk(rest: seq<Context>, keys: set<ModKey>, listed: seq<ModInfo>, refs: set<ModKey>): Result<seq<Context>>
    decreases |rest|
  {
    if rest == [] then Ok([])
    else if rest[0].mod in refs then ExtentWalk(rest[1..], keys, listed, refs)
    else
      var index := IndexOf(listed, rest[0].mod);
      if index < 0 then Fail(ArgumentOutOfRange)
      else
        var refs' := (refs + set m | m in listed[index].masters) * keys;
        Prefixed([rest[0]], ExtentWalk(rest[1..], keys, listed, refs'))
  }

  /** What GetExtentContexts yields for the contexts of a record (highest priority first). */
  function ExtentContexts(contexts: seq<Context>, listed: seq<ModInfo>): Result<seq<Context>>
  {
    if |contexts| <= 2 then Ok(if contexts == [] then [] else [contexts[0]])
    else ExtentWalk(contexts[..|contexts| - 1], set c | c in contexts :: c.mod, listed, {})
  }

  /** GetExtentContexts: walks every context but the last, growing the set `refs` of
      masters already covered. */
  method GetExtentContexts(contexts: seq<Context>, listed: seq<ModInfo>) returns (r: Result<seq<Context>>)
    ensures r == ExtentContexts(contexts, listed)
  {
    if |contexts| <= 2 {
      if |contexts| > 0 {
        return Ok([contexts[0]]);
      }
      return Ok([]);
    }
    var refs: set<ModKey> := {};
    var keys := set c | c in contexts :: c.mod;
    var all := contexts[..|contexts| - 1];
    var out: seq<Context> := [];
    var i := 0;
    assert all[0..] == all;
    assert Prefixed([], ExtentWalk(all, keys, listed, refs)) == ExtentWalk(all, keys, listed, refs) by {
      if ExtentWalk(all, keys, listed, refs).Ok? {
        assert [] + ExtentWalk(all, keys, listed, refs).value == ExtentWalk(all, keys, listed, refs).value;
      }
    }
    while i < |all|
      invariant 0 <= i <= |all|
      invariant ExtentWalk(all, keys, listed, {}) == Prefixed(out, ExtentWalk(all[i..], keys, listed, refs))
    {
      var ctx := all[i];
      assert all[i..][1..] == all[i + 1..];
      if ctx.mod !in refs {
        var index := IndexOf(listed, ctx.mod);
        if index < 0 {
          return Fail(ArgumentOutOfRange);
        }
        refs := refs + set m | m in listed[index].masters;
        refs := refs * keys;
        PrefixedTwice(out, [ctx], ExtentWalk(all[i + 1..], keys, listed, refs));
        out := out + [ctx];
      }
      i := i + 1;
    }
    assert all[i..] == [];
    assert out + [] == out;
    return Ok(out);
  }

  lemma PrefixedTwice(a: seq<Context>, b: seq<Context>, o: Result<seq<Context>>)
    ensures Prefixed(a, Prefixed(b, o)) == Prefixed(a + b, o)
  {
    if o.Ok? {
      assert a + (b + o.value) == (a + b) + o.value;
    }
  }

  /** A successful walk yields a subsequence of the remaining contexts, and the first
      one whenever its plugin is not yet covered. */
  lemma {:induction false} ExtentWalkShape(rest: seq<Context>, keys: set<ModKey>, listed: seq<ModInfo>, refs: set<ModKey>)
    requires ExtentWalk(rest, keys, listed, refs).Ok?
    ensures IsSubseq(ExtentWalk(rest, keys, listed, refs).value, rest)
    ensures rest != [] && rest[0].mod !in refs ==>
      ExtentWalk(rest, keys, listed, refs).value != [] && ExtentWalk(rest, keys, listed, refs).value[0] == rest[0]
    decreases |rest|
  {
    if rest != [] {
      var out := ExtentWalk(rest, keys, listed, refs).value;
      assert rest == [rest[0]] + rest[1..];
      if rest[0].mod in refs {
        ExtentWalkShape(rest[1..], keys, listed, refs);
        SubseqConsRight(out, rest[1..], rest[0]);
      } else {
        var index := IndexOf(listed, rest[0].mod);
        var refs' := (refs + set m | m in listed[index].masters) * keys;
        ExtentWalkShape(rest[1..], keys, listed, refs');
        SubseqCons(ExtentWalk(rest[1..], keys, listed, refs').value, rest[1..], rest[0]);
      }
    }
  }

  /** With two contexts or fewer only the first is yielded; otherwise the yielded
      contexts are an in-order selection of all but the last, starting with the first. */
  lemma ExtentContextsShape(contexts: seq<Context>, listed: seq<ModInfo>)
    requires ExtentContexts(contexts, listed).Ok?
    ensures |contexts| <= 2 ==> ExtentContexts(contexts, listed).value == contexts[..if contexts == [] then 0 else 1]
    ensures |contexts| > 2 ==>
      var out := ExtentContexts(contexts, listed).value;
      IsSubseq(out, contexts[..|contexts| - 1]) && out != [] && out[0] == contexts[0]
  {
    if |contexts| > 2 {
      ExtentWalkShape(contexts[..|contexts| - 1], set c | c in contexts :: c.mod, listed, {});
    }
  }

  /** The walk fails only on a yielded plugin that is missing from the listed order. */
  lemma {:induction false} ExtentWalkSucceeds(rest: seq<Context>, keys: set<ModKey>, listed: seq<ModInfo>, refs: set<ModKey>)
    requires forall c :: c in rest ==> IndexOf(listed, c.mod) >= 0
    ensures ExtentWalk(rest, keys, listed, refs).Ok?
    decreases |rest|
  {
    if rest != [] {
      assert forall c :: c in rest[1..] ==> c in rest;
      if rest[0].mod in refs {
        ExtentWalkSucceeds(rest[1..], keys, listed, refs);
      } else {
        var index := IndexOf(listed, rest[0].mod);
        ExtentWalkSucceeds(rest[1..], keys, listed, (refs + set m | m in listed[index].masters) * keys);
      }
    }
  }

  /** The entry lists of records, null as empty (`list.Entries?.ToList() ?? new()`). */
  function ListsOf(extentOrder: seq<LeveledList>): (r: seq<seq<Entry>>)
    ensures |r| == |extentOrder|
    ensures forall i :: 0 <= i < |r| ==> r[i] == OrEmpty(extentOrder[i].entries)
  {
    Project(extentOrder, (x: LeveledList) => OrEmpty(x.entries))
  }

  /** The entries `RemoveAll(IsNullOrEmptySublist)` keeps. */
  function Keep(cache: LinkCache): Entry -> bool
  {
    e => !IsNullOrEmptySublist(e, cache)
  }
}
